=== FILE: README.md ===
# File transcoding core, in Dafny

This project models the conversion core of a small Node.js file-transcoding
service. An uploaded JSON, XML, CSV or TXT file is read into a *dataset*: an
ordered list of records, each an ordered list of `{key, value}` entries. Nested
objects are flattened into `#`-joined keys, with `[i]` marking array elements.
A credit-card field (`tarjeta`) is replaced by a signed token. The dataset is
written out again as XML, CSV or TXT, and a polygon field (`poligono`) is
rewritten between well-known text (`POLYGON ((x y, …))`) and a GeoJSON
FeatureCollection.

JavaScript values are the datatype `JsValue.JVal`. Objects are ordered field
lists, so property order is observable as it is in the engine. Every throw is a
`Results.Result` error carrying the message and the `code` the source attaches.

The modules follow the source files:

- `Results`, `Text`, `JsValue`, `FileTypes`: the language runtime the core
  leans on. This covers `split`, `join`, `trim`, `toLowerCase`, property access
  and assignment, `Object.entries` and `Object.values`, the `\s` class and
  string conversion. `SeqFacts` holds a few generic facts about sequence
  concatenation that the proofs cite.
- `ObjectFlatter`: `src/utils/objectFlatter.util.js`. `FlattenRoundTrip`
  proves that unflattening undoes flattening.
- `MappingData`: `src/utils/mappingData.util.js`, the record builders for each
  input format.
- `DataParser`: `src/utils/dataParser.util.js`, the XML, CSV and TXT writers.
  `CsvRoundTrip` proves that the CSV reader undoes the CSV writer.
- `Polygon`: `src/utils/polygon.util.js`. Each regular expression is written
  out as the scan a backtracking engine performs.
- `ConvertFileService`: `src/service/convertFile.service.js`.

The file system and the XML and JSON parsers are the fields of an
`ConvertFileService.Io` value. Token signing is a function parameter
`tok: MappingData.Signer`. Each call the service makes to `removeFile` is
recorded, with its path, in the trace `ConvertFileService.Outcome.removed`.
Whether a removal succeeds belongs to the file system and is not modelled.

Behaviour of the code that is easy to misread, which the model follows:

- A CSV row with fewer cells than headers gives `undefined` for the missing
  cells, not `""`.
- The header line is the first line of the trimmed text, and headers come from
  the first record's keys only. They are not a union over all records.
- Only one leading and one trailing `"` are stripped from a cell.
- Flattening drops an own `__proto__` property holding a primitive: the write
  `result.__proto__ = v` reaches the prototype setter, which ignores it.
- A row too short to reach the `tarjeta` column signs `undefined`, which the
  JSON web token library refuses, so the whole conversion throws.
- `.txt` uploads are read with `,` as the delimiter, like `.csv`. The default of
  `;` applies only when the TXT builder is called directly.
- `convertDataToTXT` with no delimiter joins with `,`. This is what
  `Array.prototype.join(undefined)` does. `convertDataToCvs` defaults to `;`.

## Model

| member | source | states |
|---|---|---|
| ObjectFlatter.Flatten | src/utils/objectFlatter.util.js:1-27 | Flattening fails exactly when the input is `null` or `undefined` (`Object.entries` throws). Otherwise the written keys are pairwise distinct, because later writes to a key overwrite it in place. |
| ObjectFlatter.FlattenScalarFields | src/utils/objectFlatter.util.js:20-24 | An object whose fields are all primitives flattens to itself, in the same order, except that a `__proto__` field vanishes: `result.__proto__ = v` reaches the prototype setter and creates no own property. |
| ObjectFlatter.FlattenScalarArray | src/utils/objectFlatter.util.js:12-18 | An array of primitives under key `k` becomes the entries `k[0]`, `k[1]`, … holding the items in index order. |
| ObjectFlatter.FlattenCollapsesCoordinates | src/utils/objectFlatter.util.js:6-10 | Below any parent path ending in `geometry`, a `coordinates` array is written as its first element alone, under `parent#coordinates`. At the root this holds for any key ending in `geometry`. An empty array gives `undefined`. |
| ObjectFlatter.ItemKeyInjective | src/utils/objectFlatter.util.js:16 | Different indexes under the same key give different element keys. |
| ObjectFlatter.ItemKeyIsNotProto | src/utils/objectFlatter.util.js:16 | An element key ends in `]`, so writing it never reaches the `__proto__` setter. |
| ObjectFlatter.Assemble | src/utils/objectFlatter.util.js:1-27 | Assigning a sequence of writes into a result object keeps its keys distinct. |
| ObjectFlatter.AssembleFresh | src/utils/objectFlatter.util.js:1-27 | When the writes use fresh, distinct keys, the result is the old fields followed by the writes, in order. A `__proto__` write is the one exception: it reaches the prototype setter and adds nothing. |
| ObjectFlatter.MatchIndexed | src/utils/objectFlatter.util.js:45 | A successful match of `^(\w+)\[(\d+)\]$` returns a word name and a digit run that rebuild the whole segment. |
| ObjectFlatter.MatchIndexedComplete | src/utils/objectFlatter.util.js:45 | Every segment of the form `name[digits]` matches, with exactly that name and those digits. |
| ObjectFlatter.MatchIndexedNeedsBracket | src/utils/objectFlatter.util.js:45 | A segment without `[` is a plain property name. |
| ObjectFlatter.SetPath | src/utils/objectFlatter.util.js:40-67 | Walking the segments of a key keeps the container kind of every level it writes. Descending into a primitive fails, as strict-mode assignment to a primitive throws. |
| ObjectFlatter.SetElement | src/utils/objectFlatter.util.js:47-58 | An indexed segment fails on a primitive. Writing into an array gives an array. |
| ObjectFlatter.BlankIffAllSpace | src/utils/objectFlatter.util.js:36 | The key check rejects a key exactly when it is all whitespace. |
| ObjectFlatter.ApplyEntry | src/utils/objectFlatter.util.js:35-38 | A blank key throws `Key must be a string`. Otherwise an object stays an object. |
| ObjectFlatter.ApplyRecord | src/utils/objectFlatter.util.js:33-70 | Applying a record keeps the result an object. Any blank key in the record makes it fail. |
| ObjectFlatter.Unflatten | src/utils/objectFlatter.util.js:30-73 | There is one object per record, and the empty record gives `{}`. A blank key anywhere fails the whole call. |
| FlattenRoundTrip.FlattenRendered | src/utils/objectFlatter.util.js:1-27 | Flattening a restorable object writes one entry per leaf, keyed by that leaf's rendered path, in traversal order. No key of the result is integer-like, so the engine lists the entries in that same order. |
| FlattenRoundTrip.UnflattenRendered | src/utils/objectFlatter.util.js:30-73 | Unflattening those rendered leaves rebuilds the object, with the same keys, key order and values. |
| FlattenRoundTrip.FlattenUnflatten | src/utils/objectFlatter.util.js:1-73 | `unflattenObject([flattenObject(o)])` is `[o]` for every restorable object `o`. |
| FlattenRoundTrip.SegmentsOfRender | src/utils/objectFlatter.util.js:40-45 | Splitting a rendered key on `#` and matching each part gives back exactly the path that produced it. |
| FlattenRoundTrip.RenderInjective | src/utils/objectFlatter.util.js:3 | Different word paths render to different keys. |
| FlattenRoundTrip.RenderedDistinct | src/utils/objectFlatter.util.js:1-27 | The leaves of a restorable object render to pairwise distinct keys. |
| FlattenRoundTrip.JoinKeyRender | src/utils/objectFlatter.util.js:3 | `parent#key` is the rendering of the parent path extended by the property. |
| FlattenRoundTrip.ItemKeyRender | src/utils/objectFlatter.util.js:16 | `key[i]` is the rendering of the path extended by the indexed segment. |
| FlattenRoundTrip.RenderIsNotIndex | src/utils/objectFlatter.util.js:3-23 | The key of a rendered path of plain names is never an integer-like string, so the engine does not move it ahead of the other keys of the flattened result. |
| FlattenRoundTrip.RenderIsNotProto | src/utils/objectFlatter.util.js:3-23 | The key of a rendered path of plain names is never `__proto__`, so flattening a restorable object never reaches the prototype setter. |
| JsValue.LookupPut | src/utils/objectFlatter.util.js:10-23 | After `obj[k] = v`, reading the own property `k` sees `v`, unless `k` is `__proto__` and the object has no own `__proto__`: that assignment reaches the prototype setter and leaves the own properties alone. Every other property is unchanged. |
| JsValue.ArrayIndexOfNatToString | src/utils/objectFlatter.util.js:49-56 | The decimal rendering of `n` addresses array element `n`. |
| JsValue.Assign | src/utils/objectFlatter.util.js:51-65 | Assignment succeeds exactly on objects and on arrays with a canonical index key. The one exception is assigning an object to `__proto__` on an object without an own `__proto__`, which would change its prototype and is not modelled. On an object it overwrites in place or appends, as `Put` states. On an array, the written element reads back as the value. |
| JsValue.Get | src/utils/objectFlatter.util.js:51-64 | Reading fails on `null` and `undefined`. An object's own property reads as its value. A name every object inherits from `Object.prototype` (`__proto__`, `constructor`, `toString`, …) that is not an own property, and a named property of an array other than `length`, would read as a function or an object; they stop the model with the `Unmodelled` error. |
| JsValue.Entries | src/utils/objectFlatter.util.js:2 | `Object.entries` throws exactly on `null` and `undefined`. On an object it gives its fields. On an array it gives the index-keyed items. |
| MappingData.KeyValueList | src/utils/mappingData.util.js:5-13 | The result fails exactly when the input is `null` or `undefined`, or when a `tarjeta` entry holds a value the signer refuses, and then carries the signer's error for that entry. Otherwise it has the flattened keys in order, and each value is the flattened value, except under `tarjeta` where it is the token. |
| MappingData.KeyValueListOfFlatObject | src/utils/mappingData.util.js:5-13 | An object of primitive fields fails exactly when the signer refuses its `tarjeta` value. Otherwise it keeps its keys, their order and their values, except that the `tarjeta` field becomes the token and a `__proto__` field is gone. |
| MappingData.NullCardRefused | src/utils/mappingData.util.js:9-10 | With a signer that refuses an `undefined` or `null` payload, as the JSON web token library does, an object whose `tarjeta` is `null` makes the builder throw. |
| MappingData.NestedCardInClear | src/utils/mappingData.util.js:9 | Only a top-level `tarjeta` key is signed. A nested card number (`x#tarjeta`) passes through in clear. |
| MappingData.CardPathIsRoot | src/utils/mappingData.util.js:9 | The only path that renders to `tarjeta` is the top-level property itself. |
| MappingData.KeyValueListRoundTrip | src/utils/mappingData.util.js:5-13 | For a restorable object without a card field, unflattening the key-value list rebuilds the object. |
| MappingData.KeyValueLists | src/utils/mappingData.util.js:19 | Mapping over a list succeeds iff every item succeeds, with one record per item in order. A failure carries the error of the first failing item. |
| Results.Collect | src/utils/mappingData.util.js:40-46 | A `map` whose callback may throw succeeds exactly when every element does, with the results in order. Otherwise it carries the error of the first element that throws. |
| MappingData.ConvertJson | src/utils/mappingData.util.js:15-20 | A non-array gives exactly one record, its key-value list. An array gives one record per element, in order, each that element's key-value list. It fails exactly when the value, or some element, is `null` or `undefined` or holds a card value the signer refuses. |
| MappingData.ConvertJsonRoundTrip | src/utils/mappingData.util.js:15-20 | An array of restorable objects without a card field converts, and unflattening the records gives the array back. |
| MappingData.ConvertXml | src/utils/mappingData.util.js:22-32 | A root with other than one value throws `Invalid xml format`. A successful result implies exactly one root value. A `null` document fails with the engine's error instead. |
| MappingData.XmlEntityArray | src/utils/mappingData.util.js:26-31 | A repeated entity (an array under the first key of the root) gives one record per item. |
| MappingData.XmlSingleEntity | src/utils/mappingData.util.js:26-31 | A single entity object gives exactly one record, its key-value list, or that list's error. |
| MappingData.CellValue | src/utils/mappingData.util.js:41-45 | A present cell loses one surrounding quote at each end, and a missing cell is `undefined`. The card column holds the token of the raw cell, or of `undefined` when the cell is missing. It fails exactly when the signer refuses that payload, with the signer's error. |
| MappingData.LineRecord | src/utils/mappingData.util.js:40-46 | A data line becomes a record with exactly the header keys, in header order. The value under header `i` is the cell value of the line's `i`-th cell. The line fails exactly when some cell fails, which can only be a card cell, and carries the error of such a cell. |
| MappingData.ConvertCsv | src/utils/mappingData.util.js:34-48 | Fewer than two lines throws the shape error. Otherwise the call fails exactly when some data line fails, with that line's error. On success there is one record per data line, the record the line builds from the trimmed headers with the given delimiter, or `,` when none is given. Value `i` of record `j` is the cell value of cell `i` on data line `j`. |
| MappingData.CsvRefusedIffSingleLine | src/utils/mappingData.util.js:35-36 | A text whose trimmed form has no line feed is refused with the shape error. One with a line feed has at least two lines, so its data lines are read. |
| MappingData.ShortCardLineRefused | src/utils/mappingData.util.js:41-44 | With a signer that refuses an `undefined` payload, as the JSON web token library does, a data line too short to reach a `tarjeta` column makes the whole conversion throw. |
| MappingData.ConvertTxt | src/utils/mappingData.util.js:50 | The TXT reader is the CSV reader with `;` as the default delimiter. |
| DataParser.ObjectToXml | src/utils/dataParser.util.js:5-17 | Primitives pass through unchanged. Objects and arrays become markup text. |
| DataParser.XmlTextIsTree | src/utils/dataParser.util.js:5-17 | The markup is the serialization of a reference element tree: one element per property, and one element per item for arrays, named by the property. |
| DataParser.ArrayEntryHasNoWrapper | src/utils/dataParser.util.js:9-10 | An array property writes one element per item under the property's own name, with no wrapper element. |
| DataParser.ConvertDataToXml | src/utils/dataParser.util.js:19-23 | The document starts with `<root>` and ends with `</root>`. It is the serialization of a reference tree: a `root` element holding one `item` element per entity, each with the element tree of that entity. A non-array value counts as one entity. |
| DataParser.DocumentIsTree | src/utils/dataParser.util.js:19-23 | The `<root>` text around the `<item>` texts is the serialization of the `root` element over the entities' `item` trees. |
| DataParser.ItemsAreTree | src/utils/dataParser.util.js:21 | The `<item>` texts from any entity on are the serialized `item` elements from that entity on. |
| DataParser.ConvertDataToXmlSingle | src/utils/dataParser.util.js:20 | A non-array value writes as the one-element array holding it. |
| DataParser.Quote | src/utils/dataParser.util.js:30 | A cell is the value's string form between two double quotes. |
| DataParser.CsvLinesOf | src/utils/dataParser.util.js:28-33 | The header line joins the first record's keys. Each following line joins one record's quoted values, one line per record. |
| DataParser.ConvertDataToCsv | src/utils/dataParser.util.js:25-34 | The text is empty exactly when the dataset is empty. Otherwise it is the header line and the data lines joined by line feeds, with `;` as the delimiter when none is given. |
| DataParser.ConvertDataToTxt | src/utils/dataParser.util.js:36-45 | The TXT writer is the CSV writer, except that an omitted delimiter joins with `,`. |
| DataParser.OmittedDelimiterDiffers | src/utils/dataParser.util.js:36-45 | With no delimiter, the TXT and CSV writers give different text for the same dataset. |
| CsvRoundTrip.TextLinesBack | src/utils/mappingData.util.js:35 | The reader's trim-and-split of the written text gives exactly the written lines. |
| CsvRoundTrip.RecordBack | src/utils/mappingData.util.js:40-46 | Each written data line reads back as its record, with string values. |
| CsvRoundTrip.CsvRoundTrip | src/utils/dataParser.util.js:25-34 | For a safe dataset and delimiter, reading back the written CSV gives the dataset with every value in string form. |
| CsvRoundTrip.CsvRoundTripStrings | src/utils/mappingData.util.js:34-48 | For a safe dataset of string values, the CSV reader returns exactly the dataset the writer was given. |
| Polygon.Search | src/utils/polygon.util.js:16 | No match is reported exactly when no start position matches, and a reported match is the match at some start position. |
| Polygon.SearchLeftmost | src/utils/polygon.util.js:16 | The match `s.match` reports without the `g` flag is the leftmost: no start position before the reported one matches, so a text with several rings yields its first. |
| Polygon.LazyEndFirst | src/utils/polygon.util.js:16 | The lazy capture stops at the first position where the closing text follows. |
| Polygon.DropBreaks | src/utils/polygon.util.js:7 | Removing whitespace runs around line feeds leaves no line feed. |
| Polygon.CollapseSpace | src/utils/polygon.util.js:8 | After collapsing, no two whitespace characters are adjacent. Every character is a space or comes from the input. A leading non-space is kept. |
| Polygon.Tidy | src/utils/polygon.util.js:7-9 | The cleaned text has no line feed, no two adjacent whitespace characters, and no surrounding whitespace. |
| Polygon.InkDropBreaks | src/utils/polygon.util.js:7 | Dropping the whitespace runs around line feeds keeps every non-whitespace character, in order. |
| Polygon.InkCollapse | src/utils/polygon.util.js:8 | Collapsing whitespace runs keeps every non-whitespace character, in order. |
| Polygon.TidyKeepsInk | src/utils/polygon.util.js:7-9 | Cleaning keeps every non-whitespace character, in order: it only drops or replaces whitespace. |
| Text.InkTrim | src/utils/polygon.util.js:9 | `trim` keeps every non-whitespace character, in order. |
| Polygon.TidyIdempotent | src/utils/polygon.util.js:7-9 | Cleaning an already cleaned text changes nothing. |
| Polygon.StripTagsWithoutTag | src/utils/polygon.util.js:6 | A text with no `POLYGON` occurrence is not touched by the tag replacement. |
| Polygon.StripTagsOfRing | src/utils/polygon.util.js:6 | `POLYGON <ws>((body))` becomes `((body))` for a body without `)`. |
| Polygon.XmlToCsv | src/utils/polygon.util.js:4-11 | Only a `poligono` string containing `POLYGON` is rewritten, to the cleaned form of the string with its tags removed. Any other key or string passes through. For a `poligono` value that is not a string, it throws exactly when the value has no `includes` method, or is an array holding `"POLYGON"` and so reaches the missing `replace`. |
| Polygon.XmlToCsvOfRing | src/utils/polygon.util.js:4-11 | The XML-to-CSV rewrite of a tidy tagged ring is the bare ring `((body))`. |
| Polygon.Words | src/utils/polygon.util.js:21 | Splitting on whitespace runs gives at least one piece, and no piece holds whitespace. |
| Polygon.WordsOfJoin | src/utils/polygon.util.js:21 | Splitting space-joined tokens on whitespace gives the tokens back. |
| Polygon.RingOfText | src/utils/polygon.util.js:19-22 | Splitting the text of a ring on `,` and each pair on whitespace gives the ring back. |
| Polygon.WktToGeoJson | src/utils/polygon.util.js:13-45 | A non-string, or a string without a ring, passes through. A string with a ring becomes a FeatureCollection holding one Polygon feature. |
| Polygon.WktToGeoJsonOfText | src/utils/polygon.util.js:16-44 | The well-known text of a ring converts to the FeatureCollection of exactly that ring. |
| Polygon.GeoJsonToWkt | src/utils/polygon.util.js:47-55 | It succeeds exactly on an array of arrays. The text starts with `POLYGON ((` iff the current file type is `xml`, ignoring case, and always ends with `))`. |
| Polygon.GeoJsonToWktOfRing | src/utils/polygon.util.js:47-55 | The coordinate array of a ring, written for XML, is the well-known text of that ring. |
| Polygon.GeoJsonRoundTrip | src/utils/polygon.util.js:13-55 | GeoJSON coordinates written as text and read back give the FeatureCollection of the same ring. |
| Polygon.GeoJsonToWktOfNumbers | src/utils/polygon.util.js:47-55 | A ring of safe-integer coordinates, written for XML, is the well-known text of the ring's decimal forms, as `join` converts each number. |
| Polygon.GeoJsonNumbersRoundTrip | src/utils/polygon.util.js:13-55 | Safe-integer coordinates written as text and read back give the FeatureCollection of their decimal strings. |
| Polygon.CsvToWkt | src/utils/polygon.util.js:57-72 | A non-string passes through. A string whose trimmed form is already `POLYGON ((…))` text becomes that trimmed form. A string that is neither that nor holds a bare ring comes back unchanged. Any other string result is trimmed `POLYGON ((…))` text. |
| Polygon.WktOfShape | src/utils/polygon.util.js:71 | The text `CSVToWKT` builds is trimmed, starts with `POLYGON ((` and ends with `))`. |
| Polygon.CsvToWktIdempotent | src/utils/polygon.util.js:60-71 | Applying the CSV-to-WKT rewrite twice equals applying it once. |
| Polygon.CsvToWktOfBareRing | src/utils/polygon.util.js:64-71 | A bare ring `((x y,…))` becomes `POLYGON ((x y, …))` over the same pairs. |
| Polygon.HandlerToCsv | src/utils/polygon.util.js:74-83 | `xml` uses the XML-to-CSV rewrite. `json` writes the coordinates as a bare ring. Every other type throws `Unsupported file type`. |
| Polygon.HandlerToJson | src/utils/polygon.util.js:85-94 | It succeeds exactly for `xml`, `csv` and `txt`, with the WKT-to-GeoJSON conversion. Otherwise it throws `Unsupported file type`. |
| Polygon.HandlerToXml | src/utils/polygon.util.js:96-106 | `json` writes tagged well-known text. `csv` and `txt` use the CSV-to-WKT rewrite. Every other type throws `Unsupported file type`. |
| Polygon.HandlersIgnoreCase | src/utils/polygon.util.js:74-106 | File-type names that agree after lower-casing give the same outcome from all three handlers. |
| ConvertFileService.ExtensionAfterLastDot | src/service/convertFile.service.js:13 | The extension of `base.e` is `e` lower-cased, for a dot-free `e`, whatever dots `base` holds. |
| ConvertFileService.ExtensionWithoutDot | src/service/convertFile.service.js:13 | A path without a dot is its own extension, lower-cased. |
| ConvertFileService.FileConverter | src/service/convertFile.service.js:7-39 | A missing file fails before anything is read or `removeFile` is called. `removeFile` is called exactly when the extension is unsupported, and that error carries the upload code. `json`, `xml`, `csv` and `txt` files give the result of their builder on what the reader returns, or the reader's error; `csv` and `txt` are read with `,`. |
| ConvertFileService.Wrap | src/service/convertFile.service.js:48-52 | The rethrown error always has a message and a code, keeping the original ones when present. |
| ConvertFileService.FileLogs | src/service/convertFile.service.js:41-57 | `removeFile` is always called last, on the path. The call succeeds iff the conversion does, with the same dataset. A failure is the converter's error rethrown with a message and a code, keeping the original ones when present. |
| ConvertFileService.RemovedTwiceIffUnsupported | src/service/convertFile.service.js:30 | `removeFile` is called twice exactly when the file exists with an unsupported extension, and once otherwise. |
| ConvertFileService.MissingFile | src/service/convertFile.service.js:8-11 | A missing file is reported as `File not found: <path>` with the processing-error code, and only the final `removeFile` call happens. |
| ConvertFileService.UnsupportedKeepsCode | src/service/convertFile.service.js:29-36 | An unsupported extension surfaces as `Unsupported file type: <ext>` with the upload code kept through the rethrow. |

## Left out

- Property order for integer-like keys: the engine lists them first, in numeric order. Here objects keep insertion order. This affects the objects the readers produce, which are taken as given, and also the objects the core builds: the shared result of flattening, and the objects and arrays unflattening fills.
- `ObjectFlatter.Flatten`, `MappingData.KeyValueList`, `MappingData.KeyValueListOfFlatObject`, `MappingData.ConvertJson`: the key order they state is the order of the writes. When a written key is integer-like, the engine's order can differ. `{"1": {"x": 1}, "2": 5}` flattens to `1#x`, `2` here, and the engine lists `2` first. The CSV header order and XML element order built from such records differ in the same way. The restorable objects of the round-trip lemmas have no integer-like keys, and `FlattenRoundTrip.RenderIsNotIndex` shows that their flattened keys have none either.
- Text is a sequence of characters, not UTF-16 code units. `toLowerCase` and `toUpperCase` map ASCII letters only.
- `parseFloat` in `WKTtoGeoJSON` is not modelled: coordinates stay as the strings the text holds. Numbers are `JNum` with an integer payload.
- Engine error wording: a `TypeError` is `TypeError: <detail>` with an invented detail, since only its presence matters to the callers.
- Token signing (`src/utils/security/jwt.security.util.js`) is the parameter `tok`. It returns a token or the error `jwt.sign` throws. `MappingData.RefusesMissing` states the library's refusal of an `undefined` or `null` payload. Nothing else about the library is modelled: which other payloads or secrets it refuses is up to the parameter.
- `JsValue.Get`: an inherited member of `Object.prototype`, read through a name the object does not own, gives the `Unmodelled` error. The source reads a function or the prototype there. So `unflattenObject` on a key such as `constructor#x` fails here, while the source assigns `x` onto the `Object` function. Likewise, after `obj.__proto__ = null` the model still treats those names as inherited.
- `JsValue.Assign`: assigning an object to `__proto__` on an object without an own `__proto__` changes its prototype in the source; here it gives the `Unmodelled` error. So the key `__proto__#x`, which in the source walks into `Object.prototype` and sets `x` on every object, fails here instead of changing global state.
- `ObjectFlatter.SetPath`: named (non-index) properties on arrays give the `Unmodelled` error instead of a value. Indices of 2^32 − 1 and above are not modelled: the engine treats them as named properties, and the model as elements.
- Array holes: arrays are dense sequences. Writing past the end of an array pads it with `undefined`, where the engine leaves holes. The engine's `forEach`, `map` and `Object.entries` skip holes, while the model visits the padding as `undefined`. So for `{"a[1]": "x"}`, the source's unflattened `{a: [<hole>, "x"]}` flattens back to `a[1]` alone and writes `<a>x</a>` as XML. The model's `{a: [undefined, "x"]}` also writes `a[0]`, and `<a>undefined</a>` before `<a>x</a>`.
- `ObjectFlatter.Unflatten`: the source also rejects a key whose `typeof` is not `'string'`. Keys here are always strings, because a record's keys are `string`, so that branch is not modelled.
- The file system, the JSON and XML parsers, `async`, and console logging are not modelled. The readers are the functions in `ConvertFileService.Io`. A reader returning nothing for a vanished file cannot happen after the existence check.
- `convertDataToJson` is `JSON.stringify` with indentation, so it is left out.
- The upload code catalogue and the file-type constants file are not part of this model. The codes are written as their property names, and the file types as the lower-case names the switch compares with.
- The `fileType` parameter of `fileConverter` is unused by the source and not modelled.
- The upload controller, `src/utils/fileHandler.util.js`, and behaviour that appears only in the test files are not part of this model.
- `FlattenRoundTrip.FlattenUnflatten`, `FlattenRoundTrip.FlattenRendered`, `FlattenRoundTrip.UnflattenRendered`, `MappingData.KeyValueListRoundTrip`, `MappingData.ConvertJsonRoundTrip`: stated only for restorable objects. Their keys are distinct `\w+` words that no object inherits from `Object.prototype` (so not `__proto__`, `constructor`, `toString` and the like) and that are not integer-like (so not `0`, `1`, `42`); no key `coordinates` holds an array; no array sits directly inside an array; and no object or array is empty. The last two lemmas also exclude a top-level `tarjeta` key. The condition is sufficient, not necessary: `{"a-b": 1}` and `{"x": {"coordinates": [1, 2]}}` also round-trip in the source, but the lemmas do not cover them.
- `CsvRoundTrip.CsvRoundTrip`: holds only for datasets whose text holds no delimiter, quote or line break, and whose records share the header keys. Values come back in string form.
- `Polygon.GeoJsonRoundTrip`: holds only for rings of non-empty, whitespace-free, comma-free and bracket-free coordinate tokens. `Polygon.GeoJsonNumbersRoundTrip` covers safe-integer coordinates. Fractional numbers are not modelled, since `JNum` holds an integer.
- `JsValue.ToJsString`: writes every `JNum` in plain decimal. JavaScript switches to exponent form from 10^21 (`1e+21`), and a double holds integers exactly only up to 2^53. `JNum` does not model doubles, so `Polygon.GeoJsonToWktOfNumbers` and `Polygon.GeoJsonNumbersRoundTrip` are stated for safe integers (`Number.isSafeInteger`) only.
- `Polygon.GeoJsonToWkt`: the `value === 'object'` test compares a value with a string, so it is always false. The model therefore always joins the value itself.
- `Polygon.WktToGeoJson`: states only that a ring gives some FeatureCollection. The ring it carries is pinned down by `Polygon.WktToGeoJsonOfText` for text of the written form.
- `MappingData.ConvertXml`: a root whose single value has no entity, or whose entity is `null`/`undefined`, fails with the engine's error. The contract states only the format check and the success shape.

=== FILE: convert_file_service.dfy ===
/** `src/service/convertFile.service.js`: choosing a record builder by file
    extension, wrapping every failure as a service error, and calling `removeFile` on the
    uploaded file. The file system and the parsers are the fields of an `Io`
    value; the paths the service passes to `removeFile` are returned as a trace.
    `removeFile` deletes only a file that exists, so the trace records calls, not
    deletions. */
module ConvertFileService {
  import opened Results
  import opened Text
  import opened JsValue
  import opened FileTypes
  import opened MappingData

  /** What the service can learn about a path: whether it exists and what each
      reader makes of it. A reader that throws (a parse error, a failed read)
      gives `Err`. */
  datatype Io = Io(
    fileExists: string -> bool,
    readJson: string -> Result<JVal>,
    readXml: string -> Result<JVal>,
    readText: string -> Result<string>)

  /** The result of a call and the paths it passed to `removeFile`, in call order. */
  datatype Outcome = Outcome(result: Result<Dataset>, removed: seq<string>)

  /** The codes of the upload error catalogue, written as their property names. */
  const UploadFileTypeNotSupported := "UPLOAD_FILE_TYPE_NOT_SUPPORTED"
  const ProcessingFileError := "PROCESSINGFILE_ERROR"
  const DefaultMessage := "Error processing file"

  /** `filePath.split('.').pop().toLowerCase()`. */
  function Extension(path: string): (ext: string)
    ensures |ext| <= |path|
  {
    var parts := Split(path, ".");
    JoinEndsWithLast(parts, ".");
    Lower(parts[|parts| - 1])
  }

  /** `fileConverter(filePath, secretKey)`. A missing file fails before any read;
      json and xml go to their builders; csv and txt both go to the CSV builder
      with `,` as the delimiter; any other extension passes the file to `removeFile` and fails. */
  function FileConverter(io: Io, path: string, secret: string, tok: Signer): (o: Outcome)
    ensures !io.fileExists(path) ==> o == Outcome(Err(JsError("File not found: " + path, "")), [])
    ensures o.removed == [] || o.removed == [path]
    ensures o.removed == [path] <==> io.fileExists(path) && Extension(path) !in {Json, Xml, Csv, Txt}
    ensures o.removed == [path] ==>
              o.result == Err(JsError("Unsupported file type: " + Extension(path), UploadFileTypeNotSupported))
    ensures io.fileExists(path) && Extension(path) == Json ==>
              o.result == if io.readJson(path).Ok? then ConvertJson(io.readJson(path).value, secret, tok)
                          else Err(io.readJson(path).error)
    ensures io.fileExists(path) && Extension(path) == Xml ==>
              o.result == if io.readXml(path).Ok? then ConvertXml(io.readXml(path).value, secret, tok)
                          else Err(io.readXml(path).error)
    ensures io.fileExists(path) && (Extension(path) == Csv || Extension(path) == Txt) ==>
              o.result == if io.readText(path).Ok? then ConvertCsv(io.readText(path).value, Some(","), secret, tok)
                          else Err(io.readText(path).error)
  {
    if !io.fileExists(path) then Outcome(Err(JsError("File not found: " + path, "")), [])
    else
      var ext := Extension(path);
      if ext == Json then
        var data := io.readJson(path);
        Outcome(if data.Ok? then ConvertJson(data.value, secret, tok) else Err(data.error), [])
      else if ext == Xml then
        var data := io.readXml(path);
        Outcome(if data.Ok? then ConvertXml(data.value, secret, tok) else Err(data.error), [])
      else if ext == Csv || ext == Txt then
        var data := io.readText(path);
        Outcome(if data.Ok? then ConvertCsv(data.value, Some(","), secret, tok) else Err(data.error), [])
      else
        Outcome(Err(JsError("Unsupported file type: " + ext, UploadFileTypeNotSupported)), [path])
  }

  /** `e.message || 'Error processing file'` and `e.code || PROCESSINGFILE_ERROR`. */
  function Wrap(e: JsError): (w: JsError)
    ensures w.message != "" && w.code != ""
    ensures e.message != "" ==> w.message == e.message
    ensures e.code != "" ==> w.code == e.code
  {
    JsError(if e.message == "" then DefaultMessage else e.message,
            if e.code == "" then ProcessingFileError else e.code)
  }

  /** `fileLogs(filePath, secretKey)`: the converter's records, or its failure
      rethrown as a service error that keeps a non-empty message and code; the
      `finally` block calls `removeFile` on every exit. */
  function FileLogs(io: Io, path: string, secret: string, tok: Signer): (o: Outcome)
    ensures |o.removed| >= 1 && o.removed[|o.removed| - 1] == path
    ensures forall q :: q in o.removed ==> q == path
    ensures o.result.Ok? <==> FileConverter(io, path, secret, tok).result.Ok?
    ensures o.result.Ok? ==> o.result == FileConverter(io, path, secret, tok).result
    ensures o.result.Err? ==> o.result.error.message != "" && o.result.error.code != ""
    ensures o.result.Err? ==> o.result.error == Wrap(FileConverter(io, path, secret, tok).result.error)
  {
    var inner := FileConverter(io, path, secret, tok);
    var result := if inner.result.Ok? then inner.result else Err(Wrap(inner.result.error));
    Outcome(result, inner.removed + [path])
  }

  /** `removeFile` is called twice exactly on the unsupported-extension path, once
      by the converter and once by the `finally` block. */
  lemma RemovedTwiceIffUnsupported(io: Io, path: string, secret: string, tok: Signer)
    ensures |FileLogs(io, path, secret, tok).removed| == 2 <==>
            io.fileExists(path) && Extension(path) !in {Json, Xml, Csv, Txt}
    ensures |FileLogs(io, path, secret, tok).removed| in {1, 2}
  {
  }

  /** A missing file fails with its path in the message and the processing code,
      whatever the readers would have given; `removeFile` is still called once. */
  lemma MissingFile(io: Io, path: string, secret: string, tok: Signer)
    requires !io.fileExists(path)
    ensures FileLogs(io, path, secret, tok) ==
            Outcome(Err(JsError("File not found: " + path, ProcessingFileError)), [path])
  {
  }

  /** An unsupported extension keeps its own message and code through the
      wrapping. */
  lemma UnsupportedKeepsCode(io: Io, path: string, secret: string, tok: Signer)
    requires io.fileExists(path) && Extension(path) !in {Json, Xml, Csv, Txt}
    ensures FileLogs(io, path, secret, tok).result ==
            Err(JsError("Unsupported file type: " + Extension(path), UploadFileTypeNotSupported))
  {
    assert |"Unsupported file type: " + Extension(path)| > 0;
  }

  // ---------------------------------------------------------------- the extension

  /** Two ways of writing one path as text, dot, dot-free text agree on the part
      after the dot. */
  lemma SameTailAfterDot(a: string, x: string, b: string, y: string)
    requires a + "." + x == b + "." + y
    requires '.' !in x && '.' !in y
    ensures x == y
  {
    var s := a + "." + x;
    assert s == b + "." + y;
    forall m | |s| - |y| <= m < |s|
      ensures s[m] != '.'
    {
      assert s[m] == y[m - (|s| - |y|)];
      assert y[m - (|s| - |y|)] in y;
    }
    forall m | |s| - |x| <= m < |s|
      ensures s[m] != '.'
    {
      assert s[m] == x[m - (|s| - |x|)];
      assert x[m - (|s| - |x|)] in x;
    }
    assert s[|s| - |x| - 1] == '.';
    assert (b + "." + y)[|s| - |y| - 1] == '.';
    assert |x| == |y|;
    assert x == s[|s| - |x|..];
    assert y == (b + "." + y)[|s| - |y|..];
  }

  /** The extension of `base.e`, for a dot-free `e`, is `e` lower-cased. */
  lemma ExtensionAfterLastDot(base: string, e: string)
    requires '.' !in e
    ensures Extension(base + "." + e) == Lower(e)
  {
    var s := base + "." + e;
    var parts := SplitOn(s, ".");
    var n := |parts|;
    SeveralPieces(base, e);
    var last := parts[n - 1];
    LastPieceDotFree(s);
    assert parts == parts[..n - 1] + [last];
    JoinSnoc(parts[..n - 1], last, ".");
    SameTailAfterDot(base, e, Join(parts[..n - 1], "."), last);
  }

  lemma SeveralPieces(base: string, e: string)
    ensures |SplitOn(base + "." + e, ".")| >= 2
  {
    var s := base + "." + e;
    SplitOnPieces(s, ".");
    assert s[|base|..|base| + 1] == ".";
    assert OccursAt(s, ".", |base|);
  }

  lemma LastPieceDotFree(s: string)
    ensures var parts := SplitOn(s, "."); '.' !in parts[|parts| - 1]
  {
    var parts := SplitOn(s, ".");
    SplitOnPieces(s, ".");
    var last := parts[|parts| - 1];
    assert !Contains(last, ".");
    forall k | 0 <= k < |last|
      ensures last[k] != '.'
    {
      assert !OccursAt(last, ".", k);
      assert last[k..k + 1] == [last[k]];
    }
  }

  /** A path without a dot is its own extension, lower-cased. */
  lemma ExtensionWithoutDot(path: string)
    requires '.' !in path
    ensures Extension(path) == Lower(path)
  {
    SplitOnPieces(path, ".");
    forall k | 0 <= k <= |path| - 1
      ensures !OccursAt(path, ".", k)
    {
      assert path[k..k + 1] == [path[k]];
      assert path[k] in path;
    }
  }
}

=== FILE: csv_round_trip.dfy ===
/** The delimited-text encoder and the CSV record builder are inverse on datasets
    whose text cannot be confused with the format's own separators: reading back
    the text written for a dataset gives the dataset with every value in its string
    form. */
module CsvRoundTrip {
  import opened Results
  import opened Text
  import opened JsValue
  import opened MappingData
  import opened DataParser

  /** Text that survives a cell: no delimiter and no line break inside. */
  predicate SafeText(s: string, d: char) {
    d !in s && '\n' !in s && '\r' !in s
  }

  /** A header that reads back as itself: safe, already trimmed and not the card
      key (which the builder would sign). */
  predicate SafeKey(k: string, d: char) {
    SafeText(k, d) && Trim(k) == k && k != CardKey
  }

  /** The datasets the round trip holds for: at least one record, all records with
      the header's keys, a non-empty first key, and a delimiter that is neither
      whitespace nor a double quote. */
  predicate CsvSafe(data: Dataset, d: char) {
    && |data| > 0 && |data[0]| > 0 && |data[0][0].key| > 0
    && !IsSpace(d) && d != '"'
    && (forall j :: 0 <= j < |data| ==> Keys(data[j]) == Keys(data[0]))
    && (forall i :: 0 <= i < |data[0]| ==> SafeKey(data[0][i].key, d))
    && (forall j, i :: 0 <= j < |data| && 0 <= i < |data[j]| ==> SafeText(ToJsString(data[j][i].value), d))
  }

  /** Every value replaced by its string form, as the text carries it. */
  function Stringified(data: Dataset): (r: Dataset)
    ensures |r| == |data|
    ensures forall j :: 0 <= j < |data| ==> |r[j]| == |data[j]|
    ensures forall j, i :: 0 <= j < |data| && 0 <= i < |data[j]| ==>
              r[j][i] == Field(data[j][i].key, JStr(ToJsString(data[j][i].value)))
  {
    seq(|data|, j requires 0 <= j < |data| =>
      seq(|data[j]|, i requires 0 <= i < |data[j]| => Field(data[j][i].key, JStr(ToJsString(data[j][i].value)))))
  }

  // ---------------------------------------------------------------- the written lines

  lemma QuotedSafe(rec: Record, d: char)
    requires forall i :: 0 <= i < |rec| ==> SafeText(ToJsString(rec[i].value), d)
    requires d != '"'
    ensures forall i :: 0 <= i < |rec| ==> SafeText(QuotedValues(rec)[i], d)
  {
    forall i | 0 <= i < |rec|
      ensures SafeText(QuotedValues(rec)[i], d)
    {
      var s := ToJsString(rec[i].value);
      assert QuotedValues(rec)[i] == "\"" + s + "\"";
    }
  }

  /** No written line holds a line break, so the lines split back apart. */
  lemma LinesSafe(data: Dataset, d: char)
    requires CsvSafe(data, d)
    ensures var lines := CsvLinesOf(data, [d]);
            forall j :: 0 <= j < |lines| ==> '\n' !in lines[j] && '\r' !in lines[j]
  {
    var lines := CsvLinesOf(data, [d]);
    var keys := Keys(data[0]);
    CharNotInJoin(keys, [d], '\n');
    CharNotInJoin(keys, [d], '\r');
    forall j | 1 <= j < |lines|
      ensures '\n' !in lines[j] && '\r' !in lines[j]
    {
      QuotedSafe(data[j - 1], d);
      var q := QuotedValues(data[j - 1]);
      assert lines[j] == Join(q, [d]);
      CharNotInJoin(q, [d], '\n');
      CharNotInJoin(q, [d], '\r');
    }
  }

  /** The written text starts with the first key and ends with a closing quote, so
      trimming it changes nothing. */
  lemma TextTrimmed(data: Dataset, d: char)
    requires CsvSafe(data, d)
    ensures Trim(ConvertDataToCsv(data, Some([d]))) == ConvertDataToCsv(data, Some([d]))
  {
    var lines := CsvLinesOf(data, [d]);
    var text := Join(lines, "\n");
    assert ConvertDataToCsv(data, Some([d])) == text;
    HeaderStartsClean(data, d);
    LastLineEndsQuote(data, d);
    JoinFirstChar(lines, "\n");
    JoinLastChar(lines, "\n");
    TrimOfTrimmed(text);
  }

  /** The header line starts with the first key's first character. */
  lemma HeaderStartsClean(data: Dataset, d: char)
    requires CsvSafe(data, d)
    ensures var h := Join(Keys(data[0]), [d]); |h| > 0 && !IsSpace(h[0])
  {
    var keys := Keys(data[0]);
    var k0 := data[0][0].key;
    assert keys[0] == k0;
    assert !IsSpace(k0[0]) by {
      assert Trim(k0) == k0;
    }
    JoinFirstChar(keys, [d]);
  }

  /** The last data line ends with the closing quote of its last cell. */
  lemma LastLineEndsQuote(data: Dataset, d: char)
    requires CsvSafe(data, d)
    ensures var l := Join(QuotedValues(data[|data| - 1]), [d]); |l| > 0 && l[|l| - 1] == '"'
  {
    var last := data[|data| - 1];
    assert |last| > 0 by {
      assert Keys(last) == Keys(data[0]);
    }
    var q := QuotedValues(last);
    var lastCell := q[|q| - 1];
    assert lastCell[|lastCell| - 1] == '"';
    JoinLastChar(q, [d]);
  }

  lemma SplitLinesOfSafe(lines: seq<string>)
    requires |lines| > 0
    requires forall j :: 0 <= j < |lines| ==> '\n' !in lines[j] && '\r' !in lines[j]
    ensures SplitLines(Join(lines, "\n")) == lines
  {
    SplitJoin(lines, '\n');
    var r := SplitLines(Join(lines, "\n"));
    forall j | 0 <= j < |lines|
      ensures r[j] == lines[j]
    {
      var x := lines[j];
      if |x| > 0 {
        assert x[|x| - 1] in x;
      }
    }
  }

  // ---------------------------------------------------------------- reading cells back

  lemma HeadersBack(data: Dataset, d: char)
    requires CsvSafe(data, d)
    ensures Cells(Join(Keys(data[0]), [d]), [d]) == Keys(data[0])
  {
    var keys := Keys(data[0]);
    SplitJoin(keys, d);
    var r := Cells(Join(keys, [d]), [d]);
    forall i | 0 <= i < |keys|
      ensures r[i] == keys[i]
    {
      assert keys[i] == data[0][i].key;
    }
  }

  lemma CellsBack(rec: Record, d: char)
    requires |rec| > 0 && d != '"'
    requires forall i :: 0 <= i < |rec| ==> SafeText(ToJsString(rec[i].value), d)
    ensures Cells(Join(QuotedValues(rec), [d]), [d]) == QuotedValues(rec)
  {
    var q := QuotedValues(rec);
    QuotedSafe(rec, d);
    SplitJoin(q, d);
    forall i | 0 <= i < |q|
      ensures Trim(q[i]) == q[i]
    {
      TrimOfTrimmed(q[i]);
    }
    CellsOfTrimmed(Join(q, [d]), [d], q);
  }

  /** A line whose pieces are already trimmed has those pieces as its cells. */
  lemma CellsOfTrimmed(line: string, d: string, pieces: seq<string>)
    requires |d| > 0 && SplitOn(line, d) == pieces
    requires forall i :: 0 <= i < |pieces| ==> Trim(pieces[i]) == pieces[i]
    ensures Cells(line, d) == pieces
  {
    var r := Cells(line, d);
    forall i | 0 <= i < |pieces|
      ensures r[i] == pieces[i]
    {
    }
  }

  /** Each data line reads back as its record with string values. */
  lemma RecordBack(data: Dataset, d: char, j: nat, secret: string, tok: Signer)
    requires CsvSafe(data, d) && j < |data|
    ensures LineRecord(Keys(data[0]), Join(QuotedValues(data[j]), [d]), [d], secret, tok) == Ok(Stringified(data)[j])
  {
    var keys := Keys(data[0]);
    var rec := data[j];
    var q := QuotedValues(rec);
    var expected := Stringified(data)[j];
    assert |rec| == |Keys(rec)| == |keys|;
    CellsBack(rec, d);
    forall i | 0 <= i < |keys|
      ensures keys[i] != CardKey && i < |q| && expected[i] == Field(keys[i], JStr(StripQuotes(q[i])))
    {
      assert keys[i] == Keys(rec)[i] == rec[i].key;
      assert keys[i] == data[0][i].key;
    }
    LineRecordOf(keys, Join(q, [d]), [d], secret, tok, expected);
  }

  /** A line whose cells all lie under ordinary headers reads back as the record of
      its unquoted cells. */
  lemma LineRecordOf(headers: seq<string>, line: string, d: string, secret: string, tok: Signer, expected: Record)
    requires |expected| == |headers|
    requires forall i :: 0 <= i < |headers| ==>
               && headers[i] != CardKey && i < |Cells(line, d)|
               && expected[i] == Field(headers[i], JStr(StripQuotes(Cells(line, d)[i])))
    ensures LineRecord(headers, line, d, secret, tok) == Ok(expected)
  {
    var values := Cells(line, d);
    forall i | 0 <= i < |headers|
      ensures CellValue(headers[i], values, i, secret, tok) == Ok(expected[i].value)
    {
    }
    var r := LineRecord(headers, line, d, secret, tok);
    assert r.Ok? && |r.value| == |Keys(r.value)| == |headers|;
    forall i | 0 <= i < |headers|
      ensures r.value[i] == expected[i]
    {
      assert Keys(r.value)[i] == r.value[i].key;
    }
    assert r.value == expected;
  }

  /** The lines the reader finds in the written text are the lines written. */
  lemma TextLinesBack(data: Dataset, d: char)
    requires CsvSafe(data, d)
    ensures CsvLines(ConvertDataToCsv(data, Some([d]))) == CsvLinesOf(data, [d])
  {
    var lines := CsvLinesOf(data, [d]);
    assert ConvertDataToCsv(data, Some([d])) == Join(lines, "\n");
    TextTrimmed(data, d);
    LinesSafe(data, d);
    SplitLinesOfSafe(lines);
  }

  /** The reader's result is fixed by its header line and its data lines. */
  lemma ConvertCsvFrom(text: string, d: string, secret: string, tok: Signer, expected: Dataset)
    requires |expected| > 0 && |CsvLines(text)| == |expected| + 1
    requires forall j :: 0 <= j < |expected| ==>
               LineRecord(Cells(CsvLines(text)[0], d), CsvLines(text)[1..][j], d, secret, tok) == Ok(expected[j])
    ensures ConvertCsv(text, Some(d), secret, tok) == Ok(expected)
  {
    var lines := CsvLines(text);
    var headers := Cells(lines[0], d);
    var rows := lines[1..];
    forall j | 0 <= j < |expected|
      ensures DataRecord(text, d, j, secret, tok) == Ok(expected[j])
    {
      assert rows[j] == lines[j + 1];
    }
    var r := ConvertCsv(text, Some(d), secret, tok);
    assert r.Ok? && |r.value| == |expected|;
    forall j | 0 <= j < |expected|
      ensures r.value[j] == expected[j]
    {
      assert DataRecord(text, d, j, secret, tok) == Ok(r.value[j]);
    }
    assert r.value == expected;
  }

  /** Reading the CSV text written for a safe dataset with the same one-character
      delimiter gives the dataset back, every value as its string form. */
  lemma CsvRoundTrip(data: Dataset, d: char, secret: string, tok: Signer)
    requires CsvSafe(data, d)
    ensures ConvertCsv(ConvertDataToCsv(data, Some([d])), Some([d]), secret, tok) == Ok(Stringified(data))
  {
    var text := ConvertDataToCsv(data, Some([d]));
    var lines := CsvLinesOf(data, [d]);
    var s := Stringified(data);
    TextLinesBack(data, d);
    HeadersBack(data, d);
    assert Cells(lines[0], [d]) == Keys(data[0]);
    forall j | 0 <= j < |s|
      ensures LineRecord(Cells(lines[0], [d]), lines[1..][j], [d], secret, tok) == Ok(s[j])
    {
      RecordBack(data, d, j, secret, tok);
      assert lines[1..][j] == Join(QuotedValues(data[j]), [d]);
    }
    ConvertCsvFrom(text, [d], secret, tok, s);
  }

  /** A dataset whose values are all strings is its own string form. */
  lemma StringifiedStrings(data: Dataset)
    requires forall j, i :: 0 <= j < |data| && 0 <= i < |data[j]| ==> data[j][i].value.JStr?
    ensures Stringified(data) == data
  {
    var s := Stringified(data);
    forall j | 0 <= j < |data|
      ensures s[j] == data[j]
    {
      forall i | 0 <= i < |data[j]|
        ensures s[j][i] == data[j][i]
      {
      }
    }
  }

  /** A dataset of string values that is safe to write reads back unchanged. */
  lemma CsvRoundTripStrings(data: Dataset, d: char, secret: string, tok: Signer)
    requires CsvSafe(data, d)
    requires forall j, i :: 0 <= j < |data| && 0 <= i < |data[j]| ==> data[j][i].value.JStr?
    ensures ConvertCsv(ConvertDataToCsv(data, Some([d])), Some([d]), secret, tok) == Ok(data)
  {
    CsvRoundTrip(data, d, secret, tok);
    StringifiedStrings(data);
  }
}

=== FILE: data_parser.dfy ===
/** The encoders: a dataset or value rendered as XML elements or as delimited text.
    Both are plain string builders; nothing is escaped. */
module DataParser {
  import opened Results
  import opened Text
  import opened JsValue

  // ================================================================ XML

  /** `<tag>content</tag>`. */
  function Element(tag: string, content: string): string {
    "<" + tag + ">" + content + "</" + tag + ">"
  }

  /** `objectToXML(obj)`: any value that is not a non-null object comes back as it
      is; an object or array becomes the concatenated elements of its entries. */
  function ObjectToXml(v: JVal): (r: JVal)
    ensures !IsObject(v) ==> r == v
    ensures IsObject(v) ==> r.JStr?
    decreases v, 1
  {
    match v
    case JObj(fs) => JStr(FieldsXml(fs, 0))
    case JArr(items) => JStr(IndexXml(items, 0))
    case _ => v
  }

  /** `${objectToXML(v)}`: the text an interpolation of the encoder's result gives. */
  function XmlText(v: JVal): string
    decreases v, 2
  {
    ToJsString(ObjectToXml(v))
  }

  /** The fragment of one entry `[key, value]`: an array repeats the element once
      per item with no wrapper of its own, anything else (`null` included) is one
      element. */
  function EntryXml(key: string, value: JVal): string
    decreases value, 3
  {
    match value
    case JArr(items) => ItemsXml(key, items, 0)
    case _ => Element(key, XmlText(value))
  }

  function FieldsXml(fs: seq<Field>, i: nat): string
    requires i <= |fs|
    decreases fs, 0, |fs| - i
  {
    if i == |fs| then "" else EntryXml(fs[i].key, fs[i].value) + FieldsXml(fs, i + 1)
  }

  /** The entries of an array as `Object.entries` lists them: keyed by index. */
  function IndexXml(items: seq<JVal>, i: nat): string
    requires i <= |items|
    decreases items, 0, |items| - i
  {
    if i == |items| then "" else EntryXml(NatToString(i), items[i]) + IndexXml(items, i + 1)
  }

  /** The items `i..` of an array under `key`, one `<key>` element each. */
  function ItemsXml(key: string, items: seq<JVal>, i: nat): string
    requires i <= |items|
    decreases items, 0, |items| - i
  {
    if i == |items| then "" else Element(key, XmlText(items[i])) + ItemsXml(key, items, i + 1)
  }

  function Concat(parts: seq<string>): string {
    if |parts| == 0 then "" else parts[0] + Concat(parts[1..])
  }

  /** The entities of the document: the items of an array, or the value alone. */
  function EntityList(data: JVal): seq<JVal> {
    if data.JArr? then data.items else [data]
  }

  function ItemTexts(list: seq<JVal>): (r: seq<string>)
    ensures |r| == |list| && forall i :: 0 <= i < |list| ==> r[i] == Element("item", XmlText(list[i]))
  {
    seq(|list|, i requires 0 <= i < |list| => Element("item", XmlText(list[i])))
  }

  /** `convertDataToXML(data)`: every entity in an `<item>`, all of them in one
      `<root>`; a value that is not an array is a list of one. The text is the
      serialisation of the `root`/`item` element tree over the entities. */
  function ConvertDataToXml(data: JVal): (r: string)
    ensures StartsWith(r, "<root>") && EndsWith(r, "</root>")
    ensures r == Serialize(Elem("root", ItemNodes(EntityList(data))))
  {
    var list := EntityList(data);
    var r := "<root>" + Concat(ItemTexts(list)) + "</root>";
    assert r[..6] == "<root>";
    assert r[|r| - 7..] == "</root>";
    DocumentIsTree(list);
    r
  }

  /** A single entity and the list holding only it are encoded alike. */
  lemma ConvertDataToXmlSingle(v: JVal)
    requires !v.JArr?
    ensures ConvertDataToXml(v) == ConvertDataToXml(JArr([v]))
  {
  }

  // ---------------------------------------------------------------- the element tree

  /** An XML element tree, the reference the encoder is checked against. */
  datatype XNode = Elem(tag: string, children: seq<XNode>) | Text(text: string)

  function Serialize(n: XNode): string
    decreases n, 1
  {
    match n
    case Text(t) => t
    case Elem(tag, children) => "<" + tag + ">" + SerializeAll(children, 0) + "</" + tag + ">"
  }

  function SerializeAll(ns: seq<XNode>, i: nat): string
    requires i <= |ns|
    decreases ns, 0, |ns| - i
  {
    if i == |ns| then "" else Serialize(ns[i]) + SerializeAll(ns, i + 1)
  }

  /** The element tree of a value's content: an object or array gives one element
      per entry (one per item for an array-valued entry), anything else its text. */
  function ContentTree(v: JVal): seq<XNode>
    decreases v, 1
  {
    match v
    case JObj(fs) => FieldsTree(fs, 0)
    case JArr(items) => IndexTree(items, 0)
    case _ => [Text(ToJsString(v))]
  }

  function EntryTree(key: string, value: JVal): seq<XNode>
    decreases value, 2
  {
    match value
    case JArr(items) => ItemsTree(key, items, 0)
    case _ => [Elem(key, ContentTree(value))]
  }

  function FieldsTree(fs: seq<Field>, i: nat): seq<XNode>
    requires i <= |fs|
    decreases fs, 0, |fs| - i
  {
    if i == |fs| then [] else EntryTree(fs[i].key, fs[i].value) + FieldsTree(fs, i + 1)
  }

  function IndexTree(items: seq<JVal>, i: nat): seq<XNode>
    requires i <= |items|
    decreases items, 0, |items| - i
  {
    if i == |items| then [] else EntryTree(NatToString(i), items[i]) + IndexTree(items, i + 1)
  }

  function ItemsTree(key: string, items: seq<JVal>, i: nat): seq<XNode>
    requires i <= |items|
    decreases items, 0, |items| - i
  {
    if i == |items| then [] else [Elem(key, ContentTree(items[i]))] + ItemsTree(key, items, i + 1)
  }

  lemma {:induction false} SerializeAllConcat(a: seq<XNode>, b: seq<XNode>)
    ensures SerializeAll(a + b, 0) == SerializeAll(a, 0) + SerializeAll(b, 0)
    decreases |a|
  {
    if |a| > 0 {
      SerializeAllShift(a, 1);
      SerializeAllShift(a + b, 1);
      assert (a + b)[0] == a[0];
      assert (a + b)[1..] == a[1..] + b;
      SerializeAllConcat(a[1..], b);
      assert SerializeAll(a + b, 0) == Serialize(a[0]) + SerializeAll(a[1..] + b, 0);
      assert SerializeAll(a, 0) == Serialize(a[0]) + SerializeAll(a[1..], 0);
    } else {
      assert a + b == b;
    }
  }

  /** Serialising from position `i` is serialising the suffix that starts there. */
  lemma {:induction false} SerializeAllShift(ns: seq<XNode>, i: nat)
    requires i <= |ns|
    ensures SerializeAll(ns, i) == SerializeAll(ns[i..], 0)
    decreases |ns| - i
  {
    if i < |ns| {
      SerializeAllShift(ns, i + 1);
      SerializeAllShift(ns[i..], 1);
      assert ns[i..][1..] == ns[i + 1..];
    }
  }

  /** The encoder writes exactly the serialisation of the element tree of the
      value. */
  lemma {:induction false} XmlTextIsTree(v: JVal)
    ensures XmlText(v) == SerializeAll(ContentTree(v), 0)
    decreases v, 1
  {
    match v
    case JObj(fs) => FieldsXmlIsTree(fs, 0);
    case JArr(items) => IndexXmlIsTree(items, 0);
    case _ =>
  }

  lemma {:induction false} EntryXmlIsTree(key: string, value: JVal)
    ensures EntryXml(key, value) == SerializeAll(EntryTree(key, value), 0)
    decreases value, 2
  {
    match value
    case JArr(items) => ItemsXmlIsTree(key, items, 0);
    case _ =>
      XmlTextIsTree(value);
      var n := Elem(key, ContentTree(value));
      assert SerializeAll([n], 0) == Serialize(n) + SerializeAll([n], 1);
  }

  lemma {:induction false} FieldsXmlIsTree(fs: seq<Field>, i: nat)
    requires i <= |fs|
    ensures FieldsXml(fs, i) == SerializeAll(FieldsTree(fs, i), 0)
    decreases fs, 0, |fs| - i
  {
    if i < |fs| {
      EntryXmlIsTree(fs[i].key, fs[i].value);
      FieldsXmlIsTree(fs, i + 1);
      SerializeAllConcat(EntryTree(fs[i].key, fs[i].value), FieldsTree(fs, i + 1));
    }
  }

  lemma {:induction false} IndexXmlIsTree(items: seq<JVal>, i: nat)
    requires i <= |items|
    ensures IndexXml(items, i) == SerializeAll(IndexTree(items, i), 0)
    decreases items, 0, |items| - i
  {
    if i < |items| {
      EntryXmlIsTree(NatToString(i), items[i]);
      IndexXmlIsTree(items, i + 1);
      SerializeAllConcat(EntryTree(NatToString(i), items[i]), IndexTree(items, i + 1));
    }
  }

  lemma {:induction false} ItemsXmlIsTree(key: string, items: seq<JVal>, i: nat)
    requires i <= |items|
    ensures ItemsXml(key, items, i) == SerializeAll(ItemsTree(key, items, i), 0)
    decreases items, 0, |items| - i
  {
    if i < |items| {
      XmlTextIsTree(items[i]);
      ItemsXmlIsTree(key, items, i + 1);
      var n := Elem(key, ContentTree(items[i]));
      assert SerializeAll([n], 0) == Serialize(n) + SerializeAll([n], 1);
      SerializeAllConcat([n], ItemsTree(key, items, i + 1));
    }
  }

  /** An array-valued entry contributes one `<key>` element per item and nothing
      else; an empty array contributes nothing at all. */
  lemma ArrayEntryHasNoWrapper(key: string, items: seq<JVal>)
    ensures |EntryTree(key, JArr(items))| == |items|
    ensures forall i :: 0 <= i < |items| ==> EntryTree(key, JArr(items))[i] == Elem(key, ContentTree(items[i]))
  {
    ItemsTreeShape(key, items, 0);
  }

  lemma {:induction false} ItemsTreeShape(key: string, items: seq<JVal>, i: nat)
    requires i <= |items|
    ensures |ItemsTree(key, items, i)| == |items| - i
    ensures forall j :: i <= j < |items| ==> ItemsTree(key, items, i)[j - i] == Elem(key, ContentTree(items[j]))
    decreases |items| - i
  {
    if i < |items| {
      var rest := ItemsTree(key, items, i + 1);
      ItemsTreeShape(key, items, i + 1);
      assert ItemsTree(key, items, i) == [Elem(key, ContentTree(items[i]))] + rest;
      forall j | i < j < |items|
        ensures ItemsTree(key, items, i)[j - i] == Elem(key, ContentTree(items[j]))
      {
        assert ItemsTree(key, items, i)[j - i] == rest[j - i - 1];
      }
    }
  }

  /** One `item` element per entity, holding the entity's content tree. */
  function ItemNodes(list: seq<JVal>): (r: seq<XNode>)
    ensures |r| == |list| && forall i :: 0 <= i < |list| ==> r[i] == Elem("item", ContentTree(list[i]))
  {
    seq(|list|, i requires 0 <= i < |list| => Elem("item", ContentTree(list[i])))
  }

  /** The whole document is the serialised `root` element over the items. */
  lemma DocumentIsTree(list: seq<JVal>)
    ensures "<root>" + Concat(ItemTexts(list)) + "</root>" == Serialize(Elem("root", ItemNodes(list)))
  {
    ItemsAreTree(list, 0);
    assert ItemTexts(list)[0..] == ItemTexts(list);
  }

  /** The `<item>` texts from entity `i` on are the serialised `item` elements. */
  lemma {:induction false} ItemsAreTree(list: seq<JVal>, i: nat)
    requires i <= |list|
    ensures Concat(ItemTexts(list)[i..]) == SerializeAll(ItemNodes(list), i)
    decreases |list| - i
  {
    if i < |list| {
      ItemsAreTree(list, i + 1);
      XmlTextIsTree(list[i]);
      var t := ItemTexts(list)[i..];
      assert t[0] == Element("item", XmlText(list[i]));
      assert t[1..] == ItemTexts(list)[i + 1..];
    }
  }

  // ================================================================ delimited text

  /** `"${value}"`: the value's string form between double quotes, unescaped. */
  function Quote(v: JVal): (r: string)
    ensures |r| >= 2 && r[0] == '"' && r[|r| - 1] == '"' && r[1..|r| - 1] == ToJsString(v)
  {
    "\"" + ToJsString(v) + "\""
  }

  function QuotedValues(rec: Record): (r: seq<string>)
    ensures |r| == |rec| && forall i :: 0 <= i < |rec| ==> r[i] == Quote(rec[i].value)
  {
    seq(|rec|, i requires 0 <= i < |rec| => Quote(rec[i].value))
  }

  /** The lines of a non-empty dataset: the first record's keys, then one line of
      quoted values per record, aligned by position only. */
  function CsvLinesOf(data: Dataset, d: string): (lines: seq<string>)
    requires |data| > 0
    ensures |lines| == |data| + 1
    ensures lines[0] == Join(Keys(data[0]), d)
    ensures forall j :: 0 <= j < |data| ==> lines[j + 1] == Join(QuotedValues(data[j]), d)
  {
    [Join(Keys(data[0]), d)] + seq(|data|, j requires 0 <= j < |data| => Join(QuotedValues(data[j]), d))
  }

  /** `convertDataToCvs(data, delimiter)`; `None` is an omitted delimiter and
      selects the default `;`. */
  function ConvertDataToCsv(data: Dataset, delimiter: Option<string>): (r: string)
    ensures r == "" <==> |data| == 0
    ensures |data| > 0 ==> r == Join(CsvLinesOf(data, if delimiter.Some? then delimiter.value else ";"), "\n")
  {
    var d := if delimiter.Some? then delimiter.value else ";";
    if |data| == 0 then ""
    else
      var lines := CsvLinesOf(data, d);
      JoinLength(lines, "\n");
      Join(lines, "\n")
  }

  /** `convertDataToTXT(data, delimiter)`: the same text, except that an omitted
      delimiter reaches `Array.prototype.join` as `undefined`, which joins with `,`. */
  function ConvertDataToTxt(data: Dataset, delimiter: Option<string>): (r: string)
    ensures delimiter.Some? ==> r == ConvertDataToCsv(data, delimiter)
    ensures delimiter.None? ==> r == ConvertDataToCsv(data, Some(","))
  {
    var d := if delimiter.Some? then delimiter.value else ",";
    if |data| == 0 then "" else Join(CsvLinesOf(data, d), "\n")
  }

  /** Without a delimiter the two encoders differ: a record of two fields is
      separated by `;` in one and by `,` in the other. */
  lemma OmittedDelimiterDiffers()
    ensures var data := [[Field("a", JStr("1")), Field("b", JStr("2"))]];
            ConvertDataToCsv(data, None) == "a;b\n\"1\";\"2\""
            && ConvertDataToTxt(data, None) == "a,b\n\"1\",\"2\""
  {
    TwoFieldText(";");
    TwoFieldText(",");
  }

  /** The text of the one-record sample dataset with delimiter `d`. */
  lemma TwoFieldText(d: string)
    ensures var data := [[Field("a", JStr("1")), Field("b", JStr("2"))]];
            Join(CsvLinesOf(data, d), "\n") == ("a" + d + "b") + "\n" + ("\"1\"" + d + "\"2\"")
  {
    var data := [[Field("a", JStr("1")), Field("b", JStr("2"))]];
    assert Keys(data[0]) == ["a", "b"];
    var q := QuotedValues(data[0]);
    assert Quote(JStr("1")) == "\"1\"" && Quote(JStr("2")) == "\"2\"";
    assert q == ["\"1\"", "\"2\""];
    JoinPair("a", "b", d);
    JoinPair("\"1\"", "\"2\"", d);
    var lines := CsvLinesOf(data, d);
    assert lines == ["a" + d + "b", "\"1\"" + d + "\"2\""];
    JoinPair(lines[0], lines[1], "\n");
  }

  lemma JoinPair(x: string, y: string, sep: string)
    ensures Join([x, y], sep) == x + sep + y
  {
    assert [x, y][1..] == [y];
  }
}

=== FILE: file_types.dfy ===
/** The format names the polygon handlers and the conversion service dispatch on,
    compared after lower-casing. */
module FileTypes {
  const Json := "json"
  const Xml := "xml"
  const Csv := "csv"
  const Txt := "txt"
}

=== FILE: flatten_round_trip.dfy ===
/** The partial round trip of the path-key codec: unflattening the record that
    flattening a restorable object produces gives the object back. Restorable
    objects are those flattening does not lose information on: word keys, no empty
    nested containers, no arrays directly inside arrays and no `coordinates`
    arrays. */
module FlattenRoundTrip {
  import opened Results
  import opened Text
  import opened JsValue
  import opened ObjectFlatter
  import opened SeqFacts

  // ================================================================ restorable trees

  predicate Restorable(v: JVal)
    decreases v, 1
  {
    match v
    case JObj(fs) => |fs| > 0 && RestorableFields(fs)
    case JArr(items) => |items| > 0 && RestorableItems(items)
    case _ => true
  }

  /** A key `\w+` matches that a plain object does not inherit a value for and
      that is not integer-like: the engine lists integer-like keys of an object
      first, in numeric order, whatever order they were written in. */
  predicate PlainName(k: string) {
    IsWord(k) && !Inherited(k) && !Canonical(k)
  }

  predicate RestorableFields(fs: seq<Field>)
    decreases fs, 0
  {
    && DistinctKeys(fs)
    && (forall i :: 0 <= i < |fs| ==> PlainName(fs[i].key))
    && (forall i :: 0 <= i < |fs| ==> !(fs[i].key == "coordinates" && fs[i].value.JArr?))
    && (forall i :: 0 <= i < |fs| ==> Restorable(fs[i].value))
  }

  predicate RestorableItems(items: seq<JVal>)
    decreases items, 0
  {
    forall i :: 0 <= i < |items| ==> !items[i].JArr? && Restorable(items[i])
  }

  // ================================================================ paths

  /** A leaf of a tree: the segments leading to it and the value stored there. */
  datatype PathEntry = PathEntry(path: seq<Segment>, value: JVal)

  function Prefixed(s: Segment, es: seq<PathEntry>): (r: seq<PathEntry>)
    ensures |r| == |es|
    ensures forall j :: 0 <= j < |es| ==> r[j] == PathEntry([s] + es[j].path, es[j].value)
  {
    seq(|es|, j requires 0 <= j < |es| => PathEntry([s] + es[j].path, es[j].value))
  }

  /** The leaves of the fields `i..` of an object, relative to that object. */
  function RelFields(fs: seq<Field>, i: nat): seq<PathEntry>
    requires i <= |fs|
    decreases fs, 0, |fs| - i
  {
    if i == |fs| then [] else RelEntry(fs[i].key, fs[i].value) + RelFields(fs, i + 1)
  }

  /** The leaves of the property `k` holding `v`. */
  function RelEntry(k: string, v: JVal): seq<PathEntry>
    decreases v, 2
  {
    match v
    case JObj(gs) => Prefixed(Prop(k), RelFields(gs, 0))
    case JArr(items) => RelItems(k, items, 0)
    case _ => [PathEntry([Prop(k)], v)]
  }

  /** The leaves of the elements `i..` of the array under `k`. */
  function RelItems(k: string, items: seq<JVal>, i: nat): seq<PathEntry>
    requires i <= |items|
    decreases items, 0, |items| - i
  {
    if i == |items| then [] else RelItem(k, i, items[i]) + RelItems(k, items, i + 1)
  }

  /** The leaves of element `i` of the array under `k`. An array directly inside an
      array is outside the restorable trees and contributes nothing here. */
  function RelItem(k: string, i: nat, item: JVal): seq<PathEntry>
    decreases item, 2
  {
    match item
    case JObj(gs) => Prefixed(Index(k, i), RelFields(gs, 0))
    case JArr(_) => []
    case _ => [PathEntry([Index(k, i)], item)]
  }

  predicate WordPath(path: seq<Segment>) {
    forall j :: 0 <= j < |path| ==> PlainName(path[j].name)
  }

  /** Every leaf has a non-empty path of word-named segments. */
  predicate Shaped(es: seq<PathEntry>) {
    forall j :: 0 <= j < |es| ==> |es[j].path| > 0 && WordPath(es[j].path)
  }

  predicate DistinctPaths(es: seq<PathEntry>) {
    forall a, b :: 0 <= a < b < |es| ==> es[a].path != es[b].path
  }

  // ================================================================ rendering paths as keys

  function SegText(s: Segment): string {
    match s
    case Prop(name) => name
    case Index(name, i) => ItemKey(name, i)
  }

  function Texts(path: seq<Segment>): (ts: seq<string>)
    ensures |ts| == |path| && forall j :: 0 <= j < |path| ==> ts[j] == SegText(path[j])
  {
    seq(|path|, j requires 0 <= j < |path| => SegText(path[j]))
  }

  /** The key a path is written under. */
  function Render(path: seq<Segment>): string {
    Join(Texts(path), "#")
  }

  function RenderAll(P: seq<Segment>, es: seq<PathEntry>): (r: seq<Field>)
    ensures |r| == |es|
    ensures forall j :: 0 <= j < |es| ==> r[j] == Field(Render(P + es[j].path), es[j].value)
  {
    seq(|es|, j requires 0 <= j < |es| => Field(Render(P + es[j].path), es[j].value))
  }

  lemma RenderSnoc(P: seq<Segment>, s: Segment)
    ensures Render(P + [s]) == if |P| == 0 then SegText(s) else Render(P) + "#" + SegText(s)
  {
    assert Texts(P + [s]) == Texts(P) + [SegText(s)];
    if |P| > 0 {
      JoinSnoc(Texts(P), SegText(s), "#");
    } else {
      assert Texts(P + [s]) == [SegText(s)];
    }
  }

  /** A rendered plain path is never `__proto__`: a single property is a plain name,
      an element key ends in `]`, and a longer path holds a `#`. */
  lemma RenderIsNotProto(P: seq<Segment>)
    requires |P| > 0 && WordPath(P)
    ensures Render(P) != ProtoKey
  {
    var Q, s := P[..|P| - 1], P[|P| - 1];
    assert P == Q + [s];
    RenderSnoc(Q, s);
    if |Q| == 0 {
      if s.Index? {
        ItemKeyIsNotProto(s.name, s.index);
      }
    } else {
      assert Render(P)[|Render(Q)|] == '#';
      assert '#' !in ProtoKey;
    }
  }

  /** A rendered plain path is never integer-like, so the engine keeps the order in
      which flattening writes such keys: a single property is a plain name, an
      element key ends in `]`, and a longer path holds a `#`. */
  lemma RenderIsNotIndex(P: seq<Segment>)
    requires |P| > 0 && WordPath(P)
    ensures !Canonical(Render(P))
  {
    var Q, s := P[..|P| - 1], P[|P| - 1];
    assert P == Q + [s];
    RenderSnoc(Q, s);
    var key := Render(P);
    if |Q| == 0 {
      if s.Index? {
        assert key[|key| - 1] == ']';
      }
    } else {
      assert key[|Render(Q)|] == '#';
    }
  }

  /** A rendered word path starts with a word character, so it is never blank. */
  lemma RenderStart(P: seq<Segment>)
    requires |P| > 0 && WordPath(P)
    ensures |Render(P)| > 0 && IsWordChar(Render(P)[0])
  {
    JoinStartsWithFirst(Texts(P), "#");
    assert IsWord(P[0].name);
    assert SegText(P[0])[0] == P[0].name[0];
    assert Render(P)[0] == Texts(P)[0][0];
  }

  lemma JoinKeyRender(P: seq<Segment>, k: string)
    requires WordPath(P)
    ensures JoinKey(Render(P), k) == Render(P + [Prop(k)])
  {
    RenderSnoc(P, Prop(k));
    if |P| > 0 {
      RenderStart(P);
    } else {
      assert Render(P) == "";
    }
  }

  lemma ItemKeyRender(P: seq<Segment>, k: string, i: nat)
    requires WordPath(P)
    ensures ItemKey(Render(P + [Prop(k)]), i) == Render(P + [Index(k, i)])
  {
    RenderSnoc(P, Prop(k));
    RenderSnoc(P, Index(k, i));
  }

  lemma RenderAllPrefixed(P: seq<Segment>, s: Segment, es: seq<PathEntry>)
    ensures RenderAll(P, Prefixed(s, es)) == RenderAll(P + [s], es)
  {
    forall j | 0 <= j < |es|
      ensures RenderAll(P, Prefixed(s, es))[j] == RenderAll(P + [s], es)[j]
    {
      assert P + ([s] + es[j].path) == P + [s] + es[j].path;
    }
  }

  lemma RenderAllConcat(P: seq<Segment>, a: seq<PathEntry>, b: seq<PathEntry>)
    ensures RenderAll(P, a + b) == RenderAll(P, a) + RenderAll(P, b)
  {
  }

  // ================================================================ reading keys back

  lemma SegTextHasNoHash(s: Segment)
    requires IsWord(s.name)
    ensures '#' !in SegText(s)
  {
    if s.Index? {
      var t := SegText(s);
      assert t == s.name + "[" + NatToString(s.index) + "]";
      var digits := NatToString(s.index);
      forall m | 0 <= m < |t|
        ensures t[m] != '#'
      {
        if m < |s.name| {
          assert t[m] == s.name[m];
        } else if |s.name| < m < |s.name| + 1 + |digits| {
          assert t[m] == digits[m - |s.name| - 1];
        }
      }
    } else {
      forall m | 0 <= m < |s.name|
        ensures s.name[m] != '#'
      {
        assert IsWordChar(s.name[m]);
      }
    }
  }

  lemma ParseSegText(s: Segment)
    requires IsWord(s.name)
    ensures ParseSegment(SegText(s)) == s
  {
    match s
    case Prop(name) =>
      assert '[' !in name by {
        forall m | 0 <= m < |name|
          ensures name[m] != '['
        {
          assert IsWordChar(name[m]);
        }
      }
      MatchIndexedNeedsBracket(name);
    case Index(name, i) =>
      MatchIndexedComplete(name, NatToString(i));
      DigitsValueOfNatToString(i);
  }

  /** Reading the key of a word path back splits it into exactly that path. */
  lemma SegmentsOfRender(P: seq<Segment>)
    requires |P| > 0 && WordPath(P)
    ensures Segments(Render(P)) == P
  {
    var ts := Texts(P);
    forall j | 0 <= j < |ts|
      ensures '#' !in ts[j]
    {
      SegTextHasNoHash(P[j]);
    }
    SplitJoin(ts, '#');
    assert SplitOn(Render(P), "#") == ts;
    forall j | 0 <= j < |P|
      ensures Segments(Render(P))[j] == P[j]
    {
      ParseSegText(P[j]);
    }
  }

  lemma RenderInjective(P: seq<Segment>, Q: seq<Segment>)
    requires |P| > 0 && WordPath(P) && |Q| > 0 && WordPath(Q)
    requires Render(P) == Render(Q)
    ensures P == Q
  {
    SegmentsOfRender(P);
    SegmentsOfRender(Q);
  }

  // ================================================================ flattening writes the rendered leaves

  lemma {:induction false} FieldWritesRel(fs: seq<Field>, i: nat, P: seq<Segment>)
    requires i <= |fs| && RestorableFields(fs) && WordPath(P)
    ensures FieldWrites(fs, i, Render(P)) == RenderAll(P, RelFields(fs, i))
    decreases fs, 0, |fs| - i
  {
    if i < |fs| {
      EntryWritesRel(fs[i].key, fs[i].value, P);
      FieldWritesRel(fs, i + 1, P);
      RenderAllConcat(P, RelEntry(fs[i].key, fs[i].value), RelFields(fs, i + 1));
    }
  }

  lemma {:induction false} EntryWritesRel(k: string, v: JVal, P: seq<Segment>)
    requires PlainName(k) && !(k == "coordinates" && v.JArr?) && Restorable(v) && WordPath(P)
    ensures EntryWrites(k, v, Render(P)) == RenderAll(P, RelEntry(k, v))
    decreases v, 2
  {
    JoinKeyRender(P, k);
    var Pk := P + [Prop(k)];
    assert WordPath(Pk);
    match v
    case JObj(gs) =>
      FieldWritesRel(gs, 0, Pk);
      RenderAllPrefixed(P, Prop(k), RelFields(gs, 0));
    case JArr(items) =>
      ItemWritesRel(k, items, 0, P);
    case _ =>
  }

  lemma {:induction false} ItemWritesRel(k: string, items: seq<JVal>, i: nat, P: seq<Segment>)
    requires i <= |items| && RestorableItems(items) && PlainName(k) && WordPath(P)
    ensures ItemWrites(items, i, Render(P + [Prop(k)])) == RenderAll(P, RelItems(k, items, i))
    decreases items, 0, |items| - i
  {
    if i < |items| {
      var Pi := P + [Index(k, i)];
      assert WordPath(Pi);
      var key := ItemKey(Render(P + [Prop(k)]), i);
      ItemKeyRender(P, k, i);
      assert key == Render(Pi);
      var item := items[i];
      var head := if IsObject(item) then ObjectWrites(item, key) else [Field(key, item)];
      assert ItemWrites(items, i, Render(P + [Prop(k)])) == head + ItemWrites(items, i + 1, Render(P + [Prop(k)]));
      assert head == RenderAll(P, RelItem(k, i, item)) by {
        match item
        case JObj(gs) =>
          FieldWritesRel(gs, 0, Pi);
          RenderAllPrefixed(P, Index(k, i), RelFields(gs, 0));
        case _ =>
      }
      ItemWritesRel(k, items, i + 1, P);
      RenderAllConcat(P, RelItem(k, i, item), RelItems(k, items, i + 1));
    }
  }

  // ================================================================ shape of the leaves

  lemma DistinctConcat(a: seq<PathEntry>, b: seq<PathEntry>)
    requires DistinctPaths(a) && DistinctPaths(b)
    requires forall x, y :: 0 <= x < |a| && 0 <= y < |b| ==> a[x].path != b[y].path
    ensures DistinctPaths(a + b)
  {
    forall x, y | 0 <= x < y < |a + b|
      ensures (a + b)[x].path != (a + b)[y].path
    {
      if y < |a| {
      } else if x >= |a| {
        assert (a + b)[x] == b[x - |a|] && (a + b)[y] == b[y - |a|];
      } else {
        assert (a + b)[y] == b[y - |a|];
      }
    }
  }

  lemma PrefixedShape(s: Segment, es: seq<PathEntry>)
    requires PlainName(s.name) && Shaped(es) && DistinctPaths(es)
    ensures Shaped(Prefixed(s, es)) && DistinctPaths(Prefixed(s, es))
    ensures forall j :: 0 <= j < |es| ==> Prefixed(s, es)[j].path[0] == s
  {
    var r := Prefixed(s, es);
    forall j | 0 <= j < |r|
      ensures WordPath(r[j].path)
    {
      assert r[j].path == [s] + es[j].path;
    }
    forall a, b | 0 <= a < b < |r|
      ensures r[a].path != r[b].path
    {
      assert r[a].path[1..] == es[a].path;
      assert r[b].path[1..] == es[b].path;
    }
  }

  lemma {:induction false} FieldsShape(fs: seq<Field>, i: nat)
    requires i <= |fs| && RestorableFields(fs)
    ensures var r := RelFields(fs, i);
            && Shaped(r) && DistinctPaths(r)
            && (forall j, m :: 0 <= j < |r| && 0 <= m < i ==> r[j].path[0].name != fs[m].key)
            && (forall j :: 0 <= j < |r| ==> r[j].path[0].name in Keys(fs))
            && (i < |fs| ==> |r| > 0)
    decreases fs, 0, |fs| - i
  {
    if i < |fs| {
      var a := RelEntry(fs[i].key, fs[i].value);
      var b := RelFields(fs, i + 1);
      EntryShape(fs[i].key, fs[i].value);
      FieldsShape(fs, i + 1);
      forall x, y | 0 <= x < |a| && 0 <= y < |b|
        ensures a[x].path != b[y].path
      {
        assert a[x].path[0].name == fs[i].key;
      }
      DistinctConcat(a, b);
      var r := a + b;
      forall j, m | 0 <= j < |r| && 0 <= m < i
        ensures r[j].path[0].name != fs[m].key
      {
        if j < |a| {
          assert r[j] == a[j];
        } else {
          assert r[j] == b[j - |a|];
        }
      }
      forall j | 0 <= j < |r|
        ensures r[j].path[0].name in Keys(fs)
      {
        if j < |a| {
          assert r[j] == a[j];
          assert Keys(fs)[i] == fs[i].key;
        } else {
          assert r[j] == b[j - |a|];
        }
      }
    }
  }

  lemma {:induction false} EntryShape(k: string, v: JVal)
    requires PlainName(k) && Restorable(v)
    ensures var r := RelEntry(k, v);
            && Shaped(r) && DistinctPaths(r) && |r| > 0
            && (forall j :: 0 <= j < |r| ==> r[j].path[0].name == k)
    decreases v, 2
  {
    match v
    case JObj(gs) =>
      FieldsShape(gs, 0);
      PrefixedShape(Prop(k), RelFields(gs, 0));
    case JArr(items) =>
      ItemsShape(k, items, 0);
    case _ =>
  }

  lemma {:induction false} ItemsShape(k: string, items: seq<JVal>, i: nat)
    requires i <= |items| && RestorableItems(items) && PlainName(k)
    ensures var r := RelItems(k, items, i);
            && Shaped(r) && DistinctPaths(r)
            && (forall j :: 0 <= j < |r| ==> r[j].path[0].Index? && r[j].path[0].name == k && r[j].path[0].index >= i)
            && (i < |items| ==> |r| > 0 && r[0].path[0] == Index(k, i))
    decreases items, 0, |items| - i
  {
    if i < |items| {
      var a := RelItem(k, i, items[i]);
      var b := RelItems(k, items, i + 1);
      ItemShape(k, i, items[i]);
      ItemsShape(k, items, i + 1);
      forall x, y | 0 <= x < |a| && 0 <= y < |b|
        ensures a[x].path != b[y].path
      {
        assert a[x].path[0] == Index(k, i);
      }
      DistinctConcat(a, b);
      var r := a + b;
      forall j | 0 <= j < |r|
        ensures r[j].path[0].Index? && r[j].path[0].name == k && r[j].path[0].index >= i
      {
        if j < |a| {
          assert r[j] == a[j];
        } else {
          assert r[j] == b[j - |a|];
        }
      }
    }
  }

  lemma {:induction false} ItemShape(k: string, i: nat, item: JVal)
    requires PlainName(k) && !item.JArr? && Restorable(item)
    ensures var r := RelItem(k, i, item);
            && Shaped(r) && DistinctPaths(r) && |r| > 0
            && (forall j :: 0 <= j < |r| ==> r[j].path[0] == Index(k, i))
    decreases item, 2
  {
    match item
    case JObj(gs) =>
      FieldsShape(gs, 0);
      PrefixedShape(Index(k, i), RelFields(gs, 0));
    case _ =>
  }

  // ================================================================ unflattening replays the leaves

  /** The leaves written one after another by the path walk, from `cur`. */
  function ApplyPaths(cur: JVal, es: seq<PathEntry>): (r: Result<JVal>)
    requires forall j :: 0 <= j < |es| ==> |es[j].path| > 0
    ensures r.Ok? && cur.JObj? ==> r.value.JObj?
    decreases |es|
  {
    if |es| == 0 then Ok(cur)
    else
      var next :- SetPath(cur, es[0].path, es[0].value);
      ApplyPaths(next, es[1..])
  }

  /** A key of a shaped leaf is never blank and splits back into its path, so one
      record of rendered leaves is applied exactly as its leaves are. */
  lemma {:induction false} ApplyRecordRendered(cur: JVal, es: seq<PathEntry>)
    requires Shaped(es)
    ensures ApplyRecord(cur, RenderAll([], es)) == ApplyPaths(cur, es)
    decreases |es|
  {
    if |es| > 0 {
      var rec := RenderAll([], es);
      RenderAllFirst(es);
      RenderedEntry(cur, es[0].path, es[0].value);
      var next := SetPath(cur, es[0].path, es[0].value);
      if next.Ok? {
        ApplyRecordRendered(next.value, es[1..]);
      }
    }
  }

  /** The first rendered field is the first leaf's, and the rest render the rest. */
  lemma RenderAllFirst(es: seq<PathEntry>)
    requires |es| > 0
    ensures RenderAll([], es)[0] == Field(Render(es[0].path), es[0].value)
    ensures RenderAll([], es)[1..] == RenderAll([], es[1..])
  {
    assert [] + es[0].path == es[0].path;
    var r, t := RenderAll([], es)[1..], RenderAll([], es[1..]);
    forall j | 0 <= j < |t|
      ensures r[j] == t[j]
    {
      assert [] + es[j + 1].path == es[j + 1].path;
    }
  }

  /** The rendered key of a word path is not blank and is split back into the path. */
  lemma RenderedEntry(cur: JVal, path: seq<Segment>, v: JVal)
    requires |path| > 0 && WordPath(path)
    ensures ApplyEntry(cur, Field(Render(path), v)) == SetPath(cur, path, v)
  {
    RenderStart(path);
    BlankIffAllSpace(Render(path));
    assert !AllSpace(Render(path)) by {
      assert !IsSpace(Render(path)[0]);
    }
    SegmentsOfRender(path);
  }

  lemma {:induction false} ApplyConcat(cur: JVal, a: seq<PathEntry>, b: seq<PathEntry>)
    requires Shaped(a) && Shaped(b)
    ensures Shaped(a + b)
    ensures ApplyPaths(cur, a).Ok? ==> ApplyPaths(cur, a + b) == ApplyPaths(ApplyPaths(cur, a).value, b)
    decreases |a|
  {
    if |a| > 0 {
      assert (a + b)[0] == a[0];
      assert (a + b)[1..] == a[1..] + b;
      var next := SetPath(cur, a[0].path, a[0].value);
      if next.Ok? {
        ApplyConcat(next.value, a[1..], b);
      }
    } else {
      assert a + b == b;
    }
  }

  /** Two starting points the first leaf takes to the same state lead to the same
      end. */
  lemma ApplyFirstSame(x: JVal, y: JVal, es: seq<PathEntry>)
    requires |es| > 0 && Shaped(es)
    requires SetPath(x, es[0].path, es[0].value) == SetPath(y, es[0].path, es[0].value)
    ensures ApplyPaths(x, es) == ApplyPaths(y, es)
  {
  }

  /** The object `acc` followed by `k`, holding the outcome `r` of building `k`'s
      value. */
  function LiftProp(acc: seq<Field>, k: string, r: Result<JVal>): Result<JVal> {
    if r.Ok? then Ok(JObj(acc + [Field(k, r.value)])) else r
  }

  /** The object `acc` followed by `k`, holding the array `pre` followed by the
      outcome `r` of building the next element. */
  function LiftItem(acc: seq<Field>, k: string, pre: seq<JVal>, r: Result<JVal>): Result<JVal> {
    if r.Ok? then Ok(JObj(acc + [Field(k, JArr(pre + [r.value]))])) else r
  }

  lemma {:induction false} LookupLast(acc: seq<Field>, k: string, v: JVal)
    requires k !in Keys(acc)
    ensures Lookup(acc + [Field(k, v)], k) == v
    decreases |acc|
  {
    if |acc| > 0 {
      assert acc[0].key == Keys(acc)[0] && Keys(acc[1..]) == Keys(acc)[1..];
      assert (acc + [Field(k, v)])[1..] == acc[1..] + [Field(k, v)];
      LookupLast(acc[1..], k, v);
    }
  }

  // ---------------------------------------------------------------- single steps

  /** What a property step does once the child is fetched and stored back. */
  function PropTail(cur1: JVal, name: string, child: JVal, p: seq<Segment>, x: JVal): Result<JVal>
    requires |p| > 0
  {
    var child1 :- SetPath(child, p, x);
    Assign(cur1, name, child1)
  }

  /** What an indexed step does once the array is fetched and stored back. */
  function IndexTail(cur1: JVal, name: string, arr: JVal, idx: nat, p: seq<Segment>, x: JVal): Result<JVal> {
    var arr2 :- SetElement(arr, idx, p, x);
    Assign(cur1, name, arr2)
  }

  lemma PropUnfold(cur: JVal, name: string, p: seq<Segment>, x: JVal, child: JVal, cur1: JVal)
    requires |p| > 0 && Get(cur, name).Ok? && child == Or(Get(cur, name).value, JObj([]))
    requires Assign(cur, name, child) == Ok(cur1)
    ensures SetPath(cur, [Prop(name)] + p, x) == PropTail(cur1, name, child, p, x)
  {
    var segs := [Prop(name)] + p;
    assert segs[0] == Prop(name) && segs[1..] == p;
  }

  lemma IndexUnfold(cur: JVal, name: string, idx: nat, p: seq<Segment>, x: JVal, arr: JVal, cur1: JVal)
    requires Get(cur, name).Ok? && arr == Or(Get(cur, name).value, JArr([]))
    requires Assign(cur, name, arr) == Ok(cur1)
    ensures SetPath(cur, [Index(name, idx)] + p, x) == IndexTail(cur1, name, arr, idx, p, x)
  {
    var segs := [Index(name, idx)] + p;
    assert segs[0] == Index(name, idx) && segs[1..] == p;
  }

  /** A path below a property the object lacks first creates it as `{}`. */
  lemma PropFreshStep(acc: seq<Field>, k: string, p: seq<Segment>, x: JVal)
    requires k !in Keys(acc) && !Inherited(k) && |p| > 0
    ensures SetPath(JObj(acc), [Prop(k)] + p, x) == SetPath(JObj(acc + [Field(k, JObj([]))]), [Prop(k)] + p, x)
  {
    var acc1 := acc + [Field(k, JObj([]))];
    PutAbsent(acc, k, JObj([]));
    LookupLast(acc, k, JObj([]));
    PutLast(acc, k, JObj([]), JObj([]));
    assert Get(JObj(acc), k) == Ok(JUndefined);
    assert Get(JObj(acc1), k) == Ok(JObj([]));
    PropUnfold(JObj(acc), k, p, x, JObj([]), JObj(acc1));
    PropUnfold(JObj(acc1), k, p, x, JObj([]), JObj(acc1));
  }

  /** A path below a property holding an object descends into it and stores the
      object it comes back with. */
  lemma PropStep(acc: seq<Field>, k: string, child: JVal, p: seq<Segment>, x: JVal)
    requires k !in Keys(acc) && child.JObj? && |p| > 0
    ensures SetPath(JObj(acc + [Field(k, child)]), [Prop(k)] + p, x) == LiftProp(acc, k, SetPath(child, p, x))
  {
    var acc1 := acc + [Field(k, child)];
    LookupLast(acc, k, child);
    PutLast(acc, k, child, child);
    assert Get(JObj(acc1), k) == Ok(child);
    PropUnfold(JObj(acc1), k, p, x, child, JObj(acc1));
    var r := SetPath(child, p, x);
    if r.Ok? {
      PutLast(acc, k, child, r.value);
    }
  }

  /** An indexed path under a property the object lacks first creates it as `[]`. */
  lemma ArrayFreshStep(acc: seq<Field>, k: string, i: nat, p: seq<Segment>, x: JVal)
    requires k !in Keys(acc) && !Inherited(k)
    ensures SetPath(JObj(acc), [Index(k, i)] + p, x) == SetPath(JObj(acc + [Field(k, JArr([]))]), [Index(k, i)] + p, x)
  {
    var acc1 := acc + [Field(k, JArr([]))];
    PutAbsent(acc, k, JArr([]));
    LookupLast(acc, k, JArr([]));
    PutLast(acc, k, JArr([]), JArr([]));
    assert Get(JObj(acc), k) == Ok(JUndefined);
    assert Get(JObj(acc1), k) == Ok(JArr([]));
    IndexUnfold(JObj(acc), k, i, p, x, JArr([]), JObj(acc1));
    IndexUnfold(JObj(acc1), k, i, p, x, JArr([]), JObj(acc1));
  }

  /** An indexed path under a property holding an array works on that array and
      stores the array it comes back with. */
  lemma IndexOuterStep(acc: seq<Field>, k: string, arr: seq<JVal>, i: nat, p: seq<Segment>, x: JVal)
    requires k !in Keys(acc)
    ensures SetPath(JObj(acc + [Field(k, JArr(arr))]), [Index(k, i)] + p, x)
         == LiftProp(acc, k, SetElement(JArr(arr), i, p, x))
  {
    var acc1 := acc + [Field(k, JArr(arr))];
    LookupLast(acc, k, JArr(arr));
    PutLast(acc, k, JArr(arr), JArr(arr));
    assert Get(JObj(acc1), k) == Ok(JArr(arr));
    IndexUnfold(JObj(acc1), k, i, p, x, JArr(arr), JObj(acc1));
    var r := SetElement(JArr(arr), i, p, x);
    if r.Ok? {
      PutLast(acc, k, JArr(arr), r.value);
    }
  }

  /** The array `pre` followed by the outcome `r` of building the next element. */
  function LiftElement(pre: seq<JVal>, r: Result<JVal>): Result<JVal> {
    if r.Ok? then Ok(JArr(pre + [r.value])) else r
  }

  lemma SetIndexAppend(items: seq<JVal>, v: JVal)
    ensures SetIndex(items, |items|, v) == items + [v]
  {
    var r := SetIndex(items, |items|, v);
    assert |r| == |items| + 1;
    forall j | 0 <= j < |r|
      ensures r[j] == (items + [v])[j]
    {
    }
  }

  /** Reading the element just past the end of an array finds `undefined`, and
      storing `{}` there appends it. */
  lemma ElementGrow(pre: seq<JVal>)
    ensures Get(JArr(pre), NatToString(|pre|)) == Ok(JUndefined)
    ensures Assign(JArr(pre), NatToString(|pre|), JObj([])) == Ok(JArr(pre + [JObj([])]))
  {
    ArrayIndexOfNatToString(|pre|);
    SetIndexAppend(pre, JObj([]));
  }

  /** Storing into the last element of an array replaces it. */
  lemma AssignLast(pre: seq<JVal>, c: JVal, x: JVal)
    ensures Get(JArr(pre + [c]), NatToString(|pre|)) == Ok(c)
    ensures Assign(JArr(pre + [c]), NatToString(|pre|), x) == Ok(JArr(pre + [x]))
  {
    ArrayIndexOfNatToString(|pre|);
    UpdateLast(pre, c, x);
  }

  /** A path below the element just past the end of an array first appends `{}`. */
  lemma ElementFreshStep(pre: seq<JVal>, p: seq<Segment>, x: JVal)
    requires |p| > 0
    ensures SetElement(JArr(pre), |pre|, p, x) == SetElement(JArr(pre + [JObj([])]), |pre|, p, x)
  {
    ElementGrow(pre);
    AssignLast(pre, JObj([]), JObj([]));
  }

  /** A scalar element just past the end of an array is appended. */
  lemma ScalarElementStep(pre: seq<JVal>, x: JVal)
    ensures SetElement(JArr(pre), |pre|, [], x) == Ok(JArr(pre + [x]))
  {
    ElementGrow(pre);
    AssignLast(pre, JObj([]), x);
    assert Or(JUndefined, JObj([])) == JObj([]);
  }

  /** A path below the last element of an array, an object, descends into it and
      stores the object it comes back with. */
  lemma ElementStep(pre: seq<JVal>, c: JVal, p: seq<Segment>, x: JVal)
    requires c.JObj? && |p| > 0
    ensures SetElement(JArr(pre + [c]), |pre|, p, x) == LiftElement(pre, SetPath(c, p, x))
  {
    var key := NatToString(|pre|);
    ArrayIndexOfNatToString(|pre|);
    var arr := pre + [c];
    assert Get(JArr(arr), key) == Ok(c);
    assert SetIndex(arr, |pre|, c) == arr;
    var r := SetPath(c, p, x);
    if r.Ok? {
      assert SetIndex(arr, |pre|, r.value) == pre + [r.value];
    }
  }

  lemma ScalarItemStep(acc: seq<Field>, k: string, pre: seq<JVal>, x: JVal)
    requires k !in Keys(acc)
    ensures SetPath(JObj(acc + [Field(k, JArr(pre))]), [Index(k, |pre|)], x)
         == Ok(JObj(acc + [Field(k, JArr(pre + [x]))]))
  {
    IndexOuterStep(acc, k, pre, |pre|, [], x);
    assert [Index(k, |pre|)] + [] == [Index(k, |pre|)];
    ScalarElementStep(pre, x);
  }

  lemma IndexStep(acc: seq<Field>, k: string, pre: seq<JVal>, c: JVal, p: seq<Segment>, x: JVal)
    requires k !in Keys(acc) && c.JObj? && |p| > 0
    ensures SetPath(JObj(acc + [Field(k, JArr(pre + [c]))]), [Index(k, |pre|)] + p, x)
         == LiftItem(acc, k, pre, SetPath(c, p, x))
  {
    IndexOuterStep(acc, k, pre + [c], |pre|, p, x);
    ElementStep(pre, c, p, x);
  }

  // ---------------------------------------------------------------- runs of steps

  lemma {:induction false} PropRun(acc: seq<Field>, k: string, child: JVal, es: seq<PathEntry>)
    requires PlainName(k) && k !in Keys(acc) && child.JObj? && Shaped(es)
    ensures Shaped(Prefixed(Prop(k), es))
    ensures ApplyPaths(JObj(acc + [Field(k, child)]), Prefixed(Prop(k), es)) == LiftProp(acc, k, ApplyPaths(child, es))
    decreases |es|
  {
    var pes := Prefixed(Prop(k), es);
    assert Shaped(pes) by {
      forall j | 0 <= j < |pes|
        ensures |pes[j].path| > 0 && WordPath(pes[j].path)
      {
        assert pes[j].path == [Prop(k)] + es[j].path;
      }
    }
    if |es| > 0 {
      assert pes[0].path == [Prop(k)] + es[0].path;
      PropStep(acc, k, child, es[0].path, es[0].value);
      assert pes[1..] == Prefixed(Prop(k), es[1..]);
      var r := SetPath(child, es[0].path, es[0].value);
      if r.Ok? {
        PropRun(acc, k, r.value, es[1..]);
      }
    }
  }

  lemma {:induction false} IndexRun(acc: seq<Field>, k: string, pre: seq<JVal>, c: JVal, es: seq<PathEntry>)
    requires PlainName(k) && k !in Keys(acc) && c.JObj? && Shaped(es)
    ensures Shaped(Prefixed(Index(k, |pre|), es))
    ensures ApplyPaths(JObj(acc + [Field(k, JArr(pre + [c]))]), Prefixed(Index(k, |pre|), es))
         == LiftItem(acc, k, pre, ApplyPaths(c, es))
    decreases |es|
  {
    var pes := Prefixed(Index(k, |pre|), es);
    assert Shaped(pes) by {
      forall j | 0 <= j < |pes|
        ensures |pes[j].path| > 0 && WordPath(pes[j].path)
      {
        assert pes[j].path == [Index(k, |pre|)] + es[j].path;
      }
    }
    if |es| > 0 {
      assert pes[0].path == [Index(k, |pre|)] + es[0].path;
      IndexStep(acc, k, pre, c, es[0].path, es[0].value);
      assert pes[1..] == Prefixed(Index(k, |pre|), es[1..]);
      var r := SetPath(c, es[0].path, es[0].value);
      if r.Ok? {
        IndexRun(acc, k, pre, r.value, es[1..]);
      }
    }
  }

  // ---------------------------------------------------------------- rebuilding whole values

  /** Moving field `i` into the object keeps the remaining fields fresh. */
  lemma FreshAfter(fs: seq<Field>, i: nat, acc: seq<Field>)
    requires i < |fs| && DistinctKeys(fs)
    requires forall m :: i <= m < |fs| ==> fs[m].key !in Keys(acc)
    ensures forall m :: i + 1 <= m < |fs| ==> fs[m].key !in Keys(acc + [fs[i]])
    ensures acc + [fs[i]] + fs[i + 1..] == acc + fs[i..]
  {
    assert Keys(acc + [fs[i]]) == Keys(acc) + [fs[i].key];
    assert fs[i..] == [fs[i]] + fs[i + 1..];
  }

  /** Replaying the leaves of fields `i..` into an object that has none of their
      keys appends exactly those fields. */
  lemma {:induction false} FieldsApply(fs: seq<Field>, i: nat, acc: seq<Field>)
    requires i <= |fs| && RestorableFields(fs)
    requires forall m :: i <= m < |fs| ==> fs[m].key !in Keys(acc)
    ensures Shaped(RelFields(fs, i))
    ensures ApplyPaths(JObj(acc), RelFields(fs, i)) == Ok(JObj(acc + fs[i..]))
    decreases fs, 0, |fs| - i
  {
    FieldsShape(fs, i);
    if i < |fs| {
      var a := RelEntry(fs[i].key, fs[i].value);
      var b := RelFields(fs, i + 1);
      FieldsShape(fs, i + 1);
      assert RelFields(fs, i) == a + b;
      var acc1 := acc + [fs[i]];
      EntryApply(acc, fs[i].key, fs[i].value);
      assert ApplyPaths(JObj(acc), a) == Ok(JObj(acc1));
      ApplyConcat(JObj(acc), a, b);
      assert ApplyPaths(JObj(acc), a + b) == ApplyPaths(JObj(acc1), b);
      FreshAfter(fs, i, acc);
      FieldsApply(fs, i + 1, acc1);
    } else {
      assert acc + fs[i..] == acc;
    }
  }

  /** Replaying the leaves of one restorable property appends that property. */
  lemma {:induction false} EntryApply(acc: seq<Field>, k: string, v: JVal)
    requires PlainName(k) && k !in Keys(acc) && Restorable(v)
    ensures Shaped(RelEntry(k, v))
    ensures ApplyPaths(JObj(acc), RelEntry(k, v)) == Ok(JObj(acc + [Field(k, v)]))
    decreases v, 2
  {
    EntryShape(k, v);
    match v
    case JObj(gs) =>
      var es := RelFields(gs, 0);
      FieldsShape(gs, 0);
      var pes := Prefixed(Prop(k), es);
      assert pes[0].path == [Prop(k)] + es[0].path;
      PropFreshStep(acc, k, es[0].path, es[0].value);
      ApplyFirstSame(JObj(acc), JObj(acc + [Field(k, JObj([]))]), pes);
      PropRun(acc, k, JObj([]), es);
      FieldsApply(gs, 0, []);
      assert [] + gs[0..] == gs;
    case JArr(items) =>
      var es := RelItems(k, items, 0);
      ItemsShape(k, items, 0);
      var p := es[0].path[1..];
      assert es[0].path == [Index(k, 0)] + p;
      ArrayFreshStep(acc, k, 0, p, es[0].value);
      ApplyFirstSame(JObj(acc), JObj(acc + [Field(k, JArr([]))]), es);
      ItemsApply(acc, k, items, 0);
      assert items[..0] == [];
    case _ =>
      PutAbsent(acc, k, v);
  }

  /** Replaying the leaves of element `i` appends it to the array of elements `..i`. */
  lemma {:induction false} ItemsStep(acc: seq<Field>, k: string, items: seq<JVal>, i: nat)
    requires PlainName(k) && k !in Keys(acc) && i < |items| && RestorableItems(items)
    ensures Shaped(RelItems(k, items, i)) && Shaped(RelItems(k, items, i + 1))
    ensures ApplyPaths(JObj(acc + [Field(k, JArr(items[..i]))]), RelItems(k, items, i))
         == ApplyPaths(JObj(acc + [Field(k, JArr(items[..i + 1]))]), RelItems(k, items, i + 1))
    decreases items, 0, |items| - i, 0
  {
    var a := RelItem(k, i, items[i]);
    var b := RelItems(k, items, i + 1);
    ItemsShape(k, items, i);
    ItemsShape(k, items, i + 1);
    assert RelItems(k, items, i) == a + b;
    var start := JObj(acc + [Field(k, JArr(items[..i]))]);
    var next := JObj(acc + [Field(k, JArr(items[..i + 1]))]);
    ItemApply(acc, k, items[..i], items[i]);
    TakeSnoc(items, i);
    ApplyConcat(start, a, b);
  }

  /** Replaying the leaves of elements `i..` into the array holding elements `..i`
      completes the array. */
  lemma {:induction false} ItemsApply(acc: seq<Field>, k: string, items: seq<JVal>, i: nat)
    requires PlainName(k) && k !in Keys(acc) && i <= |items| && RestorableItems(items)
    ensures Shaped(RelItems(k, items, i))
    ensures ApplyPaths(JObj(acc + [Field(k, JArr(items[..i]))]), RelItems(k, items, i))
         == Ok(JObj(acc + [Field(k, JArr(items))]))
    decreases items, 0, |items| - i, 1
  {
    ItemsShape(k, items, i);
    if i < |items| {
      ItemsStep(acc, k, items, i);
      ItemsApply(acc, k, items, i + 1);
    } else {
      assert items[..i] == items;
    }
  }

  /** Replaying the leaves of the next element of an array appends that element. */
  lemma {:induction false} ItemApply(acc: seq<Field>, k: string, pre: seq<JVal>, item: JVal)
    requires PlainName(k) && k !in Keys(acc) && !item.JArr? && Restorable(item)
    ensures Shaped(RelItem(k, |pre|, item))
    ensures ApplyPaths(JObj(acc + [Field(k, JArr(pre))]), RelItem(k, |pre|, item))
         == Ok(JObj(acc + [Field(k, JArr(pre + [item]))]))
    decreases item, 2
  {
    ItemShape(k, |pre|, item);
    match item
    case JObj(gs) =>
      var es := RelFields(gs, 0);
      FieldsShape(gs, 0);
      var pes := Prefixed(Index(k, |pre|), es);
      var p := es[0].path;
      assert pes[0].path == [Index(k, |pre|)] + p;
      IndexOuterStep(acc, k, pre, |pre|, p, es[0].value);
      IndexOuterStep(acc, k, pre + [JObj([])], |pre|, p, es[0].value);
      ElementFreshStep(pre, p, es[0].value);
      ApplyFirstSame(JObj(acc + [Field(k, JArr(pre))]), JObj(acc + [Field(k, JArr(pre + [JObj([])]))]), pes);
      IndexRun(acc, k, pre, JObj([]), es);
      FieldsApply(gs, 0, []);
      assert [] + gs[0..] == gs;
    case _ =>
      ScalarItemStep(acc, k, pre, item);
  }

  // ================================================================ the round trip

  /** Distinct word paths render to distinct keys. */
  lemma RenderedDistinct(es: seq<PathEntry>)
    requires Shaped(es) && DistinctPaths(es)
    ensures DistinctKeys(RenderAll([], es))
  {
    var rec := RenderAll([], es);
    forall a, b | 0 <= a < b < |rec|
      ensures rec[a].key != rec[b].key
    {
      assert [] + es[a].path == es[a].path && [] + es[b].path == es[b].path;
      if rec[a].key == rec[b].key {
        RenderInjective(es[a].path, es[b].path);
      }
    }
  }

  /** Flattening a restorable object writes exactly its rendered leaves, in order. */
  lemma FlattenRendered(fs: seq<Field>)
    requires RestorableFields(fs)
    ensures Flatten(JObj(fs)) == Ok(RenderAll([], RelFields(fs, 0)))
    ensures forall f :: f in RenderAll([], RelFields(fs, 0)) ==> !Canonical(f.key)
  {
    var es := RelFields(fs, 0);
    var rec := RenderAll([], es);
    FlattenAssembles(fs);
    RenderedWrites(fs);
    AssembleFresh([], rec);
    FieldsShape(fs, 0);
    forall j | 0 <= j < |rec|
      ensures rec[j].key != ProtoKey && !Canonical(rec[j].key)
    {
      assert [] + es[j].path == es[j].path;
      RenderIsNotProto(es[j].path);
      RenderIsNotIndex(es[j].path);
    }
    assert [] + rec == rec;
  }

  /** Flattening an object replays the writes of its fields into an empty one. */
  lemma FlattenAssembles(fs: seq<Field>)
    ensures Flatten(JObj(fs)) == Ok(Assemble([], FieldWrites(fs, 0, "")))
  {
    assert Entries(JObj(fs)) == Ok(fs);
  }

  /** The writes of a restorable object are its rendered leaves, under distinct keys. */
  lemma RenderedWrites(fs: seq<Field>)
    requires RestorableFields(fs)
    ensures FieldWrites(fs, 0, "") == RenderAll([], RelFields(fs, 0))
    ensures DistinctKeys(RenderAll([], RelFields(fs, 0)))
  {
    assert Render([]) == "";
    FieldWritesRel(fs, 0, []);
    FieldsShape(fs, 0);
    RenderedDistinct(RelFields(fs, 0));
  }

  /** Unflattening the rendered leaves of a restorable object rebuilds it. */
  lemma UnflattenRendered(fs: seq<Field>)
    requires RestorableFields(fs)
    ensures Unflatten([RenderAll([], RelFields(fs, 0))]) == Ok([JObj(fs)])
  {
    RenderedApply(fs);
    UnflattenSingle(RenderAll([], RelFields(fs, 0)));
  }

  /** Replaying the rendered leaves of a restorable object into `{}` rebuilds it. */
  lemma RenderedApply(fs: seq<Field>)
    requires RestorableFields(fs)
    ensures ApplyRecord(JObj([]), RenderAll([], RelFields(fs, 0))) == Ok(JObj(fs))
  {
    var es := RelFields(fs, 0);
    FieldsShape(fs, 0);
    ApplyRecordRendered(JObj([]), es);
    FieldsApply(fs, 0, []);
    assert [] + fs[0..] == fs;
  }

  /** A single record unflattens to the object its entries build from `{}`. */
  lemma UnflattenSingle(rec: Record)
    ensures var r := ApplyRecord(JObj([]), rec);
            Unflatten([rec]) == if r.Ok? then Ok([r.value]) else Err(r.error)
  {
    assert [rec][1..] == [];
    var r := ApplyRecord(JObj([]), rec);
    if r.Ok? {
      AppendEmpty([r.value]);
    }
  }

  /** Flattening a restorable object writes one key per leaf, its rendered path, and
      unflattening that record rebuilds the object: same keys, same order, same
      values. */
  lemma FlattenUnflatten(fs: seq<Field>)
    requires RestorableFields(fs)
    ensures Flatten(JObj(fs)) == Ok(RenderAll([], RelFields(fs, 0)))
    ensures Unflatten([Flatten(JObj(fs)).value]) == Ok([JObj(fs)])
  {
    FlattenRendered(fs);
    UnflattenRendered(fs);
  }
}

=== FILE: jsvalue.dfy ===
/** JavaScript values as the transcoding code handles them: parsed JSON, parsed XML
    trees and the plain objects the flattener builds. Objects keep their insertion
    order, which is the order `Object.entries` reports for non-index keys. */
module JsValue {
  import opened Results
  import opened Text

  datatype JVal =
    | JUndefined
    | JNull
    | JBool(b: bool)
    | JNum(n: int)  // an integral number; fractions are not modelled
    | JStr(s: string)
    | JArr(items: seq<JVal>)
    | JObj(fields: seq<Field>)

  /** One own property of an object, or one `{key, value}` entry of a record. */
  datatype Field = Field(key: string, value: JVal)

  /** A flattened record: the list of `{key, value}` pairs one entity becomes. */
  type Record = seq<Field>

  type Dataset = seq<Record>

  /** `typeof v === 'object' && v !== null`. */
  predicate IsObject(v: JVal) {
    v.JArr? || v.JObj?
  }

  /** JavaScript truthiness. Every object and array is truthy, including empty ones. */
  predicate Truthy(v: JVal) {
    match v
    case JUndefined => false
    case JNull => false
    case JBool(b) => b
    case JNum(n) => n != 0
    case JStr(s) => |s| > 0
    case _ => true
  }

  /** `a || b`. */
  function Or(a: JVal, b: JVal): JVal {
    if Truthy(a) then a else b
  }

  // ---------------------------------------------------------------- own properties

  function Keys(fs: seq<Field>): (ks: seq<string>)
    ensures |ks| == |fs| && forall i :: 0 <= i < |fs| ==> ks[i] == fs[i].key
  {
    seq(|fs|, i requires 0 <= i < |fs| => fs[i].key)
  }

  predicate DistinctKeys(fs: seq<Field>) {
    forall i, j :: 0 <= i < j < |fs| ==> fs[i].key != fs[j].key
  }

  /** The own property `k` of a plain object, or `undefined` when there is none. */
  function Lookup(fs: seq<Field>, k: string): (v: JVal)
    ensures k !in Keys(fs) ==> v == JUndefined
  {
    if |fs| == 0 then JUndefined
    else if fs[0].key == k then fs[0].value
    else Lookup(fs[1..], k)
  }

  /** The key of `Object.prototype`'s accessor: assigning it on an object that has no
      own `__proto__` property calls the prototype setter instead of creating one. */
  const ProtoKey := "__proto__"

  /** Names every plain object inherits from `Object.prototype`: reading one that is
      not an own property yields a function or the prototype, never `undefined`. */
  predicate Inherited(k: string) {
    k in {ProtoKey, "constructor", "hasOwnProperty", "isPrototypeOf", "propertyIsEnumerable",
          "toLocaleString", "toString", "valueOf", "__defineGetter__", "__defineSetter__",
          "__lookupGetter__", "__lookupSetter__"}
  }

  /** The own properties after `obj[k] = v` on a plain object: an existing property is
      overwritten where it stands, a new one is added after all others, except that
      `__proto__` without an own property of that name goes to the prototype setter
      and adds nothing. */
  function Put(fs: seq<Field>, k: string, v: JVal): (r: seq<Field>)
    ensures Keys(r) == if k in Keys(fs) || k == ProtoKey then Keys(fs) else Keys(fs) + [k]
  {
    if |fs| == 0 then (if k == ProtoKey then [] else [Field(k, v)])
    else if fs[0].key == k then [Field(k, v)] + fs[1..]
    else [fs[0]] + Put(fs[1..], k, v)
  }

  /** Reading back a property after an assignment sees the assigned value unless the
      assignment went to the prototype setter, and every other property is untouched. */
  lemma {:induction false} LookupPut(fs: seq<Field>, k: string, v: JVal, k2: string)
    ensures Lookup(Put(fs, k, v), k2) ==
            if k2 == k && (k in Keys(fs) || k != ProtoKey) then v else Lookup(fs, k2)
    decreases |fs|
  {
    if |fs| > 0 && fs[0].key != k {
      assert Put(fs, k, v)[1..] == Put(fs[1..], k, v);
      assert Keys(fs[1..]) == Keys(fs)[1..];
      LookupPut(fs[1..], k, v, k2);
    }
  }

  /** A second assignment to the same property replaces the first. */
  lemma {:induction false} PutPut(fs: seq<Field>, k: string, v: JVal, w: JVal)
    ensures Put(Put(fs, k, v), k, w) == Put(fs, k, w)
    decreases |fs|
  {
    if |fs| > 0 && fs[0].key != k {
      assert Put(fs, k, v)[1..] == Put(fs[1..], k, v);
      PutPut(fs[1..], k, v, w);
    }
  }

  /** Assigning a property the value it already holds changes nothing. */
  lemma {:induction false} PutSame(fs: seq<Field>, k: string)
    requires k in Keys(fs)
    ensures Put(fs, k, Lookup(fs, k)) == fs
    decreases |fs|
  {
    if fs[0].key != k {
      assert Keys(fs[1..]) == Keys(fs)[1..];
      PutSame(fs[1..], k);
    }
  }

  /** Assigning a property the object does not have appends it, unless it is
      `__proto__`, which leaves the own properties as they are. */
  lemma {:induction false} PutAbsent(fs: seq<Field>, k: string, v: JVal)
    requires k !in Keys(fs)
    ensures Put(fs, k, v) == if k == ProtoKey then fs else fs + [Field(k, v)]
    decreases |fs|
  {
    if |fs| > 0 {
      assert Keys(fs[1..]) == Keys(fs)[1..];
      assert fs[0].key == Keys(fs)[0];
      PutAbsent(fs[1..], k, v);
      assert fs == [fs[0]] + fs[1..];
    }
  }

  /** Assignment never duplicates a key. */
  lemma PutDistinct(fs: seq<Field>, k: string, v: JVal)
    requires DistinctKeys(fs)
    ensures DistinctKeys(Put(fs, k, v))
  {
    var r := Put(fs, k, v);
    forall i, j | 0 <= i < j < |r|
      ensures r[i].key != r[j].key
    {
      assert Keys(r)[i] == r[i].key && Keys(r)[j] == r[j].key;
      if j < |fs| {
        assert Keys(fs)[i] == fs[i].key && Keys(fs)[j] == fs[j].key;
      } else {
        assert Keys(fs)[i] == fs[i].key;
      }
    }
  }

  /** Assigning the property that was appended last overwrites it in last place. */
  lemma {:induction false} PutLast(fs: seq<Field>, k: string, x: JVal, y: JVal)
    requires k !in Keys(fs)
    ensures Put(fs + [Field(k, x)], k, y) == fs + [Field(k, y)]
    decreases |fs|
  {
    if |fs| > 0 {
      assert Keys(fs[1..]) == Keys(fs)[1..];
      assert fs[0].key == Keys(fs)[0];
      assert (fs + [Field(k, x)])[1..] == fs[1..] + [Field(k, x)];
      PutLast(fs[1..], k, x, y);
      assert fs == [fs[0]] + fs[1..];
    }
  }

  // ---------------------------------------------------------------- array indices

  /** Decimal digits without a superfluous leading zero: the property keys that
      address array elements. */
  predicate Canonical(key: string) {
    |key| > 0 && AllDigits(key) && (key[0] == '0' ==> |key| == 1)
  }

  /** The element a property key addresses when used on an array. */
  function ArrayIndex(key: string): (r: Option<nat>)
    ensures r.Some? ==> NatToString(r.value) == key
    ensures r.None? ==> !Canonical(key)
  {
    if Canonical(key) then
      CanonicalRoundTrip(key);
      Some(DigitsValue(key))
    else None
  }

  /** Every index is addressed by its decimal rendering, so `ArrayIndex` succeeds
      exactly on the strings `NatToString` produces. */
  lemma ArrayIndexOfNatToString(n: nat)
    ensures ArrayIndex(NatToString(n)) == Some(n)
  {
    var s := NatToString(n);
    assert s[0] == '0' ==> n == 0;
    DigitsValueOfNatToString(n);
  }

  lemma {:induction false} CanonicalRoundTrip(key: string)
    requires Canonical(key)
    ensures NatToString(DigitsValue(key)) == key
    decreases |key|
  {
    if |key| > 1 {
      var init := key[..|key| - 1];
      assert Canonical(init);
      CanonicalRoundTrip(init);
      LeadingDigitValue(init);
      var m := DigitsValue(key);
      assert m / 10 == DigitsValue(init) && m % 10 == key[|key| - 1] as int - '0' as int;
      assert key == init + [key[|key| - 1]];
    }
  }

  lemma {:induction false} LeadingDigitValue(s: string)
    requires |s| > 0 && AllDigits(s) && s[0] != '0'
    ensures DigitsValue(s) >= 1
    decreases |s|
  {
    if |s| > 1 {
      LeadingDigitValue(s[..|s| - 1]);
    }
  }

  /** `items[i] = v`: assigning past the end fills the gap with holes, which read
      as `undefined`. */
  function SetIndex(items: seq<JVal>, i: nat, v: JVal): (r: seq<JVal>)
    ensures |r| == if i < |items| then |items| else i + 1
    ensures r[i] == v
    ensures forall j :: 0 <= j < |items| && j != i ==> r[j] == items[j]
    ensures forall j :: |items| <= j < i ==> r[j] == JUndefined
  {
    if i < |items| then items[i := v]
    else items + seq(i - |items|, _ => JUndefined) + [v]
  }

  // ---------------------------------------------------------------- property access

  /** `cur[key]`. Reading a property of `null` or `undefined` throws. An object's own
      property is its value; a name it inherits from `Object.prototype`, or a named
      property of an array other than `length`, would yield a function, which values
      here cannot hold. A named property of another primitive reads as `undefined`:
      its only reader assigns to the same primitive next, which throws either way. */
  function Get(cur: JVal, key: string): (r: Result<JVal>)
    ensures r.Err? <==>
              || cur == JNull || cur == JUndefined
              || (cur.JObj? && key !in Keys(cur.fields) && Inherited(key))
              || (cur.JArr? && ArrayIndex(key).None? && key != "length")
    ensures cur.JObj? && r.Ok? ==> r == Ok(Lookup(cur.fields, key))
    ensures cur.JObj? && key in Keys(cur.fields) ==> r == Ok(Lookup(cur.fields, key))
  {
    match cur
    case JUndefined => Err(TypeError("Cannot read properties of undefined"))
    case JNull => Err(TypeError("Cannot read properties of null"))
    case JObj(fs) =>
      if key !in Keys(fs) && Inherited(key) then Err(Unmodelled("an inherited property"))
      else Ok(Lookup(fs, key))
    case JArr(items) =>
      (match ArrayIndex(key)
       case Some(i) => Ok(if i < |items| then items[i] else JUndefined)
       case None =>
         if key == "length" then Ok(JNum(|items|))
         else Err(Unmodelled("a named property of an array")))
    case JStr(s) =>
      (match ArrayIndex(key)
       case Some(i) => Ok(if i < |s| then JStr([s[i]]) else JUndefined)
       case None => Ok(if key == "length" then JNum(|s|) else JUndefined))
    case _ => Ok(JUndefined)
  }

  /** `cur[key] = v` in strict-mode code: a primitive refuses the assignment with a
      `TypeError`. Named (non-index) properties of arrays are not modelled, nor is
      giving an object a new prototype by assigning an object to `__proto__`. */
  function Assign(cur: JVal, key: string, v: JVal): (r: Result<JVal>)
    ensures r.Ok? <==>
              || (cur.JObj? && !(key == ProtoKey && key !in Keys(cur.fields) && IsObject(v)))
              || (cur.JArr? && ArrayIndex(key).Some?)
    ensures cur.JObj? && r.Ok? ==> r == Ok(JObj(Put(cur.fields, key, v)))
    ensures r.Ok? && cur.JArr? ==> r.value.JArr? && Get(r.value, key) == Ok(v)
  {
    match cur
    case JObj(fs) =>
      if key == ProtoKey && key !in Keys(fs) && IsObject(v) then
        Err(Unmodelled("a change of prototype"))
      else Ok(JObj(Put(fs, key, v)))
    case JArr(items) =>
      (match ArrayIndex(key)
       case Some(i) => Ok(JArr(SetIndex(items, i, v)))
       case None => Err(Unmodelled("a named property on an array")))
    case JUndefined => Err(TypeError("Cannot set properties of undefined"))
    case JNull => Err(TypeError("Cannot set properties of null"))
    case _ => Err(TypeError("Cannot create property on a primitive value"))
  }

  // ---------------------------------------------------------------- Object.entries

  /** The entries of an array: its indices rendered as keys. */
  function IndexFields(items: seq<JVal>): (fs: seq<Field>)
    ensures |fs| == |items|
    ensures forall i :: 0 <= i < |items| ==> fs[i] == Field(NatToString(i), items[i])
  {
    seq(|items|, i requires 0 <= i < |items| => Field(NatToString(i), items[i]))
  }

  /** `Object.entries(v)`: `null` and `undefined` throw, numbers and booleans have
      no entries, a string has one entry per character. */
  function Entries(v: JVal): (r: Result<seq<Field>>)
    ensures r.Err? <==> v == JNull || v == JUndefined
    ensures v.JObj? ==> r == Ok(v.fields)
    ensures v.JArr? ==> r == Ok(IndexFields(v.items))
  {
    match v
    case JUndefined => Err(TypeError("Cannot convert undefined or null to object"))
    case JNull => Err(TypeError("Cannot convert undefined or null to object"))
    case JBool(_) => Ok([])
    case JNum(_) => Ok([])
    case JStr(s) => Ok(seq(|s|, i requires 0 <= i < |s| => Field(NatToString(i), JStr([s[i]]))))
    case JArr(items) => Ok(IndexFields(items))
    case JObj(fs) => Ok(fs)
  }

  /** `Object.values(v)`. */
  function Values(v: JVal): (r: Result<seq<JVal>>)
    ensures r.Ok? <==> Entries(v).Ok?
    ensures r.Ok? ==> |r.value| == |Entries(v).value|
                      && forall i :: 0 <= i < |r.value| ==> r.value[i] == Entries(v).value[i].value
  {
    var es :- Entries(v);
    Ok(seq(|es|, i requires 0 <= i < |es| => es[i].value))
  }

  // ---------------------------------------------------------------- string conversion

  /** `Number.isSafeInteger(n)`: an integer a double holds exactly, whose `String`
      form is its plain decimal digits. */
  predicate SafeInteger(n: int) {
    -0x1F_FFFF_FFFF_FFFF <= n <= 0x1F_FFFF_FFFF_FFFF
  }

  /** `String(v)`, which template literals apply to every interpolated value. A
      number is written in decimal, which is what JavaScript writes for a safe
      integer. */
  function ToJsString(v: JVal): string
    decreases v, 1
  {
    match v
    case JUndefined => "undefined"
    case JNull => "null"
    case JBool(b) => if b then "true" else "false"
    case JNum(n) => IntToString(n)
    case JStr(s) => s
    case JArr(items) => Join(ElementStrings(items, 0), ",")
    case JObj(_) => "[object Object]"
  }

  /** How `Array.prototype.join` renders one element: `null` and `undefined` as
      the empty string. */
  function ElementString(v: JVal): string
    decreases v, 2
  {
    if v == JNull || v == JUndefined then "" else ToJsString(v)
  }

  function ElementStrings(items: seq<JVal>, i: nat): (r: seq<string>)
    requires i <= |items|
    ensures |r| == |items| - i
    ensures forall j :: 0 <= j < |r| ==> r[j] == ElementString(items[i + j])
    decreases items, 0, |items| - i
  {
    if i == |items| then [] else [ElementString(items[i])] + ElementStrings(items, i + 1)
  }

  /** `items.join(sep)`. */
  function ArrayJoin(items: seq<JVal>, sep: string): string {
    Join(ElementStrings(items, 0), sep)
  }
}

=== FILE: mapping_data.dfy ===
/** The record builders: a parsed JSON value, a parsed XML tree or delimited text
    becomes a dataset of `{key, value}` records. A field keyed exactly `tarjeta`
    (a card number) is replaced by a signed token; the signer is a parameter. */
module MappingData {
  import opened Results
  import opened Text
  import opened JsValue
  import opened ObjectFlatter
  import opened FlattenRoundTrip
  import opened SeqFacts

  /** `generateToken(value, secret).token`, which is `jwt.sign(value, secret)`: a
      token, or the error the signing library throws. Signing is outside the model,
      so every builder receives the signer as a function of the value and the
      secret. */
  type Signer = (JVal, string) -> Result<string>

  /** What the JSON web token library demands of a payload: it refuses `undefined`
      as missing and `null` as not a plain object, whatever the secret. */
  ghost predicate RefusesMissing(tok: Signer) {
    forall secret: string :: tok(JUndefined, secret).Err? && tok(JNull, secret).Err?
  }

  const CardKey := "tarjeta"

  /** One flattened entry as it enters a record: the card field is signed, and a
      refused signature is thrown. */
  function Protect(f: Field, secret: string, tok: Signer): (r: Result<Field>)
    ensures f.key != CardKey ==> r == Ok(f)
    ensures f.key == CardKey ==> (r.Ok? <==> tok(f.value, secret).Ok?)
    ensures f.key == CardKey && r.Ok? ==> r.value == Field(CardKey, JStr(tok(f.value, secret).value))
    ensures r.Err? ==> r.error == tok(f.value, secret).error
  {
    if f.key != CardKey then Ok(f)
    else
      var token :- tok(f.value, secret);
      Ok(Field(f.key, JStr(token)))
  }

  /** Some field keyed exactly `tarjeta` holds a value the signer refuses. */
  predicate CardRefused(flat: seq<Field>, secret: string, tok: Signer) {
    exists f :: f in flat && f.key == CardKey && tok(f.value, secret).Err?
  }

  /** `flattenToKeyValueList(entries, secret)` throws: `entries` cannot be
      flattened, or its card field cannot be signed. */
  predicate ListRefused(entries: JVal, secret: string, tok: Signer) {
    entries == JNull || entries == JUndefined || CardRefused(Flatten(entries).value, secret, tok)
  }

  /** `flattenToKeyValueList(entries, secret)`: the flattened entries in order, the
      one keyed exactly `tarjeta` signed. A nested card (`x#tarjeta`) is a different
      key and stays in clear. */
  function KeyValueList(entries: JVal, secret: string, tok: Signer): (r: Result<Record>)
    ensures r.Err? <==> ListRefused(entries, secret, tok)
    ensures Flatten(entries).Err? ==> r == Err(Flatten(entries).error)
    ensures r.Err? && Flatten(entries).Ok? ==>
              exists f :: f in Flatten(entries).value && f.key == CardKey && tok(f.value, secret) == Err(r.error)
    ensures r.Ok? ==> var flat := Flatten(entries).value;
            && Keys(r.value) == Keys(flat)
            && DistinctKeys(r.value)
            && (forall i :: 0 <= i < |flat| && flat[i].key != CardKey ==> r.value[i] == flat[i])
            && (forall i :: 0 <= i < |flat| && flat[i].key == CardKey ==> r.value[i].value == JStr(tok(flat[i].value, secret).value))
  {
    var flat :- Flatten(entries);
    var rs := seq(|flat|, i requires 0 <= i < |flat| => Protect(flat[i], secret, tok));
    var c := Collect(rs);
    if c.Err? then
      assert exists i :: 0 <= i < |rs| && rs[i] == Err(c.error);
      Err(c.error)
    else
      var r := c.value;
      assert !CardRefused(flat, secret, tok) by {
        forall f | f in flat && f.key == CardKey
          ensures tok(f.value, secret).Ok?
        {
          var i :| 0 <= i < |flat| && flat[i] == f;
          assert rs[i].Ok?;
        }
      }
      assert Keys(r) == Keys(flat) by {
        forall i | 0 <= i < |r|
          ensures r[i].key == flat[i].key
        {
          assert rs[i].Ok?;
        }
      }
      assert DistinctKeys(r) by {
        forall a, b | 0 <= a < b < |r|
          ensures r[a].key != r[b].key
        {
          assert Keys(r)[a] == flat[a].key && Keys(r)[b] == flat[b].key;
        }
      }
      Ok(r)
  }

  /** An object of scalar fields becomes a record of the same fields, in order,
      with exactly the `tarjeta` field signed and a `__proto__` field gone; it is
      refused exactly when the card field cannot be signed. */
  lemma KeyValueListOfFlatObject(fs: seq<Field>, secret: string, tok: Signer)
    requires DistinctKeys(fs)
    requires forall j :: 0 <= j < |fs| ==> !IsObject(fs[j].value)
    ensures KeyValueList(JObj(fs), secret, tok).Ok? <==> !CardRefused(fs, secret, tok)
    ensures KeyValueList(JObj(fs), secret, tok).Ok? ==>
            var r, gs := KeyValueList(JObj(fs), secret, tok).value, WithoutProto(fs);
            && |r| == |gs|
            && (forall j :: 0 <= j < |gs| ==> r[j].key == gs[j].key)
            && (forall j :: 0 <= j < |gs| ==> (r[j].value != gs[j].value ==> gs[j].key == CardKey))
            && (forall j :: 0 <= j < |gs| && gs[j].key == CardKey ==> r[j].value == JStr(tok(gs[j].value, secret).value))
  {
    FlattenScalarFields(fs);
    assert CardRefused(WithoutProto(fs), secret, tok) <==> CardRefused(fs, secret, tok) by {
      assert CardKey != ProtoKey;
    }
  }

  /** With a signer that refuses a missing payload, as the JSON web token library
      does, an object whose card field is `null` is refused. */
  lemma NullCardRefused(fs: seq<Field>, secret: string, tok: Signer)
    requires RefusesMissing(tok) && DistinctKeys(fs)
    requires forall j :: 0 <= j < |fs| ==> !IsObject(fs[j].value)
    requires Field(CardKey, JNull) in fs
    ensures KeyValueList(JObj(fs), secret, tok).Err?
  {
    KeyValueListOfFlatObject(fs, secret, tok);
    assert tok(JNull, secret).Err?;
  }

  /** A card number below another property is written under `x#tarjeta`, which is
      not the card key, so it stays in clear. */
  lemma NestedCardInClear(x: string, v: JVal, secret: string, tok: Signer)
    requires x != "" && !IsObject(v)
    ensures KeyValueList(JObj([Field(x, JObj([Field(CardKey, v)]))]), secret, tok) == Ok([Field(x + "#" + CardKey, v)])
  {
    var k := x + "#" + CardKey;
    FlattenNestedLeaf(x, CardKey, v);
    assert |k| > |CardKey|;
    assert !CardRefused([Field(k, v)], secret, tok);
    var r := KeyValueList(JObj([Field(x, JObj([Field(CardKey, v)]))]), secret, tok);
    assert |Keys(r.value)| == 1;
    assert r.Ok? && |r.value| == 1;
    assert r.value[0] == Field(k, v);
    assert r.value == [Field(k, v)];
  }

  /** A scalar one level down is written under the joined key. */
  lemma FlattenNestedLeaf(x: string, y: string, v: JVal)
    requires x != "" && !IsObject(v)
    ensures Flatten(JObj([Field(x, JObj([Field(y, v)]))])) == Ok([Field(x + "#" + y, v)])
  {
    var inner := [Field(y, v)];
    var w := [Field(x + "#" + y, v)];
    NestedLeafWrites(x, y, v);
    FlattenSingle(x, JObj(inner));
    AssembleFresh([], w);
    JoinedIsNotProto(x, y);
    assert WithoutProto(w) == w;
    assert [] + w == w;
  }

  lemma NestedLeafWrites(x: string, y: string, v: JVal)
    requires x != "" && !IsObject(v)
    ensures EntryWrites(x, JObj([Field(y, v)]), "") == [Field(x + "#" + y, v)]
  {
    var inner := [Field(y, v)];
    assert JoinKey(x, y) == x + "#" + y;
    assert FieldWrites(inner, 1, x) == [];
    assert FieldWrites(inner, 0, x) == [Field(x + "#" + y, v)];
  }

  /** A key joined below a non-empty parent holds a `#`, so it is never `__proto__`. */
  lemma JoinedIsNotProto(x: string, y: string)
    ensures x + "#" + y != ProtoKey
  {
    var k := x + "#" + y;
    assert k[|x|] == '#';
    assert '#' !in ProtoKey;
  }

  /** The key a single `tarjeta` leaf is written under is the key of a root-level
      property. */
  lemma CardPathIsRoot(path: seq<Segment>)
    requires |path| > 0 && WordPath(path) && Render(path) == CardKey
    ensures path == [Prop(CardKey)]
  {
    SegmentsOfRender(path);
    assert '#' !in CardKey;
    NoCharNoOccurrence(CardKey, '#');
    SplitOnPieces(CardKey, "#");
    var parts := SplitOn(CardKey, "#");
    assert |parts| == 1;
    assert Join(parts, "#") == parts[0];
    assert '[' !in CardKey;
    MatchIndexedNeedsBracket(CardKey);
  }

  /** Unflattening the record built from a restorable object without a root-level
      `tarjeta` property gives the object back: nothing in it is signed. */
  lemma KeyValueListRoundTrip(fs: seq<Field>, secret: string, tok: Signer)
    requires RestorableFields(fs) && CardKey !in Keys(fs)
    ensures KeyValueList(JObj(fs), secret, tok).Ok?
    ensures Unflatten([KeyValueList(JObj(fs), secret, tok).value]) == Ok([JObj(fs)])
  {
    FlattenUnflatten(fs);
    FlatHasNoCard(fs);
    KeyValueListWithoutCard(JObj(fs), secret, tok);
  }

  /** No key written for a restorable object without a root `tarjeta` is the card key. */
  lemma FlatHasNoCard(fs: seq<Field>)
    requires RestorableFields(fs) && CardKey !in Keys(fs)
    ensures Flatten(JObj(fs)).Ok?
    ensures forall j :: 0 <= j < |Flatten(JObj(fs)).value| ==> Flatten(JObj(fs)).value[j].key != CardKey
  {
    FlattenRendered(fs);
    FieldsShape(fs, 0);
    var es := RelFields(fs, 0);
    var flat := Flatten(JObj(fs)).value;
    forall j | 0 <= j < |flat|
      ensures flat[j].key != CardKey
    {
      assert [] + es[j].path == es[j].path;
      if flat[j].key == CardKey {
        CardPathIsRoot(es[j].path);
      }
    }
  }

  /** Without a card field the record is the flattened object itself. */
  lemma KeyValueListWithoutCard(entries: JVal, secret: string, tok: Signer)
    requires Flatten(entries).Ok?
    requires forall j :: 0 <= j < |Flatten(entries).value| ==> Flatten(entries).value[j].key != CardKey
    ensures KeyValueList(entries, secret, tok) == Flatten(entries)
  {
    var flat := Flatten(entries).value;
    assert !CardRefused(flat, secret, tok);
    var r := KeyValueList(entries, secret, tok).value;
    assert |r| == |Keys(r)| == |flat|;
    assert r == flat;
  }

  /** `items.map(item => flattenToKeyValueList(item, secret))`: the first element
      that cannot be flattened aborts the whole map. */
  function KeyValueLists(items: seq<JVal>, secret: string, tok: Signer): (r: Result<Dataset>)
    ensures r.Ok? <==> forall i :: 0 <= i < |items| ==> KeyValueList(items[i], secret, tok).Ok?
    ensures r.Ok? ==> |r.value| == |items|
                      && forall i :: 0 <= i < |items| ==> r.value[i] == KeyValueList(items[i], secret, tok).value
    ensures r.Err? ==> exists i :: 0 <= i < |items|
                                   && KeyValueList(items[i], secret, tok) == Err(r.error)
                                   && forall j :: 0 <= j < i ==> KeyValueList(items[j], secret, tok).Ok?
  {
    var rs := seq(|items|, i requires 0 <= i < |items| => KeyValueList(items[i], secret, tok));
    var c := Collect(rs);
    assert forall i :: 0 <= i < |items| ==> rs[i] == KeyValueList(items[i], secret, tok);
    c
  }

  /** `convertJsonToListMap(data, secret)`: one record per element of an array, in
      order, or a single record for any other value. */
  function ConvertJson(data: JVal, secret: string, tok: Signer): (r: Result<Dataset>)
    ensures r.Ok? ==> |r.value| == if data.JArr? then |data.items| else 1
    ensures !data.JArr? ==> (r.Err? <==> ListRefused(data, secret, tok))
    ensures data.JArr? ==> (r.Err? <==> exists i :: 0 <= i < |data.items| && ListRefused(data.items[i], secret, tok))
    ensures r.Ok? && data.JArr? ==> forall i :: 0 <= i < |data.items| ==> r.value[i] == KeyValueList(data.items[i], secret, tok).value
    ensures r.Ok? && !data.JArr? ==> r.value == [KeyValueList(data, secret, tok).value]
  {
    if !data.JArr? then
      var rec :- KeyValueList(data, secret, tok);
      Ok([rec])
    else
      KeyValueLists(data.items, secret, tok)
  }

  /** Unflattening the records built from a JSON array of restorable objects, none
      with a root `tarjeta` property, gives the array's objects back, in order. */
  lemma ConvertJsonRoundTrip(items: seq<JVal>, secret: string, tok: Signer)
    requires forall i :: 0 <= i < |items| ==> items[i].JObj? && RestorableFields(items[i].fields)
    requires forall i :: 0 <= i < |items| ==> CardKey !in Keys(items[i].fields)
    ensures ConvertJson(JArr(items), secret, tok).Ok?
    ensures Unflatten(ConvertJson(JArr(items), secret, tok).value) == Ok(items)
  {
    forall i | 0 <= i < |items|
      ensures KeyValueList(items[i], secret, tok).Ok?
      ensures Unflatten([KeyValueList(items[i], secret, tok).value]) == Ok([items[i]])
    {
      KeyValueListRoundTrip(items[i].fields, secret, tok);
    }
    var recs := ConvertJson(JArr(items), secret, tok).value;
    UnflattenEach(items, recs);
  }

  /** Records that each unflatten to one value unflatten together to those values. */
  lemma {:induction false} UnflattenEach(vs: seq<JVal>, recs: Dataset)
    requires |recs| == |vs|
    requires forall i :: 0 <= i < |recs| ==> Unflatten([recs[i]]) == Ok([vs[i]])
    ensures Unflatten(recs) == Ok(vs)
    decreases |recs|
  {
    if |recs| > 0 {
      assert forall i :: 0 <= i < |recs| - 1 ==> recs[1..][i] == recs[i + 1] && vs[1..][i] == vs[i + 1];
      UnflattenEach(vs[1..], recs[1..]);
      UnflattenSingle(recs[0]);
      UnflattenStep(recs, vs[0]);
      ConsTail(vs);
    }
  }

  /** A first record that builds `v` puts `v` in front of the rest. */
  lemma UnflattenStep(recs: Dataset, v: JVal)
    requires |recs| > 0 && ApplyRecord(JObj([]), recs[0]) == Ok(v)
    ensures Unflatten(recs) == (var rest := Unflatten(recs[1..]); if rest.Ok? then Ok([v] + rest.value) else rest)
  {
  }

  const XmlFormatError := JsError("Invalid xml format", "")

  /** `convertXmlToListMap(data, secret)`: the tree must have exactly one root
      property; the first property of the root holds the entity list, and a single
      entity that is not an array is treated as a list of one. */
  function ConvertXml(data: JVal, secret: string, tok: Signer): (r: Result<Dataset>)
    ensures Values(data).Ok? && |Values(data).value| != 1 ==> r == Err(XmlFormatError)
    ensures r.Ok? ==> Values(data).Ok? && |Values(data).value| == 1
    ensures data == JNull || data == JUndefined ==> r.Err? && r != Err(XmlFormatError)
  {
    var rootValues :- Values(data);
    if |rootValues| != 1 then Err(XmlFormatError)
    else
      var root := rootValues[0];
      var children :- Values(root);
      var entityList := if |children| > 0 then children[0] else JUndefined;
      var list := if entityList.JArr? then entityList.items else [entityList];
      KeyValueLists(list, secret, tok)
  }

  /** A root whose first child is an array yields one record per array element. */
  lemma XmlEntityArray(rootKey: string, listKey: string, items: seq<JVal>, more: seq<Field>, secret: string, tok: Signer)
    ensures ConvertXml(JObj([Field(rootKey, JObj([Field(listKey, JArr(items))] + more))]), secret, tok)
         == KeyValueLists(items, secret, tok)
  {
    var root := JObj([Field(listKey, JArr(items))] + more);
    var data := JObj([Field(rootKey, root)]);
    assert Entries(data) == Ok([Field(rootKey, root)]);
    assert Values(data).value[0] == root;
    assert Values(root).value[0] == JArr(items);
  }

  /** A root whose first child is a single object yields exactly one record. */
  lemma XmlSingleEntity(rootKey: string, entityKey: string, entity: seq<Field>, more: seq<Field>, secret: string, tok: Signer)
    ensures var data := JObj([Field(rootKey, JObj([Field(entityKey, JObj(entity))] + more))]);
            var rec := KeyValueList(JObj(entity), secret, tok);
            ConvertXml(data, secret, tok) == if rec.Ok? then Ok([rec.value]) else Err(rec.error)
  {
    var root := JObj([Field(entityKey, JObj(entity))] + more);
    var data := JObj([Field(rootKey, root)]);
    assert Entries(data) == Ok([Field(rootKey, root)]);
    assert Values(data).value[0] == root;
    assert Values(root).value[0] == JObj(entity);
    var list := [JObj(entity)];
    assert ConvertXml(data, secret, tok) == KeyValueLists(list, secret, tok);
    assert list[1..] == [];
    assert KeyValueLists(list[1..], secret, tok) == Ok([]);
    var rec := KeyValueList(JObj(entity), secret, tok);
    if rec.Ok? {
      assert KeyValueLists(list, secret, tok) == Ok([rec.value] + []);
      assert [rec.value] + [] == [rec.value];
    }
  }

  // ================================================================ delimited text

  const CsvShapeError := JsError("CSV must have header and at least one row", "")

  function TrimAll(parts: seq<string>): (r: seq<string>)
    ensures |r| == |parts| && forall i :: 0 <= i < |parts| ==> r[i] == Trim(parts[i])
  {
    seq(|parts|, i requires 0 <= i < |parts| => Trim(parts[i]))
  }

  /** The trimmed cells of one line. */
  function Cells(line: string, delimiter: string): (r: seq<string>)
    ensures |delimiter| > 0 ==> |r| == |SplitOn(line, delimiter)|
  {
    TrimAll(Split(line, delimiter))
  }

  /** `values[i]` for the cells `values` of a line: `undefined` past the end of a
      short line. */
  function Cell(values: seq<string>, i: nat): JVal {
    if i < |values| then JStr(values[i]) else JUndefined
  }

  /** The value under header `key` for cell `i` of a line: the card column is signed
      from the trimmed cell as it stands (`undefined` when the line is short), and a
      refused signature is thrown; any other column loses one leading and one
      trailing double quote. */
  function CellValue(key: string, values: seq<string>, i: nat, secret: string, tok: Signer): (v: Result<JVal>)
    ensures key != CardKey && i < |values| ==> v == Ok(JStr(StripQuotes(values[i])))
    ensures key != CardKey && i >= |values| ==> v == Ok(JUndefined)
    ensures key == CardKey ==> (v.Ok? <==> tok(Cell(values, i), secret).Ok?)
    ensures key == CardKey && v.Ok? ==> v.value == JStr(tok(Cell(values, i), secret).value)
    ensures key == CardKey && v.Err? ==> v.error == tok(Cell(values, i), secret).error
  {
    if key == CardKey then
      var token :- tok(Cell(values, i), secret);
      Ok(JStr(token))
    else if i < |values| then Ok(JStr(StripQuotes(values[i])))
    else Ok(JUndefined)
  }

  /** `{key, value}` for a value that may have thrown. */
  function Named(key: string, v: Result<JVal>): (r: Result<Field>)
    ensures r.Ok? <==> v.Ok?
    ensures r.Ok? ==> r.value == Field(key, v.value)
    ensures r.Err? ==> r.error == v.error
  {
    if v.Ok? then Ok(Field(key, v.value)) else Err(v.error)
  }

  /** The outcome of each header's field on a line with the cells `values`. */
  function RowCells(headers: seq<string>, values: seq<string>, secret: string, tok: Signer): (rs: seq<Result<Field>>)
    ensures |rs| == |headers|
    ensures forall i :: 0 <= i < |headers| ==> rs[i] == Named(headers[i], CellValue(headers[i], values, i, secret, tok))
  {
    seq(|headers|, i requires 0 <= i < |headers| => Named(headers[i], CellValue(headers[i], values, i, secret, tok)))
  }

  /** The record of one data line: one field per header, in header order. The
      first card cell the signer refuses aborts the line. */
  function LineRecord(headers: seq<string>, line: string, delimiter: string, secret: string, tok: Signer): (r: Result<Record>)
    ensures r.Ok? <==> forall i :: 0 <= i < |headers| ==> CellValue(headers[i], Cells(line, delimiter), i, secret, tok).Ok?
    ensures r.Ok? ==> Keys(r.value) == headers
    ensures r.Ok? ==> forall i :: 0 <= i < |headers| ==> r.value[i].value == CellValue(headers[i], Cells(line, delimiter), i, secret, tok).value
    ensures r.Err? ==> exists i :: 0 <= i < |headers| && headers[i] == CardKey
                                   && CellValue(headers[i], Cells(line, delimiter), i, secret, tok) == Err(r.error)
  {
    var values := Cells(line, delimiter);
    RowOutcome(headers, values, secret, tok);
    Collect(RowCells(headers, values, secret, tok))
  }

  lemma RowOutcome(headers: seq<string>, values: seq<string>, secret: string, tok: Signer)
    ensures var c := Collect(RowCells(headers, values, secret, tok));
            && (c.Ok? <==> forall i :: 0 <= i < |headers| ==> CellValue(headers[i], values, i, secret, tok).Ok?)
            && (c.Ok? ==> Keys(c.value) == headers)
            && (c.Ok? ==> forall i :: 0 <= i < |headers| ==> c.value[i].value == CellValue(headers[i], values, i, secret, tok).value)
            && (c.Err? ==> exists i :: 0 <= i < |headers| && headers[i] == CardKey
                                       && CellValue(headers[i], values, i, secret, tok) == Err(c.error))
  {
    var rs := RowCells(headers, values, secret, tok);
    var c := Collect(rs);
    if c.Ok? {
      forall i | 0 <= i < |headers|
        ensures c.value[i] == Field(headers[i], CellValue(headers[i], values, i, secret, tok).value)
      {
        assert rs[i].Ok?;
      }
      assert Keys(c.value) == headers;
    } else {
      var i :| 0 <= i < |rs| && rs[i] == Err(c.error) && forall j :: 0 <= j < i ==> rs[j].Ok?;
      assert CellValue(headers[i], values, i, secret, tok) == Err(c.error);
    }
  }

  /** The lines of the trimmed input. */
  function CsvLines(data: string): (lines: seq<string>)
    ensures |lines| >= 1
  {
    SplitLines(Trim(data))
  }

  /** The delimiter in force: the one given, or the default `,`. */
  function DelimiterOr(delimiter: Option<string>): string {
    if delimiter.Some? then delimiter.value else ","
  }

  /** The trimmed cells of the first line. */
  function Headers(data: string, d: string): seq<string> {
    Cells(CsvLines(data)[0], d)
  }

  /** The record of data line `j`, the line after the header being line 0. */
  function DataRecord(data: string, d: string, j: nat, secret: string, tok: Signer): Result<Record>
    requires j < |CsvLines(data)| - 1
  {
    LineRecord(Headers(data, d), CsvLines(data)[j + 1], d, secret, tok)
  }

  /** `convertCsvToListMap(data, delimiter, secret)`; `None` is an omitted delimiter
      and selects the default `,`. A single line is refused before any line is
      read; otherwise the first data line that throws aborts the whole map. */
  function ConvertCsv(data: string, delimiter: Option<string>, secret: string, tok: Signer): (r: Result<Dataset>)
    ensures |CsvLines(data)| < 2 ==> r == Err(CsvShapeError)
    ensures |CsvLines(data)| >= 2 ==>
              (r.Ok? <==> forall j :: 0 <= j < |CsvLines(data)| - 1 ==> DataRecord(data, DelimiterOr(delimiter), j, secret, tok).Ok?)
    ensures |CsvLines(data)| >= 2 && r.Err? ==>
              exists j :: 0 <= j < |CsvLines(data)| - 1 && DataRecord(data, DelimiterOr(delimiter), j, secret, tok) == Err(r.error)
    ensures r.Ok? ==> |r.value| == |CsvLines(data)| - 1
    ensures r.Ok? ==> forall j :: 0 <= j < |r.value| ==> DataRecord(data, DelimiterOr(delimiter), j, secret, tok) == Ok(r.value[j])
    ensures r.Ok? ==> forall j :: 0 <= j < |r.value| ==> Keys(r.value[j]) == Headers(data, DelimiterOr(delimiter))
    ensures r.Ok? ==> var d := DelimiterOr(delimiter);
                      forall j, i :: 0 <= j < |r.value| && j + 1 < |CsvLines(data)| && 0 <= i < |r.value[j]| && i < |Headers(data, d)| ==>
                        r.value[j][i].value == CellValue(Headers(data, d)[i], Cells(CsvLines(data)[j + 1], d), i, secret, tok).value
  {
    if |CsvLines(data)| < 2 then Err(CsvShapeError)
    else
      var c := Collect(DataRecords(data, DelimiterOr(delimiter), secret, tok));
      DataOutcome(data, DelimiterOr(delimiter), secret, tok, c);
      c
  }

  /** The outcome of each data line. */
  function DataRecords(data: string, d: string, secret: string, tok: Signer): (rs: seq<Result<Record>>)
    ensures |rs| == |CsvLines(data)| - 1
    ensures forall j :: 0 <= j < |rs| ==> rs[j] == DataRecord(data, d, j, secret, tok)
  {
    seq(|CsvLines(data)| - 1, j requires 0 <= j < |CsvLines(data)| - 1 => DataRecord(data, d, j, secret, tok))
  }

  lemma DataOutcome(data: string, d: string, secret: string, tok: Signer, c: Result<Dataset>)
    requires c == Collect(DataRecords(data, d, secret, tok))
    ensures c.Ok? <==> forall j :: 0 <= j < |CsvLines(data)| - 1 ==> DataRecord(data, d, j, secret, tok).Ok?
    ensures c.Err? ==> exists j :: 0 <= j < |CsvLines(data)| - 1 && DataRecord(data, d, j, secret, tok) == Err(c.error)
    ensures c.Ok? ==> |c.value| == |CsvLines(data)| - 1
    ensures c.Ok? ==> forall j :: 0 <= j < |c.value| ==> DataRecord(data, d, j, secret, tok) == Ok(c.value[j])
    ensures c.Ok? ==> forall j :: 0 <= j < |c.value| ==> Keys(c.value[j]) == Headers(data, d)
    ensures c.Ok? ==> forall j, i :: 0 <= j < |c.value| && j + 1 < |CsvLines(data)| && 0 <= i < |c.value[j]| && i < |Headers(data, d)| ==>
                        c.value[j][i].value == CellValue(Headers(data, d)[i], Cells(CsvLines(data)[j + 1], d), i, secret, tok).value
  {
    var rs := DataRecords(data, d, secret, tok);
    if c.Ok? {
      forall j: nat | j < |c.value|
        ensures DataRecord(data, d, j, secret, tok) == Ok(c.value[j])
        ensures Keys(c.value[j]) == Headers(data, d)
        ensures forall i :: 0 <= i < |c.value[j]| && i < |Headers(data, d)| && j + 1 < |CsvLines(data)| ==>
                  c.value[j][i].value == CellValue(Headers(data, d)[i], Cells(CsvLines(data)[j + 1], d), i, secret, tok).value
      {
        assert rs[j].Ok?;
      }
    }
  }

  /** The input is refused for its shape exactly when its trimmed text is a single
      line; with a line feed inside, every data line is read. */
  lemma CsvRefusedIffSingleLine(data: string, delimiter: Option<string>, secret: string, tok: Signer)
    ensures '\n' !in Trim(data) ==> ConvertCsv(data, delimiter, secret, tok) == Err(CsvShapeError)
    ensures '\n' in Trim(data) ==> |CsvLines(data)| >= 2
  {
    SingleLineIffNoLineFeed(Trim(data));
  }

  /** With a signer that refuses a missing payload, as the JSON web token library
      does, a data line too short to reach a `tarjeta` column makes the whole
      conversion throw. */
  lemma ShortCardLineRefused(data: string, delimiter: Option<string>, secret: string, tok: Signer, j: nat, i: nat)
    requires RefusesMissing(tok)
    requires j < |CsvLines(data)| - 1
    requires i < |Headers(data, DelimiterOr(delimiter))| && Headers(data, DelimiterOr(delimiter))[i] == CardKey
    requires i >= |Cells(CsvLines(data)[j + 1], DelimiterOr(delimiter))|
    ensures ConvertCsv(data, delimiter, secret, tok).Err?
  {
    var d := DelimiterOr(delimiter);
    assert tok(JUndefined, secret).Err?;
    assert CellValue(Headers(data, d)[i], Cells(CsvLines(data)[j + 1], d), i, secret, tok).Err?;
    assert DataRecord(data, d, j, secret, tok).Err?;
  }

  /** `convertTXTToListMap(data, delimiter, secret)`: the CSV builder with `;` as the
      default delimiter. */
  function ConvertTxt(data: string, delimiter: Option<string>, secret: string, tok: Signer): (r: Result<Dataset>)
    ensures delimiter.Some? ==> r == ConvertCsv(data, delimiter, secret, tok)
    ensures delimiter.None? ==> r == ConvertCsv(data, Some(";"), secret, tok)
  {
    ConvertCsv(data, Some(if delimiter.Some? then delimiter.value else ";"), secret, tok)
  }
}

=== FILE: object_flatter.dfy ===
/** The path-key codec: `flattenObject` turns a nested value into one record of
    `#`-joined path keys, and `unflattenObject` rebuilds one object per record. */
module ObjectFlatter {
  import opened Results
  import opened Text
  import opened JsValue
  import opened SeqFacts

  // ================================================================ flattenObject

  /** The key of property `key` under the path `parent`; a root-level property has
      no leading separator because the empty parent path is falsy. */
  function JoinKey(parent: string, key: string): string {
    if parent != "" then parent + "#" + key else key
  }

  /** The path of element `index` of the array stored under `newKey`. */
  function ItemKey(newKey: string, index: nat): string {
    newKey + "[" + NatToString(index) + "]"
  }

  /** The one lossy case: an array named `coordinates` below a path ending in
      `geometry` is kept as its first element only. */
  predicate CollapsesCoordinates(parent: string, key: string) {
    key == "coordinates" && EndsWith(parent, "geometry")
  }

  /** The assignments `result[k] = v` that the entry `[key, value]` of an object at
      path `parent` performs, in the order the traversal performs them. */
  function EntryWrites(key: string, value: JVal, parent: string): seq<Field>
    decreases value, 2
  {
    var newKey := JoinKey(parent, key);
    match value
    case JArr(items) =>
      if CollapsesCoordinates(parent, key) then
        [Field(newKey, if |items| > 0 then items[0] else JUndefined)]
      else
        ItemWrites(items, 0, newKey)
    case JObj(fs) => FieldWrites(fs, 0, newKey)
    case _ => [Field(newKey, value)]
  }

  /** The recursive call on a non-null object or array `v` found at path `parent`. */
  function ObjectWrites(v: JVal, parent: string): seq<Field>
    requires IsObject(v)
    decreases v, 1
  {
    match v
    case JObj(fs) => FieldWrites(fs, 0, parent)
    case JArr(items) => IndexWrites(items, 0, parent)
  }

  /** The writes of the entries `i..` of an object. */
  function FieldWrites(fs: seq<Field>, i: nat, parent: string): seq<Field>
    requires i <= |fs|
    decreases fs, 0, |fs| - i
  {
    if i == |fs| then []
    else EntryWrites(fs[i].key, fs[i].value, parent) + FieldWrites(fs, i + 1, parent)
  }

  /** The writes of the entries `i..` of an array reached through `Object.entries`,
      whose keys are the element indices. */
  function IndexWrites(items: seq<JVal>, i: nat, parent: string): seq<Field>
    requires i <= |items|
    decreases items, 0, |items| - i
  {
    if i == |items| then []
    else EntryWrites(NatToString(i), items[i], parent) + IndexWrites(items, i + 1, parent)
  }

  /** The `forEach` over an array stored under `newKey`, from element `i` on: an
      object element recurses below `newKey[i]`, any other element is written there. */
  function ItemWrites(items: seq<JVal>, i: nat, newKey: string): seq<Field>
    requires i <= |items|
    decreases items, 0, |items| - i
  {
    if i == |items| then []
    else
      var key := ItemKey(newKey, i);
      (if IsObject(items[i]) then ObjectWrites(items[i], key) else [Field(key, items[i])])
      + ItemWrites(items, i + 1, newKey)
  }

  /** Replays `writes` into the object `acc`: a key written twice keeps its first
      position and its last value. */
  function Assemble(acc: seq<Field>, writes: seq<Field>): (r: seq<Field>)
    ensures DistinctKeys(acc) ==> DistinctKeys(r)
    decreases |writes|
  {
    if |writes| == 0 then acc
    else
      var next := Put(acc, writes[0].key, writes[0].value);
      assert DistinctKeys(acc) ==> DistinctKeys(next) by {
        if DistinctKeys(acc) {
          PutDistinct(acc, writes[0].key, writes[0].value);
        }
      }
      Assemble(next, writes[1..])
  }

  /** None of the keys of `writes` is already a key of `acc`. */
  predicate FreshWrites(acc: seq<Field>, writes: seq<Field>) {
    forall j :: 0 <= j < |writes| ==> writes[j].key !in Keys(acc)
  }

  /** The fields of `fs` other than a `__proto__` entry, in order: what assigning
      them one by one leaves as own properties. */
  function WithoutProto(fs: seq<Field>): (r: seq<Field>)
    ensures forall f :: f in r <==> f in fs && f.key != ProtoKey
    ensures (forall j :: 0 <= j < |fs| ==> fs[j].key != ProtoKey) ==> r == fs
  {
    if |fs| == 0 then []
    else (if fs[0].key == ProtoKey then [] else [fs[0]]) + WithoutProto(fs[1..])
  }

  /** Writes with pairwise distinct keys, none already in `acc`, are all appended,
      except a `__proto__` write, which reaches the prototype setter. */
  lemma {:induction false} AssembleFresh(acc: seq<Field>, writes: seq<Field>)
    requires DistinctKeys(writes) && FreshWrites(acc, writes)
    ensures Assemble(acc, writes) == acc + WithoutProto(writes)
    decreases |writes|
  {
    if |writes| > 0 {
      var w, rest := writes[0], writes[1..];
      var head := if w.key == ProtoKey then [] else [w];
      AssembleFirstFresh(acc, writes);
      FreshTail(acc, writes);
      AssembleFresh(acc + head, rest);
      assert WithoutProto(writes) == head + WithoutProto(rest);
      AppendAssoc(acc, head, WithoutProto(rest));
    }
  }

  /** A write under a fresh key is appended, unless it is `__proto__`. */
  lemma AssembleFirstFresh(acc: seq<Field>, writes: seq<Field>)
    requires |writes| > 0 && writes[0].key !in Keys(acc)
    ensures Assemble(acc, writes)
         == Assemble(acc + (if writes[0].key == ProtoKey then [] else [writes[0]]), writes[1..])
  {
    var w := writes[0];
    PutAbsent(acc, w.key, w.value);
    assert acc + [] == acc;
  }

  /** After the first fresh write, the remaining writes are still fresh. */
  lemma FreshTail(acc: seq<Field>, writes: seq<Field>)
    requires |writes| > 0 && DistinctKeys(writes) && FreshWrites(acc, writes)
    ensures DistinctKeys(writes[1..])
    ensures FreshWrites(acc + (if writes[0].key == ProtoKey then [] else [writes[0]]), writes[1..])
  {
    var rest := writes[1..];
    var next := acc + (if writes[0].key == ProtoKey then [] else [writes[0]]);
    assert Keys(next) == if writes[0].key == ProtoKey then Keys(acc) else Keys(acc) + [writes[0].key];
    forall j | 0 <= j < |rest|
      ensures rest[j].key !in Keys(next)
    {
      assert rest[j] == writes[j + 1];
      assert writes[j + 1].key != writes[0].key;
    }
    forall a, b | 0 <= a < b < |rest|
      ensures rest[a].key != rest[b].key
    {
      assert rest[a] == writes[a + 1] && rest[b] == writes[b + 1];
    }
  }

  /** `flattenObject(obj)`: the entries of `obj` (a `TypeError` for `null` and
      `undefined`, none for numbers and booleans, one per character of a string)
      flattened into one object of path keys. */
  function Flatten(obj: JVal): (r: Result<Record>)
    ensures r.Err? <==> obj == JNull || obj == JUndefined
    ensures r.Ok? ==> DistinctKeys(r.value)
  {
    var es :- Entries(obj);
    Ok(Assemble([], FieldWrites(es, 0, "")))
  }

  /** An object whose properties are all scalars (including `null`) flattens to
      itself, except that a `__proto__` field is assigned to the prototype setter
      and vanishes: each scalar ends the recursion with exactly one write under its
      own key. */
  lemma FlattenScalarFields(fs: seq<Field>)
    requires DistinctKeys(fs)
    requires forall j :: 0 <= j < |fs| ==> !IsObject(fs[j].value)
    ensures Flatten(JObj(fs)) == Ok(WithoutProto(fs))
  {
    ScalarFieldWrites(fs, 0);
    assert fs[0..] == fs;
    assert Entries(JObj(fs)) == Ok(fs);
    AssembleFresh([], fs);
    assert [] + WithoutProto(fs) == WithoutProto(fs);
  }

  lemma {:induction false} ScalarFieldWrites(fs: seq<Field>, i: nat)
    requires i <= |fs|
    requires forall j :: 0 <= j < |fs| ==> !IsObject(fs[j].value)
    ensures FieldWrites(fs, i, "") == fs[i..]
    decreases |fs| - i
  {
    if i < |fs| {
      ScalarFieldWrites(fs, i + 1);
      assert fs[i..] == [fs[i]] + fs[i + 1..];
    }
  }

  /** A root-level array of scalars under `k` yields the entries `k[0]`, `k[1]`, …
      in index order, each holding its element. */
  lemma FlattenScalarArray(k: string, items: seq<JVal>)
    requires forall j :: 0 <= j < |items| ==> !IsObject(items[j])
    ensures Flatten(JObj([Field(k, JArr(items))])).Ok?
    ensures var r := Flatten(JObj([Field(k, JArr(items))])).value;
            |r| == |items| && forall j :: 0 <= j < |items| ==> r[j] == Field(ItemKey(k, j), items[j])
  {
    var w := ItemWrites(items, 0, k);
    ScalarItemWrites(k, items, 0);
    ScalarItemKeysDistinct(k, items);
    assert EntryWrites(k, JArr(items), "") == w by {
      assert !CollapsesCoordinates("", k);
    }
    FlattenSingle(k, JArr(items));
    AssembleFresh([], w);
    forall j | 0 <= j < |w|
      ensures w[j].key != ProtoKey
    {
      ItemKeyIsNotProto(k, j);
    }
    assert [] + w == w;
  }

  lemma ScalarItemKeysDistinct(k: string, items: seq<JVal>)
    requires forall j :: 0 <= j < |items| ==> !IsObject(items[j])
    ensures DistinctKeys(ItemWrites(items, 0, k))
  {
    var w := ItemWrites(items, 0, k);
    ScalarItemWrites(k, items, 0);
    forall a, b | 0 <= a < b < |w|
      ensures w[a].key != w[b].key
    {
      assert w[a].key == ItemKey(k, a) && w[b].key == ItemKey(k, b);
      ItemKeyInjective(k, a, b);
    }
  }

  lemma FlattenSingle(k: string, v: JVal)
    ensures Flatten(JObj([Field(k, v)])) == Ok(Assemble([], EntryWrites(k, v, "")))
  {
    var fs := [Field(k, v)];
    assert Entries(JObj(fs)) == Ok(fs);
    var w := EntryWrites(k, v, "");
    assert FieldWrites(fs, 1, "") == [];
    assert FieldWrites(fs, 0, "") == w + [];
    assert w + [] == w;
  }

  lemma {:induction false} ScalarItemWrites(k: string, items: seq<JVal>, i: nat)
    requires i <= |items|
    requires forall j :: 0 <= j < |items| ==> !IsObject(items[j])
    ensures |ItemWrites(items, i, k)| == |items| - i
    ensures forall j :: 0 <= j < |items| - i ==> ItemWrites(items, i, k)[j] == Field(ItemKey(k, i + j), items[i + j])
    decreases |items| - i
  {
    if i < |items| {
      ScalarItemWrites(k, items, i + 1);
      var rest := ItemWrites(items, i + 1, k);
      assert ItemWrites(items, i, k) == [Field(ItemKey(k, i), items[i])] + rest;
    }
  }

  /** An element key ends in `]`, so it is never `__proto__`. */
  lemma ItemKeyIsNotProto(k: string, i: nat)
    ensures ItemKey(k, i) != ProtoKey
  {
    var key := ItemKey(k, i);
    assert key[|key| - 1] == ']';
  }

  lemma ItemKeyInjective(k: string, a: nat, b: nat)
    requires a != b
    ensures ItemKey(k, a) != ItemKey(k, b)
  {
    var sa, sb := NatToString(a), NatToString(b);
    if ItemKey(k, a) == ItemKey(k, b) {
      assert ItemKey(k, a)[|k| + 1..|ItemKey(k, a)| - 1] == sa;
      assert ItemKey(k, b)[|k| + 1..|ItemKey(k, b)| - 1] == sb;
      DigitsValueOfNatToString(a);
      DigitsValueOfNatToString(b);
    }
  }

  /** Below any path ending in `geometry`, a `coordinates` array keeps only its first
      element, so two arrays that agree on their first element flatten alike; at the
      root, a property whose name ends in `geometry` is such a path. */
  lemma FlattenCollapsesCoordinates(p: string, k: string, items: seq<JVal>)
    requires EndsWith(p, "geometry") && EndsWith(k, "geometry")
    ensures EntryWrites("coordinates", JArr(items), p)
         == [Field(p + "#coordinates", if |items| > 0 then items[0] else JUndefined)]
    ensures Flatten(JObj([Field(k, JObj([Field("coordinates", JArr(items))]))]))
         == Ok([Field(k + "#coordinates", if |items| > 0 then items[0] else JUndefined)])
  {
    var first := if |items| > 0 then items[0] else JUndefined;
    var w := Field(k + "#coordinates", first);
    assert |p| > 0 && JoinKey(p, "coordinates") == p + "#coordinates";
    assert CollapsesCoordinates(p, "coordinates");
    assert JoinKey(k, "coordinates") == k + "#coordinates";
    assert JoinKey("", k) == k;
    assert EntryWrites("coordinates", JArr(items), k) == [w];
    assert FieldWrites([Field("coordinates", JArr(items))], 0, k) == [w];
    assert EntryWrites(k, JObj([Field("coordinates", JArr(items))]), "") == [w];
    FlattenSingle(k, JObj([Field("coordinates", JArr(items))]));
    AssembleFresh([], [w]);
    assert |w.key| != |ProtoKey|;
  }

  // ================================================================ unflattenObject

  /** One `#`-separated part of a key: a property name, or `name[index]`. */
  datatype Segment = Prop(name: string) | Index(name: string, index: nat)

  /** `part` is `name[digits]` as `^(\w+)\[(\d+)\]$` reads it. */
  predicate IndexedForm(part: string, name: string, digits: string) {
    IsWord(name) && |digits| > 0 && AllDigits(digits) && part == name + "[" + digits + "]"
  }

  /** End of the run of word characters that starts at `i`. */
  function WordEnd(s: string, i: nat): (k: nat)
    requires i <= |s|
    ensures i <= k <= |s|
    ensures forall m :: i <= m < k ==> IsWordChar(s[m])
    ensures k == |s| || !IsWordChar(s[k])
    decreases |s| - i
  {
    if i < |s| && IsWordChar(s[i]) then WordEnd(s, i + 1) else i
  }

  /** The captures of `^(\w+)\[(\d+)\]$` on `part`, if it matches. */
  function MatchIndexed(part: string): (r: Option<(string, string)>)
    ensures r.Some? ==> IndexedForm(part, r.value.0, r.value.1)
  {
    var n := WordEnd(part, 0);
    if n == 0 || n + 3 > |part| || part[n] != '[' || part[|part| - 1] != ']' then None
    else
      var digits := part[n + 1..|part| - 1];
      if !AllDigits(digits) then None
      else
        assert part == part[..n] + "[" + digits + "]";
        Some((part[..n], digits))
  }

  /** The grammar has exactly one reading of every `name[digits]`: the match
      succeeds on it and captures exactly `name` and `digits`. */
  lemma MatchIndexedComplete(name: string, digits: string)
    requires IsWord(name) && |digits| > 0 && AllDigits(digits)
    ensures MatchIndexed(name + "[" + digits + "]") == Some((name, digits))
  {
    var part := name + "[" + digits + "]";
    WordRun(part, name);
    assert part[|name| + 1..|part| - 1] == digits;
  }

  lemma {:induction false} WordRun(s: string, name: string)
    requires IsWord(name) && |name| < |s| && s[..|name|] == name && !IsWordChar(s[|name|])
    ensures WordEnd(s, 0) == |name|
  {
    forall m | 0 <= m < |name|
      ensures IsWordChar(s[m])
    {
      assert s[m] == name[m];
    }
  }

  /** A part without `[` is always a plain property name. */
  lemma MatchIndexedNeedsBracket(part: string)
    ensures '[' !in part ==> MatchIndexed(part) == None
  {
    var r := MatchIndexed(part);
    if r.Some? {
      assert part[|r.value.0|] == '[';
    }
  }

  function ParseSegment(part: string): Segment {
    match MatchIndexed(part)
    case Some((name, digits)) => Index(name, DigitsValue(digits))
    case None => Prop(part)
  }

  /** `key.split('#')`, each part read as a segment. */
  function Segments(key: string): (segs: seq<Segment>)
    ensures |segs| == |SplitOn(key, "#")|
    ensures forall j :: 0 <= j < |segs| ==> segs[j] == ParseSegment(SplitOn(key, "#")[j])
  {
    var parts := SplitOn(key, "#");
    seq(|parts|, j requires 0 <= j < |parts| => ParseSegment(parts[j]))
  }

  /** Walks `segs` from `cur` as the loop over the parts does: every part but the
      last fills a missing (falsy) step with `{}`, an indexed part first makes sure
      of an array under its name, and the last part receives `value`. The result is
      `cur` with those assignments made. */
  function SetPath(cur: JVal, segs: seq<Segment>, value: JVal): (r: Result<JVal>)
    requires |segs| > 0
    ensures r.Ok? && cur.JObj? ==> r.value.JObj?
    ensures r.Ok? && cur.JArr? ==> r.value.JArr?
    ensures !IsObject(cur) ==> r.Err?
    decreases |segs|, 0
  {
    match segs[0]
    case Prop(name) =>
      if |segs| == 1 then
        Assign(cur, name, value)
      else
        var old0 :- Get(cur, name);
        var child := Or(old0, JObj([]));
        var cur1 :- Assign(cur, name, child);
        var child1 :- SetPath(child, segs[1..], value);
        Assign(cur1, name, child1)
    case Index(name, idx) =>
      var old0 :- Get(cur, name);
      var arr := Or(old0, JArr([]));
      var cur1 :- Assign(cur, name, arr);
      var arr2 :- SetElement(arr, idx, segs[1..], value);
      Assign(cur1, name, arr2)
  }

  /** The part of an indexed step that works on the array `arr` itself: element
      `idx` is filled with `{}` when falsy, then receives `value` if `rest` is empty
      or is walked along `rest` otherwise. The result is `arr` updated. */
  function SetElement(arr: JVal, idx: nat, rest: seq<Segment>, value: JVal): (r: Result<JVal>)
    ensures !IsObject(arr) ==> r.Err?
    ensures r.Ok? && arr.JArr? ==> r.value.JArr?
    decreases |rest|, 1
  {
    var key := NatToString(idx);
    var old1 :- Get(arr, key);
    var elem := Or(old1, JObj([]));
    var arr1 :- Assign(arr, key, elem);
    if |rest| == 0 then
      Assign(arr1, key, value)
    else
      var elem1 :- SetPath(elem, rest, value);
      Assign(arr1, key, elem1)
  }

  /** The key test: `key.trim() === ''`. */
  predicate Blank(key: string) {
    Trim(key) == ""
  }

  lemma BlankIffAllSpace(key: string)
    ensures Blank(key) <==> AllSpace(key)
  {
  }

  const KeyError := JsError("Key must be a string", "")

  /** One `{key, value}` entry applied to the object under construction. */
  function ApplyEntry(cur: JVal, f: Field): (r: Result<JVal>)
    ensures Blank(f.key) ==> r == Err(KeyError)
    ensures r.Ok? && cur.JObj? ==> r.value.JObj?
  {
    if Blank(f.key) then Err(KeyError)
    else SetPath(cur, Segments(f.key), f.value)
  }

  /** Some entry of the record has a blank key. */
  predicate HasBlankKey(rec: Record) {
    exists j :: 0 <= j < |rec| && Blank(rec[j].key)
  }

  /** The entries of one record applied in order; the first failure aborts. */
  function ApplyRecord(cur: JVal, rec: Record): (r: Result<JVal>)
    ensures r.Ok? && cur.JObj? ==> r.value.JObj?
    ensures HasBlankKey(rec) ==> r.Err?
    decreases |rec|
  {
    if |rec| == 0 then Ok(cur)
    else
      var next :- ApplyEntry(cur, rec[0]);
      assert forall j :: 1 <= j < |rec| ==> rec[j] == rec[1..][j - 1];
      ApplyRecord(next, rec[1..])
  }

  /** `unflattenObject(data)`: one object per record, each built from `{}`. A blank
      key anywhere makes the whole call throw. */
  function Unflatten(data: Dataset): (r: Result<seq<JVal>>)
    ensures r.Ok? ==> |r.value| == |data|
    ensures r.Ok? ==> forall i :: 0 <= i < |data| ==> r.value[i].JObj?
    ensures r.Ok? ==> forall i :: 0 <= i < |data| && data[i] == [] ==> r.value[i] == JObj([])
    ensures (exists i :: 0 <= i < |data| && HasBlankKey(data[i])) ==> r.Err?
    decreases |data|
  {
    if |data| == 0 then Ok([])
    else
      var first := ApplyRecord(JObj([]), data[0]);
      if first.Err? then Err(first.error)
      else
        var rest := Unflatten(data[1..]);
        if rest.Err? then Err(rest.error)
        else
          assert data[0] == [] ==> first.value == JObj([]);
          ConsObjects(data, first.value, rest.value);
          NoBlankKeyCons(data);
          Ok([first.value] + rest.value)
  }

  /** The objects of the first record and of the others, put together, keep what
      each part says about its records. */
  lemma ConsObjects(data: Dataset, v: JVal, vs: seq<JVal>)
    requires |data| > 0 && |vs| == |data| - 1 && v.JObj? && (data[0] == [] ==> v == JObj([]))
    requires forall i :: 0 <= i < |vs| ==> vs[i].JObj?
    requires forall i :: 0 <= i < |vs| && data[1..][i] == [] ==> vs[i] == JObj([])
    ensures forall i :: 0 <= i < |data| ==> ([v] + vs)[i].JObj?
    ensures forall i :: 0 <= i < |data| && data[i] == [] ==> ([v] + vs)[i] == JObj([])
  {
    forall i | 1 <= i < |data|
      ensures data[i] == data[1..][i - 1] && ([v] + vs)[i] == vs[i - 1]
    {
    }
  }

  /** No record has a blank key when neither the first nor any later one has. */
  lemma NoBlankKeyCons(data: Dataset)
    requires |data| > 0
    ensures (exists i :: 0 <= i < |data| && HasBlankKey(data[i])) ==>
              HasBlankKey(data[0]) || exists i :: 0 <= i < |data| - 1 && HasBlankKey(data[1..][i])
  {
    if i :| 0 <= i < |data| && HasBlankKey(data[i]) {
      if i > 0 {
        assert data[1..][i - 1] == data[i];
      }
    }
  }
}

=== FILE: polygon.dfy ===
/** `src/utils/polygon.util.js`: rewriting of one polygon ring between the
    well-known-text form of OGC Simple Features Access Part 1 section 7
    (`POLYGON ((x y, x y, …))`) and a GeoJSON FeatureCollection (RFC 7946
    sections 3.1.6 and 3.3, plus the legacy `crs` member). Each regular expression
    of the source is written out as what a backtracking engine does with it. */
module Polygon {
  import opened Results
  import opened Text
  import opened JsValue
  import opened FileTypes
  import opened SeqFacts

  // ---------------------------------------------------------------- scanners

  /** First index at or after `i` that holds whitespace, or `|s|`. */
  function SkipWord(s: string, i: nat): (k: nat)
    requires i <= |s|
    ensures i <= k <= |s|
    ensures forall m :: i <= m < k ==> !IsSpace(s[m])
    ensures k == |s| || IsSpace(s[k])
    decreases |s| - i
  {
    if i < |s| && !IsSpace(s[i]) then SkipWord(s, i + 1) else i
  }

  lemma SkipWordStops(s: string, i: nat, e: nat)
    requires i <= e <= |s|
    requires forall m :: i <= m < e ==> !IsSpace(s[m])
    requires e == |s| || IsSpace(s[e])
    ensures SkipWord(s, i) == e
  {
  }

  lemma SkipSpaceStops(s: string, i: nat, e: nat)
    requires i <= e <= |s|
    requires forall m :: i <= m < e ==> IsSpace(s[m])
    requires e == |s| || !IsSpace(s[e])
    ensures SkipSpace(s, i) == e
  {
  }

  /** The polygon patterns of the source, all of the shape
      `[POLYGON\s*]\(\([\s*](.*?)[\s*]<close>`: `tagged` for the leading word,
      `caseless` for the `i` flag, `padded` for the `\s*` around the capture. */
  datatype Pattern = Pattern(tagged: bool, caseless: bool, padded: bool, close: string)

  /** `/POLYGON\s*\(\((.*?)\)\)/`, the tag of the XML cleanup. */
  const XmlTag := Pattern(true, false, false, "))")

  /** `/POLYGON\s*\(\(\s*(.*?)\s*\)\)/i`, a complete well-known-text polygon. */
  const WktTag := Pattern(true, true, true, "))")

  /** `/\(\(\s*(.*?)\s*\)/`, a bare ring; it has no letters, so the `i` flag one
      caller gives it changes nothing. */
  const BareRing := Pattern(false, false, true, ")")

  /** A match: the capture group is `s[start..end]` and the match ends at `stop`. */
  datatype Span = Span(start: nat, end: nat, stop: nat)

  /** The word `POLYGON` at index `i`; under the `i` flag only ASCII letters fold. */
  predicate TagAt(s: string, i: nat, caseless: bool) {
    i + 7 <= |s| && (if caseless then Upper(s[i..i + 7]) else s[i..i + 7]) == "POLYGON"
  }

  /** Where the `\s*` that follows the capture ends, when the pattern has one. */
  function Pad(s: string, c: nat, padded: bool): (k: nat)
    requires c <= |s|
    ensures c <= k <= |s|
  {
    if padded then SkipSpace(s, c) else c
  }

  /** The lazy capture `(.*?)` from `c`: the first end after which the rest of the
      pattern matches, never passing a line terminator, which `.` does not match. */
  function LazyEnd(s: string, c: nat, p: Pattern): (r: Option<nat>)
    requires c <= |s|
    ensures r.Some? ==> c <= r.value <= |s| && OccursAt(s, p.close, Pad(s, r.value, p.padded))
    decreases |s| - c
  {
    if OccursAt(s, p.close, Pad(s, c, p.padded)) then Some(c)
    else if c < |s| && !IsLineTerminator(s[c]) then LazyEnd(s, c + 1, p)
    else None
  }

  /** Where the `((` of `p` has to start for a match at `i`: right there, or after
      the tag and the whitespace run that follows it. */
  function Opening(s: string, p: Pattern, i: nat): (r: Option<nat>)
    requires i <= |s|
    ensures r.Some? ==> i <= r.value <= |s|
  {
    if !p.tagged then Some(i)
    else if TagAt(s, i, p.caseless) then Some(SkipSpace(s, i + 7))
    else None
  }

  /** The attempt to match `p` at index `i`. A `\s*` in front of a literal `(` keeps
      its whole whitespace run: giving any of it back cannot let `(` match, and a
      shorter leading `\s*` before the capture never succeeds where the longest
      one fails. */
  function MatchAt(s: string, p: Pattern, i: nat): (r: Option<Span>)
    requires i <= |s| && |p.close| > 0
    ensures r.Some? ==> i < r.value.start <= r.value.end < r.value.stop <= |s|
  {
    var open := Opening(s, p, i);
    if open.None? || !OccursAt(s, "((", open.value) then None
    else
      var q := Pad(s, open.value + 2, p.padded);
      match LazyEnd(s, q, p)
      case None => None
      case Some(e) => Some(Span(q, e, Pad(s, e, p.padded) + |p.close|))
  }

  /** `s.match(p)` without the `g` flag: the leftmost match at or after `i`. */
  function Search(s: string, p: Pattern, i: nat): (r: Option<Span>)
    requires i <= |s| && |p.close| > 0
    ensures r.None? <==> forall k :: i <= k <= |s| ==> MatchAt(s, p, k).None?
    ensures r.Some? ==> exists k :: i <= k <= |s| && MatchAt(s, p, k) == r
    decreases |s| - i
  {
    var m := MatchAt(s, p, i);
    if m.Some? || i == |s| then m else Search(s, p, i + 1)
  }

  /** The match `Search` reports is the leftmost one: it is found at a start
      position before which no start position matches. */
  lemma {:induction false} SearchLeftmost(s: string, p: Pattern, i: nat)
    requires i <= |s| && |p.close| > 0
    ensures Search(s, p, i).Some? ==>
              exists k :: i <= k <= |s| && MatchAt(s, p, k) == Search(s, p, i)
                          && forall j :: i <= j < k ==> MatchAt(s, p, j).None?
    decreases |s| - i
  {
    if MatchAt(s, p, i).None? && i < |s| {
      SearchLeftmost(s, p, i + 1);
      if Search(s, p, i + 1).Some? {
        var k :| i + 1 <= k <= |s| && MatchAt(s, p, k) == Search(s, p, i + 1)
                 && forall j :: i + 1 <= j < k ==> MatchAt(s, p, j).None?;
        SkipMiss(s, p, i, k);
      }
    }
  }

  /** A search that misses at `i` reports what the search from `i + 1` does, and a
      match with no earlier one after `i` has none from `i` either. */
  lemma SkipMiss(s: string, p: Pattern, i: nat, k: nat)
    requires i < k <= |s| && |p.close| > 0 && MatchAt(s, p, i).None?
    requires forall j :: i + 1 <= j < k ==> MatchAt(s, p, j).None?
    ensures Search(s, p, i) == Search(s, p, i + 1)
    ensures forall j :: i <= j < k ==> MatchAt(s, p, j).None?
  {
  }

  // ---------------------------------------------------------------- XML cleanup

  /** No two whitespace characters in a row. */
  predicate NoDoubleSpace(s: string) {
    forall m :: 0 <= m < |s| - 1 ==> !(IsSpace(s[m]) && IsSpace(s[m + 1]))
  }

  lemma ConsNoDoubleSpace(c: char, r: string)
    requires NoDoubleSpace(r)
    requires IsSpace(c) && |r| > 0 ==> !IsSpace(r[0])
    ensures NoDoubleSpace([c] + r)
  {
    var t := [c] + r;
    forall m | 0 <= m < |t| - 1
      ensures !(IsSpace(t[m]) && IsSpace(t[m + 1]))
    {
      if m > 0 {
        assert t[m] == r[m - 1] && t[m + 1] == r[m];
      }
    }
  }

  /** `s.replace(/POLYGON\s*\(\((.*?)\)\)/g, '(($1))')` from index `i` on: each
      tagged ring loses its tag and the whitespace after it. */
  function StripTags(s: string, i: nat): string
    requires i <= |s|
    decreases |s| - i
  {
    if i == |s| then ""
    else match MatchAt(s, XmlTag, i)
      case Some(m) => "((" + s[m.start..m.end] + "))" + StripTags(s, m.stop)
      case None => [s[i]] + StripTags(s, i + 1)
  }

  // `s.replace(/\s*\n\s*/g, '')` from index `i` on. At an index the pattern
  // matches exactly when the whitespace run starting there holds a line feed, and
  // then it takes the whole run, so such runs vanish and the others stay.
  function DropBreaks(s: string, i: nat): (r: string)
    requires i <= |s|
    ensures '\n' !in r
    decreases |s| - i
  {
    if i == |s| then ""
    else
      var k := SkipSpace(s, i);
      if k > i && '\n' in s[i..k] then DropBreaks(s, k)
      else
        assert IsSpace(s[i]) ==> k > i && s[i..k][0] == s[i];
        [s[i]] + DropBreaks(s, i + 1)
  }

  /** `s.replace(/\s\s+/g, ' ')` from index `i` on: a whitespace run of two or more
      becomes one space, a lone whitespace character stays as it is. */
  function CollapseSpace(s: string, i: nat): (r: string)
    requires i <= |s|
    ensures NoDoubleSpace(r)
    ensures forall c :: c in r ==> c == ' ' || c in s[i..]
    ensures i < |s| && !IsSpace(s[i]) ==> |r| > 0 && r[0] == s[i]
    decreases |s| - i
  {
    if i == |s| then ""
    else
      var k := SkipSpace(s, i);
      if k - i >= 2 then
        var rest := CollapseSpace(s, k);
        ConsNoDoubleSpace(' ', rest);
        assert forall c :: c in rest ==> c == ' ' || c in s[i..] by {
          assert forall c :: c in s[k..] ==> c in s[i..];
        }
        " " + rest
      else
        var rest := CollapseSpace(s, i + 1);
        ConsNoDoubleSpace(s[i], rest);
        assert forall c :: c in rest ==> c == ' ' || c in s[i..] by {
          assert forall c :: c in s[i + 1..] ==> c in s[i..];
        }
        [s[i]] + rest
  }

  lemma SliceNoDoubleSpace(s: string, a: nat, b: nat)
    requires a <= b <= |s| && NoDoubleSpace(s)
    ensures NoDoubleSpace(s[a..b])
  {
    var t := s[a..b];
    forall m | 0 <= m < |t| - 1
      ensures !(IsSpace(t[m]) && IsSpace(t[m + 1]))
    {
      assert t[m] == s[a + m] && t[m + 1] == s[a + m + 1];
    }
  }

  /** Dropping the whitespace runs that hold a line feed keeps every visible
      character, in order. */
  lemma {:induction false} InkDropBreaks(s: string, i: nat)
    requires i <= |s|
    ensures Ink(DropBreaks(s, i)) == Ink(s[i..])
    decreases |s| - i
  {
    if i == |s| {
      WholeSlices(s);
    } else {
      var k := SkipSpace(s, i);
      if k > i && '\n' in s[i..k] {
        InkDropBreaks(s, k);
        InkSkip(s, i, k);
      } else {
        InkDropBreaks(s, i + 1);
        InkCons(s[i], DropBreaks(s, i + 1));
        InkAt(s, i);
      }
    }
  }

  /** Collapsing whitespace runs keeps every visible character, in order. */
  lemma {:induction false} InkCollapse(s: string, i: nat)
    requires i <= |s|
    ensures Ink(CollapseSpace(s, i)) == Ink(s[i..])
    decreases |s| - i
  {
    if i == |s| {
      WholeSlices(s);
    } else {
      var k := SkipSpace(s, i);
      if k - i >= 2 {
        InkCollapse(s, k);
        InkCons(' ', CollapseSpace(s, k));
        InkSkip(s, i, k);
      } else {
        InkCollapse(s, i + 1);
        InkCons(s[i], CollapseSpace(s, i + 1));
        InkAt(s, i);
      }
    }
  }

  /** The last three steps of the XML cleanup: line breaks with the whitespace
      around them dropped, whitespace runs collapsed, the ends trimmed. The result
      has no line feed, no two whitespace characters in a row and nothing to trim. */
  function Tidy(s: string): (r: string)
    ensures '\n' !in r && NoDoubleSpace(r) && Trim(r) == r
  {
    var a := DropBreaks(s, 0);
    var b := CollapseSpace(a, 0);
    assert a[0..] == a;
    TrimKeepsTidy(b);
    Trim(b)
  }

  /** Trimming a text without line feeds or doubled whitespace keeps both
      properties and leaves nothing more to trim. */
  lemma TrimKeepsTidy(b: string)
    requires '\n' !in b && NoDoubleSpace(b)
    ensures '\n' !in Trim(b) && NoDoubleSpace(Trim(b)) && Trim(Trim(b)) == Trim(b)
  {
    var t := Trim(b);
    var i := SkipSpace(b, 0);
    SliceNoDoubleSpace(b, i, i + |t|);
    assert '\n' !in t by {
      assert forall c :: c in b[i..i + |t|] ==> c in b;
    }
    TrimOfTrimmed(t);
  }

  /** `polygonFromXMLTOCSV(key, value)`: a `poligono` string holding `POLYGON` loses
      the tag and is tidied; every other value comes back unchanged. A `poligono`
      value that is not a string fails as the engine fails on it: `includes` is
      missing on numbers, booleans, objects, `null` and `undefined`, and an array
      holding the string `POLYGON` passes `includes` but has no `replace`. */
  function XmlToCsv(key: string, value: JVal): (r: Result<JVal>)
    ensures key != "poligono" ==> r == Ok(value)
    ensures value.JStr? && !Contains(value.s, "POLYGON") ==> r == Ok(value)
    ensures key == "poligono" && value.JStr? && Contains(value.s, "POLYGON") ==>
              r.Ok? && r.value.JStr? && '\n' !in r.value.s && NoDoubleSpace(r.value.s) && Trim(r.value.s) == r.value.s
    ensures key == "poligono" && value.JStr? && Contains(value.s, "POLYGON") ==>
              r == Ok(JStr(Tidy(StripTags(value.s, 0))))
    ensures r.Err? <==> key == "poligono" && !value.JStr? && (value.JArr? ==> JStr("POLYGON") in value.items)
  {
    if key != "poligono" then Ok(value)
    else match value
      case JStr(s) => if Contains(s, "POLYGON") then Ok(JStr(Tidy(StripTags(s, 0)))) else Ok(value)
      case JArr(items) =>
        if JStr("POLYGON") in items then Err(TypeError("value.replace is not a function")) else Ok(value)
      case JNull => Err(TypeError("cannot read 'includes' of null"))
      case JUndefined => Err(TypeError("cannot read 'includes' of undefined"))
      case _ => Err(TypeError("value.includes is not a function"))
  }

  /** Tidying only drops or replaces whitespace: the visible characters come out
      as they went in, in order. */
  lemma TidyKeepsInk(s: string)
    ensures Ink(Tidy(s)) == Ink(s)
  {
    var a := DropBreaks(s, 0);
    var b := CollapseSpace(a, 0);
    InkDropBreaks(s, 0);
    InkCollapse(a, 0);
    InkTrim(b);
    WholeSlices(s);
    WholeSlices(a);
  }

  /** Tidying is idempotent: a tidied string is its own tidy form. */
  lemma TidyIdempotent(s: string)
    ensures Tidy(Tidy(s)) == Tidy(s)
  {
    TidyFixed(Tidy(s));
  }

  /** A string with no line feed, no two whitespace characters in a row and
      nothing to trim is already tidy. */
  lemma TidyFixed(t: string)
    requires '\n' !in t && NoDoubleSpace(t) && Trim(t) == t
    ensures Tidy(t) == t
  {
    DropBreaksWithoutBreak(t, 0);
    assert t[0..] == t;
    CollapseWithoutDoubles(t, 0);
  }

  /** A tidy tagged ring `POLYGON <spaces>((body))` under the key `poligono` comes
      out as `((body))`. */
  lemma XmlToCsvOfRing(w: string, body: string)
    requires AllSpace(w) && NoDoubleSpace(body)
    requires forall k :: 0 <= k < |body| ==> body[k] != ')' && !IsLineTerminator(body[k])
    ensures XmlToCsv("poligono", JStr("POLYGON" + w + "((" + body + "))")) == Ok(JStr("((" + body + "))"))
  {
    var s := "POLYGON" + w + "((" + body + "))";
    var t := "((" + body + "))";
    TaggedContains(w, body);
    StripTagsOfRing(w, body);
    RingTidy(body);
    TidyFixed(t);
  }

  lemma TaggedContains(w: string, body: string)
    ensures Contains("POLYGON" + w + "((" + body + "))", "POLYGON")
  {
    var s := "POLYGON" + w + "((" + body + "))";
    assert s[0..7] == "POLYGON";
    assert OccursAt(s, "POLYGON", 0);
  }

  lemma RingTidy(body: string)
    requires NoDoubleSpace(body)
    requires forall k :: 0 <= k < |body| ==> body[k] != ')' && !IsLineTerminator(body[k])
    ensures var t := "((" + body + "))"; '\n' !in t && NoDoubleSpace(t) && Trim(t) == t
  {
    var t := "((" + body + "))";
    forall m | 0 <= m < |t| - 1
      ensures !(IsSpace(t[m]) && IsSpace(t[m + 1]))
    {
      if 2 <= m && m + 1 < |t| - 2 {
        assert t[m] == body[m - 2] && t[m + 1] == body[m - 1];
      }
    }
    forall k | 0 <= k < |t|
      ensures t[k] != '\n'
    {
      if 2 <= k < |t| - 2 {
        assert t[k] == body[k - 2];
      }
    }
    TrimOfTrimmed(t);
  }

  lemma {:induction false} DropBreaksWithoutBreak(s: string, i: nat)
    requires i <= |s| && '\n' !in s
    ensures DropBreaks(s, i) == s[i..]
    decreases |s| - i
  {
    if i < |s| {
      var k := SkipSpace(s, i);
      assert '\n' !in s[i..k] by {
        assert forall c :: c in s[i..k] ==> c in s;
      }
      DropBreaksWithoutBreak(s, i + 1);
      assert s[i..] == [s[i]] + s[i + 1..];
    }
  }

  lemma {:induction false} CollapseWithoutDoubles(s: string, i: nat)
    requires i <= |s| && NoDoubleSpace(s)
    ensures CollapseSpace(s, i) == s[i..]
    decreases |s| - i
  {
    if i < |s| {
      var k := SkipSpace(s, i);
      assert i + 1 < |s| ==> !(IsSpace(s[i]) && IsSpace(s[i + 1]));
      assert k - i < 2;
      CollapseWithoutDoubles(s, i + 1);
      assert s[i..] == [s[i]] + s[i + 1..];
    }
  }

  /** A string without `POLYGON` passes the tag rewrite unchanged. */
  lemma {:induction false} StripTagsWithoutTag(s: string, i: nat)
    requires i <= |s|
    requires forall k :: i <= k ==> !OccursAt(s, "POLYGON", k)
    ensures StripTags(s, i) == s[i..]
    decreases |s| - i
  {
    if i < |s| {
      NoMatchWithoutTag(s, i);
      StripTagsWithoutTag(s, i + 1);
      DropCons(s, i);
    }
  }

  /** Where the tag does not occur, the tagged pattern does not match. */
  lemma NoMatchWithoutTag(s: string, i: nat)
    requires i < |s| && !OccursAt(s, "POLYGON", i)
    ensures MatchAt(s, XmlTag, i) == None
  {
    assert |"POLYGON"| == 7;
    assert !TagAt(s, i, false);
  }

  /** A tagged ring `POLYGON <spaces>((body))` becomes `((body))` when the body holds
      neither a closing parenthesis nor a line terminator. */
  lemma StripTagsOfRing(w: string, body: string)
    requires AllSpace(w)
    requires forall k :: 0 <= k < |body| ==> body[k] != ')' && !IsLineTerminator(body[k])
    ensures StripTags("POLYGON" + w + "((" + body + "))", 0) == "((" + body + "))"
  {
    var s := "POLYGON" + w + "((" + body + "))";
    var o := 7 + |w|;
    var e := o + 2 + |body|;
    MatchTaggedRing(w, body);
    assert s[o + 2..e] == body;
    assert StripTags(s, |s|) == "";
  }

  lemma MatchTaggedRing(w: string, body: string)
    requires AllSpace(w)
    requires forall k :: 0 <= k < |body| ==> body[k] != ')' && !IsLineTerminator(body[k])
    ensures var o := 7 + |w| + 2; var e := o + |body|;
            MatchAt("POLYGON" + w + "((" + body + "))", XmlTag, 0) == Some(Span(o, e, e + 2))
  {
    var s := "POLYGON" + w + "((" + body + "))";
    var o := 7 + |w|;
    var e := o + 2 + |body|;
    assert s[..7] == "POLYGON";
    assert s[7..o] == w;
    assert s[o..o + 2] == "((";
    assert s[o + 2..e] == body;
    assert s[e..] == "))";
    MatchTaggedAt(s, w, body);
  }

  /** The same match, read off the layout of the text. */
  lemma MatchTaggedAt(s: string, w: string, body: string)
    requires AllSpace(w)
    requires forall k :: 0 <= k < |body| ==> body[k] != ')' && !IsLineTerminator(body[k])
    requires |s| == 7 + |w| + 2 + |body| + 2
    requires s[..7] == "POLYGON" && s[7..7 + |w|] == w
    requires var o := 7 + |w|; s[o..o + 2] == "((" && s[o + 2..o + 2 + |body|] == body
    requires s[7 + |w| + 2 + |body|..] == "))"
    ensures var o := 7 + |w| + 2; var e := o + |body|;
            MatchAt(s, XmlTag, 0) == Some(Span(o, e, e + 2))
  {
    var o := 7 + |w|;
    var e := o + 2 + |body|;
    TaggedOpening(s, w);
    assert OccursAt(s, "))", e);
    assert forall k :: o + 2 <= k < e ==> s[k] == body[k - o - 2];
    LazyEndFound(s, o + 2, e, XmlTag);
    MatchAtOf(s, XmlTag, 0, o, o + 2, e);
  }

  lemma TaggedOpening(s: string, w: string)
    requires AllSpace(w) && 7 + |w| + 2 <= |s|
    requires s[..7] == "POLYGON" && s[7..7 + |w|] == w && s[7 + |w|..7 + |w| + 2] == "(("
    ensures Opening(s, XmlTag, 0) == Some(7 + |w|) && OccursAt(s, "((", 7 + |w|)
  {
    var o := 7 + |w|;
    assert TagAt(s, 0, false);
    assert forall m :: 7 <= m < o ==> s[m] == w[m - 7];
    assert s[o] == '(';
    SkipSpaceStops(s, 7, o);
  }

  /** The match at `i` of a pattern whose parts are found at the given places. */
  lemma MatchAtOf(s: string, p: Pattern, i: nat, o: nat, q: nat, e: nat)
    requires i <= |s| && |p.close| > 0
    requires Opening(s, p, i) == Some(o)
    requires OccursAt(s, "((", o)
    requires Pad(s, o + 2, p.padded) == q
    requires LazyEnd(s, q, p) == Some(e)
    ensures MatchAt(s, p, i) == Some(Span(q, e, Pad(s, e, p.padded) + |p.close|))
  {
  }

  /** The lazy capture never passes a line terminator and stops at the first
      index after which the rest of the pattern matches. */
  lemma {:induction false} LazyEndFirst(s: string, c: nat, p: Pattern)
    requires c <= |s|
    ensures var r := LazyEnd(s, c, p);
            r.Some? ==> forall k :: c <= k < r.value ==>
                          !IsLineTerminator(s[k]) && !OccursAt(s, p.close, Pad(s, k, p.padded))
    decreases |s| - c
  {
    if !OccursAt(s, p.close, Pad(s, c, p.padded)) && c < |s| && !IsLineTerminator(s[c]) {
      var r := LazyEnd(s, c + 1, p);
      LazyEndSkip(s, c, p);
      LazyEndFirst(s, c + 1, p);
      if r.Some? {
        forall k | c <= k < r.value
          ensures !IsLineTerminator(s[k]) && !OccursAt(s, p.close, Pad(s, k, p.padded))
        {
          if k == c {
          } else {
            assert c + 1 <= k < r.value;
          }
        }
      }
    }
  }

  /** The lazy capture stops at the first index where the closing text follows,
      when no earlier character is a line terminator or starts the closing text. */
  lemma LazyEndFound(s: string, c: nat, e: nat, p: Pattern)
    requires c <= e <= |s| && |p.close| > 0 && !IsSpace(p.close[0])
    requires OccursAt(s, p.close, e)
    requires forall k :: c <= k < e ==> !IsLineTerminator(s[k]) && s[k] != p.close[0]
    requires p.padded && c < e ==> !IsSpace(s[e - 1])
    ensures LazyEnd(s, c, p) == Some(e)
  {
    PadAtClose(s, e, p);
    LazyEndHere(s, e, p);
    LazyEndRun(s, c, e, p);
  }

  /** From `c` up to `e` the capture only grows. */
  lemma {:induction false} LazyEndRun(s: string, c: nat, e: nat, p: Pattern)
    requires c <= e <= |s| && |p.close| > 0
    requires forall k :: c <= k < e ==> !IsLineTerminator(s[k]) && s[k] != p.close[0]
    requires p.padded && c < e ==> !IsSpace(s[e - 1])
    ensures LazyEnd(s, c, p) == LazyEnd(s, e, p)
    decreases e - c
  {
    if c < e {
      LazyEndBeforeClose(s, c, e, p);
      LazyEndRun(s, c + 1, e, p);
    }
  }

  /** Before the closing text the capture extends by one character. */
  lemma LazyEndBeforeClose(s: string, c: nat, e: nat, p: Pattern)
    requires c < e <= |s| && |p.close| > 0
    requires !IsLineTerminator(s[c]) && s[c] != p.close[0]
    requires forall k :: c <= k < e ==> s[k] != p.close[0]
    requires p.padded ==> !IsSpace(s[e - 1])
    ensures LazyEnd(s, c, p) == LazyEnd(s, c + 1, p)
  {
    PadBefore(s, c, e, p.padded);
    var k := Pad(s, c, p.padded);
    assert s[k] != p.close[0];
    NotOccursAtFirst(s, p.close, k);
    LazyEndSkip(s, c, p);
  }

  lemma NotOccursAtFirst(s: string, t: string, k: nat)
    requires |t| > 0 && k < |s| && s[k] != t[0]
    ensures !OccursAt(s, t, k)
  {
  }

  lemma LazyEndHere(s: string, c: nat, p: Pattern)
    requires c <= |s| && OccursAt(s, p.close, Pad(s, c, p.padded))
    ensures LazyEnd(s, c, p) == Some(c)
  {
  }

  lemma LazyEndSkip(s: string, c: nat, p: Pattern)
    requires c < |s| && !IsLineTerminator(s[c]) && !OccursAt(s, p.close, Pad(s, c, p.padded))
    ensures LazyEnd(s, c, p) == LazyEnd(s, c + 1, p)
  {
  }

  lemma PadAtClose(s: string, e: nat, p: Pattern)
    requires e <= |s| && |p.close| > 0 && !IsSpace(p.close[0]) && OccursAt(s, p.close, e)
    ensures Pad(s, e, p.padded) == e
  {
    assert s[e] == p.close[0];
    if p.padded {
      SkipSpaceStops(s, e, e);
    }
  }

  lemma PadBefore(s: string, c: nat, e: nat, padded: bool)
    requires c < e <= |s| && (padded ==> !IsSpace(s[e - 1]))
    ensures Pad(s, c, padded) < e
  {
    if padded {
      var k := SkipSpace(s, c);
      assert forall m :: c <= m < k ==> IsSpace(s[m]);
      assert !IsSpace(s[e - 1]);
    }
  }

  // ---------------------------------------------------------------- GeoJSON

  /** `t.split(/\s+/)`: the pieces between whitespace runs. */
  function Words(t: string): (ws: seq<string>)
    ensures |ws| >= 1
    ensures forall j :: 0 <= j < |ws| ==> forall c :: c in ws[j] ==> !IsSpace(c)
    decreases |t|
  {
    var i := SkipWord(t, 0);
    if i == |t| then [t]
    else
      assert forall c :: c in t[..i] ==> !IsSpace(c);
      [t[..i]] + Words(t[SkipSpace(t, i)..])
  }

  /** `capture.split(',').map(pair => pair.trim().split(/\s+/))`; the coordinates stay
      the token strings that `parseFloat` would read. */
  function Ring(capture: string): seq<seq<string>> {
    var pieces := Split(capture, ",");
    seq(|pieces|, j requires 0 <= j < |pieces| => Words(Trim(pieces[j])))
  }

  function Strs(ws: seq<string>): (vs: seq<JVal>)
    ensures |vs| == |ws| && forall k :: 0 <= k < |ws| ==> vs[k] == JStr(ws[k])
  {
    seq(|ws|, k requires 0 <= k < |ws| => JStr(ws[k]))
  }

  /** A ring as a JSON array of coordinate pairs. */
  function RingValue(ring: seq<seq<string>>): (v: JVal)
    ensures v.JArr? && |v.items| == |ring|
    ensures forall j :: 0 <= j < |ring| ==> v.items[j] == JArr(Strs(ring[j]))
  {
    JArr(seq(|ring|, j requires 0 <= j < |ring| => JArr(Strs(ring[j]))))
  }

  /** The document `polygonFromWKTtoGeoJSON` builds around a ring. */
  function FeatureCollection(ring: seq<seq<string>>): JVal {
    JObj([
      Field("type", JStr("FeatureCollection")),
      Field("crs", JObj([
        Field("type", JStr("name")),
        Field("properties", JObj([Field("name", JStr("EPSG:4326"))]))])),
      Field("features", JArr([
        JObj([
          Field("type", JStr("Feature")),
          Field("geometry", JObj([
            Field("type", JStr("Polygon")),
            Field("coordinates", JArr([RingValue(ring)]))])),
          Field("properties", JObj([Field("Land Use", JStr("I"))]))])]))])
  }

  ghost predicate IsFeatureCollection(v: JVal) {
    exists ring :: v == FeatureCollection(ring)
  }

  /** Some ring is found in `s`, by the full or else the bare pattern. */
  predicate HasRing(s: string) {
    Search(s, WktTag, 0).Some? || Search(s, BareRing, 0).Some?
  }

  /** `polygonFromWKTtoGeoJSON(wkt)`: a string holding a ring becomes a one-feature
      collection of it; anything else comes back unchanged. */
  function WktToGeoJson(wkt: JVal): (r: JVal)
    ensures !wkt.JStr? ==> r == wkt
    ensures wkt.JStr? && !HasRing(wkt.s) ==> r == wkt
    ensures wkt.JStr? && HasRing(wkt.s) ==> IsFeatureCollection(r)
  {
    match wkt
    case JStr(s) =>
      var m := if Search(s, WktTag, 0).Some? then Search(s, WktTag, 0) else Search(s, BareRing, 0);
      if m.None? then wkt
      else FeatureCollection(Ring(s[m.value.start..m.value.end]))
    case _ => wkt
  }

  /** `valueCoordinates.map(coord => coord.join(' '))`. */
  function PairStrings(items: seq<JVal>): (ps: seq<string>)
    requires forall j :: 0 <= j < |items| ==> items[j].JArr?
    ensures |ps| == |items| && forall j :: 0 <= j < |items| ==> ps[j] == ArrayJoin(items[j].items, " ")
  {
    seq(|items|, j requires 0 <= j < |items| => ArrayJoin(items[j].items, " "))
  }

  /** `polygonFromGeoJSONToWKT(value, currentFileType)`. The source's object test
      compares the value with the string `'object'`, so it never selects the
      `features` path and the value itself is read as the list of pairs: every
      element must be an array (`join`), and the value itself too (`map`). */
  function GeoJsonToWkt(value: JVal, fileType: string): (r: Result<string>)
    ensures r.Ok? <==> value.JArr? && forall j :: 0 <= j < |value.items| ==> value.items[j].JArr?
    ensures r.Ok? ==> (StartsWith(r.value, "POLYGON ((") <==> Lower(fileType) == Xml)
    ensures r.Ok? ==> EndsWith(r.value, "))")
  {
    match value
    case JArr(items) =>
      if forall j :: 0 <= j < |items| ==> items[j].JArr? then
        var pairs := PairStrings(items);
        var prefix := if Lower(fileType) == Xml then "POLYGON " else "";
        var out := prefix + "((" + Join(pairs, ",") + "))";
        assert out[|out| - 2..] == "))";
        assert Lower(fileType) != Xml ==> out[0] == '(';
        Ok(out)
      else Err(TypeError("coord.join is not a function"))
    case JNull => Err(TypeError("cannot read 'map' of null"))
    case JUndefined => Err(TypeError("cannot read 'map' of undefined"))
    case _ => Err(TypeError("valueCoordinates.map is not a function"))
  }

  // ---------------------------------------------------------------- text forms of a ring

  /** A coordinate token: non-empty, without whitespace, commas or parentheses. */
  predicate Coordinate(tok: string) {
    |tok| > 0 && forall c :: c in tok ==> !IsSpace(c) && c != ',' && c != '(' && c != ')'
  }

  /** A ring that its text forms carry faithfully: at least one pair, and every pair
      at least one coordinate. */
  predicate SimpleRing(ring: seq<seq<string>>) {
    && |ring| > 0
    && forall j :: 0 <= j < |ring| ==>
         |ring[j]| > 0 && forall k :: 0 <= k < |ring[j]| ==> Coordinate(ring[j][k])
  }

  /** Each pair with its coordinates separated by one space. */
  function PairTexts(ring: seq<seq<string>>): (ps: seq<string>)
    ensures |ps| == |ring| && forall j :: 0 <= j < |ring| ==> ps[j] == Join(ring[j], " ")
  {
    seq(|ring|, j requires 0 <= j < |ring| => Join(ring[j], " "))
  }

  /** The text `polygonFromGeoJSONToWKT` writes for a ring, with the prefix it adds
      for an XML target. */
  function WktText(ring: seq<seq<string>>): string {
    "POLYGON ((" + Join(PairTexts(ring), ",") + "))"
  }

  /** A join keeps a character property its parts and separator have. */
  lemma {:induction false} JoinKeeps(parts: seq<string>, sep: string, ok: char -> bool)
    requires forall j :: 0 <= j < |parts| ==> forall c :: c in parts[j] ==> ok(c)
    requires forall c :: c in sep ==> ok(c)
    ensures forall c :: c in Join(parts, sep) ==> ok(c)
    decreases |parts|
  {
    if |parts| > 1 {
      JoinKeeps(parts[1..], sep, ok);
      assert Join(parts, sep) == parts[0] + sep + Join(parts[1..], sep);
    }
  }

  /** Splitting a space-joined list of tokens at whitespace gives the tokens. */
  lemma {:induction false} WordsOfJoin(toks: seq<string>)
    requires |toks| > 0
    requires forall j :: 0 <= j < |toks| ==> |toks[j]| > 0 && forall c :: c in toks[j] ==> !IsSpace(c)
    ensures Words(Join(toks, " ")) == toks
    decreases |toks|
  {
    var t := Join(toks, " ");
    var x := toks[0];
    forall m | 0 <= m < |x|
      ensures !IsSpace(x[m])
    {
      assert x[m] in x;
    }
    if |toks| == 1 {
      SkipWordStops(t, 0, |t|);
    } else {
      var rest := Join(toks[1..], " ");
      assert t == x + " " + rest;
      assert forall m :: 0 <= m < |x| ==> t[m] == x[m];
      SkipWordStops(t, 0, |x|);
      JoinFirstChar(toks[1..], " ");
      SkipSpaceStops(t, |x|, |x| + 1);
      assert t[..|x|] == x;
      assert t[|x| + 1..] == rest;
      WordsOfJoin(toks[1..]);
      assert toks == [x] + toks[1..];
    }
  }

  /** One pair's text: no line terminator, parenthesis or comma inside, and nothing
      to trim at either end. */
  lemma PairTextShape(pair: seq<string>)
    requires |pair| > 0 && forall k :: 0 <= k < |pair| ==> Coordinate(pair[k])
    ensures var t := Join(pair, " ");
            && |t| > 0 && !IsSpace(t[0]) && !IsSpace(t[|t| - 1])
            && forall c :: c in t ==> c != ',' && c != ')' && !IsLineTerminator(c)
  {
    var t := Join(pair, " ");
    var ok := (c: char) => c != ',' && c != ')' && !IsLineTerminator(c);
    forall j | 0 <= j < |pair|
      ensures forall c :: c in pair[j] ==> ok(c)
    {
      assert Coordinate(pair[j]);
    }
    JoinKeeps(pair, " ", ok);
    var first := pair[0];
    var last := pair[|pair| - 1];
    assert Coordinate(first) && Coordinate(last);
    assert first[0] in first && last[|last| - 1] in last;
    JoinFirstChar(pair, " ");
    JoinLastChar(pair, " ");
  }

  /** The text between the parentheses: no line terminator or closing parenthesis
      inside, and no whitespace at either end. */
  predicate RingBody(b: string) {
    && |b| > 0 && !IsSpace(b[0]) && !IsSpace(b[|b| - 1])
    && forall k :: 0 <= k < |b| ==> b[k] != ')' && !IsLineTerminator(b[k])
  }

  lemma BodyShape(ring: seq<seq<string>>, sep: string)
    requires SimpleRing(ring)
    requires forall c :: c in sep ==> c != ')' && !IsLineTerminator(c)
    ensures RingBody(Join(PairTexts(ring), sep))
  {
    var ps := PairTexts(ring);
    var ok := (c: char) => c != ')' && !IsLineTerminator(c);
    forall j | 0 <= j < |ps|
      ensures forall c :: c in ps[j] ==> ok(c)
    {
      PairTextShape(ring[j]);
    }
    JoinKeeps(ps, sep, ok);
    var b := Join(ps, sep);
    PairTextShape(ring[0]);
    PairTextShape(ring[|ring| - 1]);
    JoinFirstChar(ps, sep);
    JoinLastChar(ps, sep);
    forall k | 0 <= k < |b|
      ensures b[k] != ')' && !IsLineTerminator(b[k])
    {
      assert b[k] in b;
    }
  }

  /** Reading the ring back from its text gives the ring. */
  lemma RingOfText(ring: seq<seq<string>>)
    requires SimpleRing(ring)
    ensures Ring(Join(PairTexts(ring), ",")) == ring
  {
    var ps := PairTexts(ring);
    forall j | 0 <= j < |ps|
      ensures ',' !in ps[j]
    {
      PairTextShape(ring[j]);
    }
    SplitJoin(ps, ',');
    var r := Ring(Join(ps, ","));
    forall j | 0 <= j < |ring|
      ensures r[j] == ring[j]
    {
      PairBack(ring[j]);
    }
  }

  /** Reading one pair back from its text gives the pair. */
  lemma PairBack(pair: seq<string>)
    requires |pair| > 0 && forall k :: 0 <= k < |pair| ==> Coordinate(pair[k])
    ensures Words(Trim(Join(pair, " "))) == pair
  {
    PairTextShape(pair);
    TrimOfTrimmed(Join(pair, " "));
    forall k | 0 <= k < |pair|
      ensures |pair[k]| > 0 && forall c :: c in pair[k] ==> !IsSpace(c)
    {
      assert Coordinate(pair[k]);
    }
    WordsOfJoin(pair);
  }

  lemma UpperOfUpper(s: string)
    requires forall k :: 0 <= k < |s| ==> !('a' <= s[k] <= 'z')
    ensures Upper(s) == s
  {
  }

  lemma LowerOfLower(s: string)
    requires forall k :: 0 <= k < |s| ==> !('A' <= s[k] <= 'Z')
    ensures Lower(s) == s
  {
  }

  /** The complete pattern matches a well-known-text polygon around a ring body
      from its first character, capturing exactly the body. */
  lemma MatchWktBody(body: string)
    requires RingBody(body)
    ensures var s := "POLYGON ((" + body + "))"; var e := 10 + |body|;
            MatchAt(s, WktTag, 0) == Some(Span(10, e, e + 2)) && s[10..e] == body
  {
    var s := "POLYGON ((" + body + "))";
    var e := 10 + |body|;
    assert s[..7] == "POLYGON";
    assert s[7..10] == " ((";
    assert s[10..e] == body;
    assert s[e..] == "))";
    MatchWktAt(s, body);
  }

  lemma MatchWktAt(s: string, body: string)
    requires RingBody(body) && |s| == |body| + 12
    requires s[..7] == "POLYGON" && s[7..10] == " ((" && s[10..10 + |body|] == body
    requires s[10 + |body|..] == "))"
    ensures MatchAt(s, WktTag, 0) == Some(Span(10, 10 + |body|, |s|))
  {
    WktOpening(s);
    assert OccursAt(s, "))", 10 + |body|);
    PaddedCapture(s, 10, body, WktTag);
    MatchAtOf(s, WktTag, 0, 8, 10, 10 + |body|);
  }

  lemma WktOpening(s: string)
    requires |s| >= 10 && s[..7] == "POLYGON" && s[7..10] == " (("
    ensures Opening(s, WktTag, 0) == Some(8) && OccursAt(s, "((", 8)
  {
    UpperOfUpper(s[..7]);
    assert TagAt(s, 0, true);
    assert s[7] == ' ' && s[8] == '(';
    SkipSpaceStops(s, 7, 8);
    assert s[8..10] == "((";
  }

  /** A padded capture around a ring body that the closing text follows directly:
      no whitespace to skip on either side, and the capture is the body. */
  lemma PaddedCapture(s: string, c: nat, body: string, p: Pattern)
    requires p.padded && RingBody(body) && |p.close| > 0 && p.close[0] == ')'
    requires c + |body| <= |s| && s[c..c + |body|] == body && OccursAt(s, p.close, c + |body|)
    ensures Pad(s, c, true) == c && Pad(s, c + |body|, true) == c + |body|
    ensures LazyEnd(s, c, p) == Some(c + |body|)
  {
    var e := c + |body|;
    assert forall k :: c <= k < e ==> s[k] == body[k - c];
    assert s[c] == body[0];
    SkipSpaceStops(s, c, c);
    assert s[e] == ')';
    SkipSpaceStops(s, e, e);
    LazyEndFound(s, c, e, p);
  }

  /** The bare-ring pattern matches `((body))` from its first character, capturing
      exactly the body. */
  lemma MatchBareBody(body: string)
    requires RingBody(body)
    ensures var s := "((" + body + "))"; var e := 2 + |body|;
            MatchAt(s, BareRing, 0) == Some(Span(2, e, e + 1)) && s[2..e] == body
  {
    var s := "((" + body + "))";
    var e := 2 + |body|;
    assert s[..2] == "((";
    assert s[2..e] == body;
    assert s[e..] == "))";
    MatchBareAt(s, body);
  }

  lemma MatchBareAt(s: string, body: string)
    requires RingBody(body) && |s| == |body| + 4
    requires s[..2] == "((" && s[2..2 + |body|] == body && s[2 + |body|..] == "))"
    ensures MatchAt(s, BareRing, 0) == Some(Span(2, 2 + |body|, 3 + |body|))
  {
    assert OccursAt(s, "((", 0);
    assert OccursAt(s, ")", 2 + |body|);
    PaddedCapture(s, 2, body, BareRing);
    MatchAtOf(s, BareRing, 0, 0, 2, 2 + |body|);
  }


  /** The full pattern finds the whole ring in the text written for it. */
  lemma MatchWktText(ring: seq<seq<string>>)
    requires SimpleRing(ring)
    ensures var s := WktText(ring); var e := |s| - 2;
            Search(s, WktTag, 0) == Some(Span(10, e, |s|)) && s[10..e] == Join(PairTexts(ring), ",")
  {
    var body := Join(PairTexts(ring), ",");
    BodyShape(ring, ",");
    MatchWktBody(body);
  }

  /** Reading the text written for a ring gives the collection of that ring. */
  lemma WktToGeoJsonOfText(ring: seq<seq<string>>)
    requires SimpleRing(ring)
    ensures WktToGeoJson(JStr(WktText(ring))) == FeatureCollection(ring)
  {
    MatchWktText(ring);
    RingOfText(ring);
  }

  /** With an XML target, `polygonFromGeoJSONToWKT` writes the ring's text. */
  lemma GeoJsonToWktOfRing(ring: seq<seq<string>>)
    ensures GeoJsonToWkt(RingValue(ring), Xml) == Ok(WktText(ring))
  {
    var items := RingValue(ring).items;
    forall j | 0 <= j < |ring|
      ensures ArrayJoin(items[j].items, " ") == Join(ring[j], " ")
    {
      var es := ElementStrings(Strs(ring[j]), 0);
      forall k | 0 <= k < |es|
        ensures es[k] == ring[j][k]
      {
        assert es[k] == ElementString(Strs(ring[j])[0 + k]);
        assert Strs(ring[j])[k] == JStr(ring[j][k]);
        assert ToJsString(JStr(ring[j][k])) == ring[j][k];
      }
      assert es == ring[j];
    }
    LowerOfLower(Xml);
    assert forall j :: 0 <= j < |items| ==> items[j].JArr?;
    assert PairStrings(items) == PairTexts(ring);
    var x := Join(PairTexts(ring), ",");
    assert "POLYGON " + "((" + x + "))" == WktText(ring);
  }

  /** A ring of numeric coordinates as a JSON array of pairs. */
  function NumberRing(ring: seq<seq<int>>): (v: JVal)
    ensures v.JArr? && |v.items| == |ring|
    ensures forall j :: 0 <= j < |ring| ==> v.items[j] == JArr(Nums(ring[j]))
  {
    JArr(seq(|ring|, j requires 0 <= j < |ring| => JArr(Nums(ring[j]))))
  }

  function Nums(ns: seq<int>): (vs: seq<JVal>)
    ensures |vs| == |ns| && forall k :: 0 <= k < |ns| ==> vs[k] == JNum(ns[k])
  {
    seq(|ns|, k requires 0 <= k < |ns| => JNum(ns[k]))
  }

  /** Every coordinate of a numeric pair in its decimal form. */
  function DecimalRow(ns: seq<int>): (d: seq<string>)
    ensures |d| == |ns| && forall k :: 0 <= k < |ns| ==> d[k] == IntToString(ns[k])
  {
    seq(|ns|, k requires 0 <= k < |ns| => IntToString(ns[k]))
  }

  /** Every coordinate of a numeric ring in its decimal form. */
  function Decimals(ring: seq<seq<int>>): (d: seq<seq<string>>)
    ensures |d| == |ring| && forall j :: 0 <= j < |ring| ==> d[j] == DecimalRow(ring[j])
  {
    seq(|ring|, j requires 0 <= j < |ring| => DecimalRow(ring[j]))
  }

  /** `join` renders each number of a pair in decimal. */
  lemma NumberStrings(ns: seq<int>)
    ensures ElementStrings(Nums(ns), 0) == DecimalRow(ns)
  {
    var es := ElementStrings(Nums(ns), 0);
    forall k | 0 <= k < |es|
      ensures es[k] == DecimalRow(ns)[k]
    {
      assert es[k] == ElementString(Nums(ns)[0 + k]);
      assert Nums(ns)[k] == JNum(ns[k]);
      assert ElementString(JNum(ns[k])) == IntToString(ns[k]);
    }
  }

  /** With an XML target, `polygonFromGeoJSONToWKT` writes a ring of safe integers
      as the text of its decimal coordinates, as `join` converts each number. */
  lemma GeoJsonToWktOfNumbers(ring: seq<seq<int>>)
    requires forall j, k :: 0 <= j < |ring| && 0 <= k < |ring[j]| ==> SafeInteger(ring[j][k])
    ensures GeoJsonToWkt(NumberRing(ring), Xml) == Ok(WktText(Decimals(ring)))
  {
    var items := NumberRing(ring).items;
    var d := Decimals(ring);
    forall j | 0 <= j < |ring|
      ensures PairStrings(items)[j] == PairTexts(d)[j]
    {
      NumberStrings(ring[j]);
    }
    LowerOfLower(Xml);
    assert PairStrings(items) == PairTexts(d);
    var x := Join(PairTexts(d), ",");
    assert "POLYGON " + "((" + x + "))" == WktText(d);
  }

  /** A decimal integer is a coordinate token: digits and at most a minus sign. */
  lemma DecimalCoordinate(n: int)
    ensures Coordinate(IntToString(n))
  {
    var t := IntToString(n);
    forall c | c in t
      ensures !IsSpace(c) && c != ',' && c != '(' && c != ')'
    {
      var k :| 0 <= k < |t| && t[k] == c;
      if n < 0 {
        assert k == 0 || t[k] == NatToString(-n)[k - 1];
      }
    }
  }

  /** A ring of safe integers written for an XML target and read back is the
      collection of its decimal coordinates: the numbers come back as strings. */
  lemma GeoJsonNumbersRoundTrip(ring: seq<seq<int>>)
    requires |ring| > 0 && forall j :: 0 <= j < |ring| ==> |ring[j]| > 0
    requires forall j, k :: 0 <= j < |ring| && 0 <= k < |ring[j]| ==> SafeInteger(ring[j][k])
    ensures GeoJsonToWkt(NumberRing(ring), Xml).Ok?
    ensures WktToGeoJson(JStr(GeoJsonToWkt(NumberRing(ring), Xml).value)) == FeatureCollection(Decimals(ring))
  {
    var d := Decimals(ring);
    forall j, k | 0 <= j < |ring| && 0 <= k < |ring[j]|
      ensures Coordinate(d[j][k])
    {
      assert d[j][k] == IntToString(ring[j][k]);
      DecimalCoordinate(ring[j][k]);
    }
    assert SimpleRing(d);
    GeoJsonToWktOfNumbers(ring);
    WktToGeoJsonOfText(d);
  }

  /** A ring written as text for an XML target and read back is the same
      collection: the GeoJSON, WKT, GeoJSON round trip. */
  lemma GeoJsonRoundTrip(ring: seq<seq<string>>)
    requires SimpleRing(ring)
    ensures GeoJsonToWkt(RingValue(ring), Xml).Ok?
    ensures WktToGeoJson(JStr(GeoJsonToWkt(RingValue(ring), Xml).value)) == FeatureCollection(ring)
  {
    GeoJsonToWktOfRing(ring);
    WktToGeoJsonOfText(ring);
  }

  /** A bare ring `((x y,x y))` becomes `POLYGON ((x y, x y))`. */
  lemma CsvToWktOfBareRing(ring: seq<seq<string>>)
    requires SimpleRing(ring)
    ensures CsvToWkt(JStr("((" + Join(PairTexts(ring), ",") + "))")) == JStr(WktOf(ring))
  {
    var body := Join(PairTexts(ring), ",");
    BodyShape(ring, ",");
    BareRingNotWkt(body);
    MatchBareBody(body);
    RingOfText(ring);
  }

  /** A bare ring is not yet in the well-known-text form. */
  lemma BareRingNotWkt(body: string)
    requires RingBody(body)
    ensures var s := "((" + body + "))"; Trim(s) == s && !IsWkt(s)
  {
    var s := "((" + body + "))";
    TrimOfTrimmed(s);
    assert Upper(s)[0] == '(';
  }

  // ---------------------------------------------------------------- delimited-text form

  /** The already-normalised test of `polygonFromCSVToWKT`, on a trimmed string. */
  predicate IsWkt(t: string) {
    StartsWith(Upper(t), "POLYGON ((") && EndsWith(t, "))")
  }

  /** The form `polygonFromCSVToWKT` writes: pairs with single spaces, separated
      by a comma and a space. */
  function WktOf(ring: seq<seq<string>>): string {
    "POLYGON ((" + Join(PairTexts(ring), ", ") + "))"
  }

  /** `polygonFromCSVToWKT(value)`: a string already in the form is trimmed, a
      string holding a bare ring is rewritten, anything else comes back
      unchanged. */
  function CsvToWkt(value: JVal): (r: JVal)
    ensures !value.JStr? ==> r == value
    ensures value.JStr? ==> r.JStr? && (r == value || (Trim(r.s) == r.s && IsWkt(r.s)))
    ensures value.JStr? && IsWkt(Trim(value.s)) ==> r == JStr(Trim(value.s))
    ensures value.JStr? && !IsWkt(Trim(value.s)) && Search(value.s, BareRing, 0).None? ==> r == value
  {
    match value
    case JStr(s) =>
      var t := Trim(s);
      if IsWkt(t) then
        TrimOfTrimmed(t);
        JStr(t)
      else
        var m := Search(s, BareRing, 0);
        if m.None? then value
        else
          var out := WktOf(Ring(s[m.value.start..m.value.end]));
          WktOfShape(Ring(s[m.value.start..m.value.end]));
          JStr(out)
    case _ => value
  }

  lemma WktOfShape(ring: seq<seq<string>>)
    ensures Trim(WktOf(ring)) == WktOf(ring) && IsWkt(WktOf(ring))
  {
    var o := WktOf(ring);
    var u := Upper(o);
    assert o[..10] == "POLYGON ((";
    assert u[..10] == "POLYGON ((" by {
      forall m | 0 <= m < 10
        ensures u[m] == "POLYGON (("[m]
      {
        assert u[m] == UpperChar(o[m]);
      }
    }
    assert o[|o| - 2..] == "))";
    TrimOfTrimmed(o);
  }

  /** Normalising twice is normalising once: every output passes the
      already-normalised test. */
  lemma CsvToWktIdempotent(value: JVal)
    ensures CsvToWkt(CsvToWkt(value)) == CsvToWkt(value)
  {
    if value.JStr? {
      var r := CsvToWkt(value);
      if r != value {
        assert CsvToWkt(r) == r;
      }
    }
  }

  // ---------------------------------------------------------------- handlers

  function UnsupportedFileType(name: string): JsError {
    JsError("Unsupported file type: " + name, "")
  }

  /** `polygonHandlerToCSV(key, value, currentFileType)`. */
  function HandlerToCsv(key: string, value: JVal, fileType: string): (r: Result<JVal>)
    ensures Lower(fileType) == Xml ==> r == XmlToCsv(key, value)
    ensures Lower(fileType) == Json ==>
              (r.Ok? <==> GeoJsonToWkt(value, Csv).Ok?) && (r.Ok? ==> r.value == JStr(GeoJsonToWkt(value, Csv).value))
    ensures Lower(fileType) != Xml && Lower(fileType) != Json ==> r == Err(UnsupportedFileType(fileType))
  {
    var t := Lower(fileType);
    if t == Xml then XmlToCsv(key, value)
    else if t == Json then
      var w :- GeoJsonToWkt(value, Csv);
      Ok(JStr(w))
    else Err(UnsupportedFileType(fileType))
  }

  /** `polygonHandlerToJSON(value, currentFileType)`. */
  function HandlerToJson(value: JVal, fileType: string): (r: Result<JVal>)
    ensures r.Ok? <==> Lower(fileType) in {Xml, Csv, Txt}
    ensures r.Ok? ==> r.value == WktToGeoJson(value)
    ensures r.Err? ==> r.error == UnsupportedFileType(fileType)
  {
    var t := Lower(fileType);
    if t == Xml || t == Csv || t == Txt then Ok(WktToGeoJson(value))
    else Err(UnsupportedFileType(fileType))
  }

  /** `polygonHandlerToXML(value, currentFileExtension)`. */
  function HandlerToXml(value: JVal, fileType: string): (r: Result<JVal>)
    ensures Lower(fileType) == Json ==>
              (r.Ok? <==> GeoJsonToWkt(value, Xml).Ok?) && (r.Ok? ==> r.value == JStr(GeoJsonToWkt(value, Xml).value))
    ensures Lower(fileType) == Csv || Lower(fileType) == Txt ==> r == Ok(CsvToWkt(value))
    ensures Lower(fileType) !in {Json, Csv, Txt} ==> r == Err(UnsupportedFileType(fileType))
  {
    var t := Lower(fileType);
    if t == Json then
      var w :- GeoJsonToWkt(value, Xml);
      Ok(JStr(w))
    else if t == Csv || t == Txt then Ok(CsvToWkt(value))
    else Err(UnsupportedFileType(fileType))
  }

  /** Both results succeed together and then agree. */
  predicate SameOutcome(a: Result<JVal>, b: Result<JVal>) {
    (a.Ok? <==> b.Ok?) && (a.Ok? ==> a.value == b.value)
  }

  /** The handlers read the format name case-insensitively: names equal after
      lower-casing give the same outcome, though an error message repeats the name
      as it was given. */
  lemma HandlersIgnoreCase(a: string, b: string, key: string, value: JVal)
    requires Lower(a) == Lower(b)
    ensures SameOutcome(HandlerToCsv(key, value, a), HandlerToCsv(key, value, b))
    ensures SameOutcome(HandlerToJson(value, a), HandlerToJson(value, b))
    ensures SameOutcome(HandlerToXml(value, a), HandlerToXml(value, b))
  {
  }
}

=== FILE: results.dfy ===
/** Failure-compatible wrappers for the model: a thrown JavaScript error becomes an
    `Err` carrying that error's `message` and `code` properties. */
module Results {

  /** A thrown error as the service layer observes it: `e.message` and `e.code`.
      The empty string stands for an absent or otherwise falsy property, which is how
      `e.message || …` and `e.code || …` treat both. */
  datatype JsError = JsError(message: string, code: string)

  datatype Option<+T> = None | Some(value: T)

  datatype Result<+T> = Ok(value: T) | Err(error: JsError) {

    predicate IsFailure() {
      Err?
    }

    function PropagateFailure<U>(): Result<U>
      requires Err?
    {
      Err(error)
    }

    function Extract(): T
      requires Ok?
    {
      value
    }
  }

  /** A `TypeError` raised by the JavaScript engine itself (no `code` property). The
      engine's wording is not part of the model; `detail` names the situation. */
  function TypeError(detail: string): JsError {
    JsError("TypeError: " + detail, "")
  }

  /** A behaviour of the engine that the value model cannot represent (a named
      property on an array, for one). The model stops with this error instead of
      guessing. */
  function Unmodelled(what: string): JsError {
    JsError("not modelled: " + what, "")
  }

  /** `xs.map(f)` where `f` may throw, given the outcome of `f` on each element: the
      results in order, or the error of the first element that throws. */
  function Collect<T>(rs: seq<Result<T>>): (r: Result<seq<T>>)
    ensures r.Ok? <==> forall i :: 0 <= i < |rs| ==> rs[i].Ok?
    ensures r.Ok? ==> |r.value| == |rs| && forall i :: 0 <= i < |rs| ==> r.value[i] == rs[i].value
    ensures r.Err? ==> exists i :: 0 <= i < |rs| && rs[i] == Err(r.error) && forall j :: 0 <= j < i ==> rs[j].Ok?
    decreases |rs|
  {
    if |rs| == 0 then Ok([])
    else if rs[0].Err? then Err(rs[0].error)
    else
      var rest := Collect(rs[1..]);
      assert forall i :: 1 <= i < |rs| ==> rs[i] == rs[1..][i - 1];
      if rest.Err? then Err(rest.error) else Ok([rs[0].value] + rest.value)
  }
}

=== FILE: seq_facts.dfy ===
/** Small facts about sequence concatenation and slicing, stated once for any element
    type so that the proofs about fields, values and strings can cite them instead of
    rediscovering them among their own facts. */
module SeqFacts {

  lemma ConsConcat<T>(a: seq<T>, w: seq<T>)
    requires |w| > 0
    ensures (a + [w[0]]) + w[1..] == a + w
  {
  }

  lemma AppendAssoc<T>(a: seq<T>, b: seq<T>, c: seq<T>)
    ensures (a + b) + c == a + (b + c)
  {
  }

  lemma TakeSnoc<T>(s: seq<T>, i: nat)
    requires i < |s|
    ensures s[..i] + [s[i]] == s[..i + 1]
  {
  }

  lemma UpdateLast<T>(pre: seq<T>, c: T, x: T)
    ensures (pre + [c])[|pre| := x] == pre + [x]
  {
  }

  lemma AppendEmpty<T>(s: seq<T>)
    ensures s + [] == s && [] + s == s
  {
  }

  lemma DropCons<T>(s: seq<T>, i: nat)
    requires i < |s|
    ensures s[i..] == [s[i]] + s[i + 1..]
  {
  }

  lemma ConsTail<T>(s: seq<T>)
    requires |s| > 0
    ensures [s[0]] + s[1..] == s
  {
  }

  lemma SliceSplit<T>(s: seq<T>, i: nat, k: nat)
    requires i <= k <= |s|
    ensures s[i..k] + s[k..] == s[i..]
  {
  }

  lemma DropTake<T>(s: seq<T>, i: nat, n: nat)
    requires i + n <= |s|
    ensures s[i..][..n] == s[i..i + n]
  {
  }

  lemma WholeSlices<T>(s: seq<T>)
    ensures s[0..] == s && s[..|s|] == s && s[|s|..] == []
  {
  }
}

=== FILE: text.dfy ===
/** The string operations of the JavaScript runtime that the transcoding code uses:
    the whitespace class `\s` and `trim`, `split` and `join`, `startsWith`/`endsWith`,
    ASCII case mapping and decimal rendering of integers. Strings are sequences of
    code points; JavaScript's UTF-16 code units are not modelled. */
module Text {
  import opened SeqFacts

  /** `\s` in a JavaScript regular expression: WhiteSpace and LineTerminator code
      points. `String.prototype.trim` removes exactly this class. */
  predicate IsSpace(c: char) {
    || c == ' ' || c == '\t' || c == '\n' || c == '\U{000B}' || c == '\U{000C}' || c == '\r'
    || c == '\U{00A0}' || c == '\U{1680}' || ('\U{2000}' <= c <= '\U{200A}')
    || c == '\U{2028}' || c == '\U{2029}' || c == '\U{202F}' || c == '\U{205F}'
    || c == '\U{3000}' || c == '\U{FEFF}'
  }

  /** The code points `.` in a JavaScript regular expression does not match. */
  predicate IsLineTerminator(c: char) {
    c == '\n' || c == '\r' || c == '\U{2028}' || c == '\U{2029}'
  }

  /** `\w` in a JavaScript regular expression. */
  predicate IsWordChar(c: char) {
    ('a' <= c <= 'z') || ('A' <= c <= 'Z') || ('0' <= c <= '9') || c == '_'
  }

  /** `\d` in a JavaScript regular expression. */
  predicate IsDigit(c: char) {
    '0' <= c <= '9'
  }

  predicate AllSpace(s: string) {
    forall i :: 0 <= i < |s| ==> IsSpace(s[i])
  }

  predicate AllDigits(s: string) {
    forall i :: 0 <= i < |s| ==> IsDigit(s[i])
  }

  /** A non-empty run of `\w` characters: what `(\w+)` captures. */
  predicate IsWord(s: string) {
    |s| > 0 && forall i :: 0 <= i < |s| ==> IsWordChar(s[i])
  }

  predicate StartsWith(s: string, prefix: string) {
    |prefix| <= |s| && s[..|prefix|] == prefix
  }

  predicate EndsWith(s: string, suffix: string) {
    |suffix| <= |s| && s[|s| - |suffix|..] == suffix
  }

  /** `p` occurs in `s` starting at index `i`. */
  predicate OccursAt(s: string, p: string, i: int) {
    0 <= i && i + |p| <= |s| && s[i..i + |p|] == p
  }

  predicate Contains(s: string, p: string) {
    exists i :: 0 <= i <= |s| - |p| && OccursAt(s, p, i)
  }

  // ---------------------------------------------------------------- trim

  /** First index at or after `i` that does not hold whitespace. */
  function SkipSpace(s: string, i: nat): (k: nat)
    requires i <= |s|
    ensures i <= k <= |s|
    ensures forall m :: i <= m < k ==> IsSpace(s[m])
    ensures k == |s| || !IsSpace(s[k])
    decreases |s| - i
  {
    if i < |s| && IsSpace(s[i]) then SkipSpace(s, i + 1) else i
  }

  /** Start of the whitespace run that ends at `j`, not going below `lo`. */
  function SkipSpaceBack(s: string, lo: nat, j: nat): (k: nat)
    requires lo <= j <= |s|
    ensures lo <= k <= j
    ensures forall m :: k <= m < j ==> IsSpace(s[m])
    ensures k == lo || !IsSpace(s[k - 1])
    decreases j
  {
    if j > lo && IsSpace(s[j - 1]) then SkipSpaceBack(s, lo, j - 1) else j
  }

  /** `String.prototype.trim`: `s` without its leading and trailing whitespace. */
  function Trim(s: string): (r: string)
    ensures var i := SkipSpace(s, 0);
              && i + |r| <= |s| && r == s[i..i + |r|]
              && (forall m :: 0 <= m < i ==> IsSpace(s[m]))
              && (forall m :: i + |r| <= m < |s| ==> IsSpace(s[m]))
    ensures |r| == 0 || (!IsSpace(r[0]) && !IsSpace(r[|r| - 1]))
    ensures r == [] <==> AllSpace(s)
  {
    var a := SkipSpace(s, 0);
    var b := SkipSpaceBack(s, a, |s|);
    assert b == a ==> AllSpace(s);
    s[a..b]
  }

  // ---------------------------------------------------------------- visible text

  /** The characters of `s` that are not whitespace, in order: what survives any
      rewrite that only drops or replaces whitespace. */
  function Ink(s: string): string {
    if |s| == 0 then "" else InkChar(s[0]) + Ink(s[1..])
  }

  function InkChar(c: char): string {
    if IsSpace(c) then "" else [c]
  }

  lemma {:induction false} InkConcat(a: string, b: string)
    ensures Ink(a + b) == Ink(a) + Ink(b)
    decreases |a|
  {
    if |a| > 0 {
      assert (a + b)[0] == a[0];
      assert (a + b)[1..] == a[1..] + b;
      InkConcat(a[1..], b);
    } else {
      assert a + b == b;
    }
  }

  lemma {:induction false} InkAllSpace(s: string)
    requires AllSpace(s)
    ensures Ink(s) == ""
    decreases |s|
  {
    if |s| > 0 {
      assert AllSpace(s[1..]) by {
        forall m | 0 <= m < |s| - 1
          ensures IsSpace(s[1..][m])
        {
          assert s[1..][m] == s[m + 1];
        }
      }
      InkAllSpace(s[1..]);
    }
  }

  lemma InkCons(c: char, x: string)
    ensures Ink([c] + x) == InkChar(c) + Ink(x)
  {
    assert ([c] + x)[0] == c;
    assert ([c] + x)[1..] == x;
  }

  /** The suffix from `i` contributes its first character, then the rest. */
  lemma InkAt(s: string, i: nat)
    requires i < |s|
    ensures Ink(s[i..]) == InkChar(s[i]) + Ink(s[i + 1..])
  {
    assert s[i..] == [s[i]] + s[i + 1..];
    InkCons(s[i], s[i + 1..]);
  }

  /** Skipping a whitespace run leaves the visible text of the suffix unchanged. */
  lemma InkSkip(s: string, i: nat, k: nat)
    requires i <= k <= |s| && forall m :: i <= m < k ==> IsSpace(s[m])
    ensures Ink(s[i..]) == Ink(s[k..])
  {
    var run := s[i..k];
    SliceSplit(s, i, k);
    InkConcat(run, s[k..]);
    assert AllSpace(run) by {
      forall m | 0 <= m < |run|
        ensures IsSpace(run[m])
      {
        assert run[m] == s[i + m];
      }
    }
    InkAllSpace(run);
    AppendEmpty(Ink(s[k..]));
  }

  /** Trimming keeps every visible character. */
  lemma InkTrim(s: string)
    ensures Ink(Trim(s)) == Ink(s)
  {
    var t := Trim(s);
    var i := SkipSpace(s, 0);
    var e := i + |t|;
    InkSkip(s, 0, i);
    WholeSlices(s);
    assert Ink(s) == Ink(s[i..]);
    SliceSplit(s, i, e);
    assert s[i..e] == t;
    InkConcat(t, s[e..]);
    InkSkip(s, e, |s|);
    assert Ink(s[e..]) == "";
    AppendEmpty(Ink(t));
  }

  /** Trimming a string whose ends are not whitespace changes nothing, so `Trim` is
      idempotent. */
  lemma TrimOfTrimmed(s: string)
    requires |s| == 0 || (!IsSpace(s[0]) && !IsSpace(s[|s| - 1]))
    ensures Trim(s) == s
  {
  }

  // ---------------------------------------------------------------- split and join

  /** `parts.join(sep)`. */
  function Join(parts: seq<string>, sep: string): string {
    if |parts| == 0 then ""
    else if |parts| == 1 then parts[0]
    else parts[0] + sep + Join(parts[1..], sep)
  }

  lemma {:induction false} JoinSnoc(parts: seq<string>, last: string, sep: string)
    requires |parts| > 0
    ensures Join(parts + [last], sep) == Join(parts, sep) + sep + last
    decreases |parts|
  {
    if |parts| == 1 {
      assert parts + [last] == [parts[0], last];
    } else {
      assert (parts + [last])[1..] == parts[1..] + [last];
      JoinSnoc(parts[1..], last, sep);
    }
  }

  /** A join starts with its first part. */
  lemma JoinStartsWithFirst(parts: seq<string>, sep: string)
    requires |parts| > 0
    ensures StartsWith(Join(parts, sep), parts[0])
  {
    if |parts| > 1 {
      assert Join(parts, sep) == parts[0] + (sep + Join(parts[1..], sep));
    }
  }

  /** A join of two or more parts holds at least one separator. */
  lemma JoinLength(parts: seq<string>, sep: string)
    ensures |parts| >= 2 ==> |Join(parts, sep)| >= |sep|
  {
    if |parts| >= 2 {
      assert Join(parts, sep) == parts[0] + sep + Join(parts[1..], sep);
    }
  }

  /** A join ends with its last part. */
  lemma {:induction false} JoinEndsWithLast(parts: seq<string>, sep: string)
    requires |parts| > 0
    ensures EndsWith(Join(parts, sep), parts[|parts| - 1])
    decreases |parts|
  {
    if |parts| > 1 {
      JoinEndsWithLast(parts[1..], sep);
      var rest := Join(parts[1..], sep);
      var last := parts[|parts| - 1];
      assert Join(parts, sep) == (parts[0] + sep) + rest;
      assert rest[|rest| - |last|..] == last;
      assert Join(parts, sep)[|Join(parts, sep)| - |last|..] == rest[|rest| - |last|..];
    }
  }

  lemma JoinFirstChar(parts: seq<string>, sep: string)
    requires |parts| > 0 && |parts[0]| > 0
    ensures |Join(parts, sep)| > 0 && Join(parts, sep)[0] == parts[0][0]
  {
    JoinStartsWithFirst(parts, sep);
    assert Join(parts, sep)[..|parts[0]|] == parts[0];
  }

  lemma JoinLastChar(parts: seq<string>, sep: string)
    requires |parts| > 0 && |parts[|parts| - 1]| > 0
    ensures var j := Join(parts, sep); var last := parts[|parts| - 1];
            |j| > 0 && j[|j| - 1] == last[|last| - 1]
  {
    JoinEndsWithLast(parts, sep);
    var j := Join(parts, sep);
    var last := parts[|parts| - 1];
    assert j[|j| - |last|..] == last;
    assert j[|j| - 1] == j[|j| - |last|..][|last| - 1];
  }

  /** A character found in no part and not in the separator is not in the join. */
  lemma {:induction false} CharNotInJoin(parts: seq<string>, sep: string, c: char)
    requires forall j :: 0 <= j < |parts| ==> c !in parts[j]
    requires c !in sep
    ensures c !in Join(parts, sep)
    decreases |parts|
  {
    if |parts| > 1 {
      CharNotInJoin(parts[1..], sep, c);
      assert Join(parts, sep) == parts[0] + sep + Join(parts[1..], sep);
    }
  }

  /** Index of the first occurrence of `p` in `s` at or after `from`, or -1. */
  function IndexOf(s: string, p: string, from: nat): (r: int)
    requires |p| > 0
    ensures r == -1 || (from <= r && OccursAt(s, p, r))
    ensures forall k :: from <= k && (r == -1 || k < r) ==> !OccursAt(s, p, k)
    decreases |s| - from
  {
    if from + |p| > |s| then -1
    else if s[from..from + |p|] == p then from
    else IndexOf(s, p, from + 1)
  }

  /** `s.split(sep)` for a non-empty separator: the pieces between the leftmost
      non-overlapping occurrences of `sep`. */
  function SplitOn(s: string, sep: string): (parts: seq<string>)
    requires |sep| > 0
    ensures |parts| >= 1
    ensures Join(parts, sep) == s
    decreases |s|
  {
    var i := IndexOf(s, sep, 0);
    if i < 0 then
      [s]
    else
      var tail := s[i + |sep|..];
      assert s == s[..i] + sep + tail by {
        assert s[i..i + |sep|] == sep;
        assert s == s[..i] + s[i..i + |sep|] + s[i + |sep|..];
      }
      [s[..i]] + SplitOn(tail, sep)
  }

  /** No piece of a split contains the separator, and there is exactly one piece
      when `s` does not contain it. */
  lemma {:induction false} SplitOnPieces(s: string, sep: string)
    requires |sep| > 0
    ensures forall j :: 0 <= j < |SplitOn(s, sep)| ==> !Contains(SplitOn(s, sep)[j], sep)
    ensures |SplitOn(s, sep)| == 1 <==> !Contains(s, sep)
    decreases |s|
  {
    var i := IndexOf(s, sep, 0);
    if i >= 0 {
      var tail := s[i + |sep|..];
      SplitOnPieces(tail, sep);
      SplitOnFound(s, sep, i);
      PiecesFree([s[..i]], SplitOn(tail, sep), sep);
    }
  }

  /** At the first occurrence the split is the text before it followed by the split
      of the rest, and that first piece holds no occurrence. */
  lemma SplitOnFound(s: string, sep: string, i: int)
    requires |sep| > 0 && i == IndexOf(s, sep, 0) && i >= 0
    ensures Contains(s, sep) && !Contains(s[..i], sep)
    ensures SplitOn(s, sep) == [s[..i]] + SplitOn(s[i + |sep|..], sep)
  {
    var head := s[..i];
    forall k | 0 <= k <= |head| - |sep| && OccursAt(head, sep, k)
      ensures false
    {
      assert head[k..k + |sep|] == s[k..k + |sep|];
      assert OccursAt(s, sep, k);
    }
  }

  /** Pieces free of `sep` stay free of it when two lists of them are joined. */
  lemma PiecesFree(a: seq<string>, b: seq<string>, sep: string)
    requires forall j :: 0 <= j < |a| ==> !Contains(a[j], sep)
    requires forall j :: 0 <= j < |b| ==> !Contains(b[j], sep)
    ensures forall j :: 0 <= j < |a + b| ==> !Contains((a + b)[j], sep)
  {
    forall j | 0 <= j < |a + b|
      ensures !Contains((a + b)[j], sep)
    {
      if j >= |a| {
        assert (a + b)[j] == b[j - |a|];
      }
    }
  }

  /** `s.split(sep)` for any string separator: the empty separator splits into single
      code points, and then the empty string into no pieces at all. */
  function Split(s: string, sep: string): (parts: seq<string>)
    ensures |sep| > 0 ==> Join(parts, sep) == s
    ensures |sep| == 0 ==> |parts| == |s| && forall j :: 0 <= j < |s| ==> parts[j] == [s[j]]
  {
    if |sep| > 0 then SplitOn(s, sep)
    else seq(|s|, j requires 0 <= j < |s| => [s[j]])
  }

  /** Splitting the join of pieces that do not contain a one-character separator gives
      the pieces back. */
  lemma {:induction false} SplitJoin(parts: seq<string>, c: char)
    requires |parts| > 0
    requires forall j :: 0 <= j < |parts| ==> c !in parts[j]
    ensures SplitOn(Join(parts, [c]), [c]) == parts
    decreases |parts|
  {
    var s := Join(parts, [c]);
    var x := parts[0];
    if |parts| == 1 {
      NoCharNoOccurrence(x, c);
    } else {
      var rest := Join(parts[1..], [c]);
      assert s == x + [c] + rest;
      forall k | 0 <= k < |x|
        ensures !OccursAt(s, [c], k)
      {
        assert s[k] == x[k];
      }
      assert OccursAt(s, [c], |x|);
      var i := IndexOf(s, [c], 0);
      assert i == |x|;
      assert s[i + 1..] == rest;
      SplitJoin(parts[1..], c);
    }
  }

  lemma NoCharNoOccurrence(x: string, c: char)
    requires c !in x
    ensures forall k :: !OccursAt(x, [c], k)
  {
    forall k | 0 <= k < |x|
      ensures !OccursAt(x, [c], k)
    {
      assert x[k] in x;
    }
  }

  /** Removes one trailing carriage return. */
  function DropCr(s: string): string {
    if |s| > 0 && s[|s| - 1] == '\r' then s[..|s| - 1] else s
  }

  /** `s.split(/\r?\n/)`: split at every line feed, a carriage return directly
      before a line feed belonging to the separator. */
  function SplitLines(s: string): (lines: seq<string>)
    ensures |lines| == |SplitOn(s, "\n")|
  {
    var parts := SplitOn(s, "\n");
    seq(|parts|, j requires 0 <= j < |parts| => if j < |parts| - 1 then DropCr(parts[j]) else parts[j])
  }

  /** There is more than one line exactly when `s` holds a line feed. */
  lemma SingleLineIffNoLineFeed(s: string)
    ensures |SplitLines(s)| == 1 <==> '\n' !in s
  {
    SplitOnPieces(s, "\n");
    if '\n' in s {
      var k :| 0 <= k < |s| && s[k] == '\n';
      CharOccursAt(s, k);
    } else {
      NoCharNoOccurrence(s, '\n');
    }
  }

  /** Each character of `s` occurs in it as a one-character text. */
  lemma CharOccursAt(s: string, k: nat)
    requires k < |s|
    ensures OccursAt(s, [s[k]], k)
  {
    assert s[k..k + 1] == [s[k]];
  }

  /** `s.replace(/^"|"$/g, '')`: at most one leading and one trailing double quote
      removed. */
  function StripQuotes(s: string): (r: string)
    ensures |s| >= 2 && s[0] == '"' && s[|s| - 1] == '"' ==> r == s[1..|s| - 1]
    ensures (|s| == 0 || s[0] != '"') && (|s| == 0 || s[|s| - 1] != '"') ==> r == s
  {
    var a := if |s| > 0 && s[0] == '"' then s[1..] else s;
    if |a| > 0 && a[|a| - 1] == '"' then a[..|a| - 1] else a
  }

  // ---------------------------------------------------------------- case mapping

  /** ASCII part of `toLowerCase`. */
  function LowerChar(c: char): char {
    if 'A' <= c <= 'Z' then (c as int + 32) as char else c
  }

  /** ASCII part of `toUpperCase`. */
  function UpperChar(c: char): char {
    if 'a' <= c <= 'z' then (c as int - 32) as char else c
  }

  function Lower(s: string): (r: string)
    ensures |r| == |s| && forall i :: 0 <= i < |s| ==> r[i] == LowerChar(s[i])
  {
    seq(|s|, i requires 0 <= i < |s| => LowerChar(s[i]))
  }

  function Upper(s: string): (r: string)
    ensures |r| == |s| && forall i :: 0 <= i < |s| ==> r[i] == UpperChar(s[i])
  {
    seq(|s|, i requires 0 <= i < |s| => UpperChar(s[i]))
  }

  // ---------------------------------------------------------------- numbers

  function DigitChar(d: nat): (c: char)
    requires d < 10
    ensures IsDigit(c) && c as int - '0' as int == d
  {
    ('0' as int + d) as char
  }

  /** Decimal rendering of a natural number without leading zeros. */
  function NatToString(n: nat): (r: string)
    ensures |r| >= 1 && AllDigits(r)
    ensures r[0] == '0' ==> n == 0
    decreases n
  {
    if n < 10 then [DigitChar(n)] else NatToString(n / 10) + [DigitChar(n % 10)]
  }

  /** `Number(digits)` for a string of decimal digits. */
  function DigitsValue(s: string): nat
    requires AllDigits(s)
  {
    if |s| == 0 then 0 else 10 * DigitsValue(s[..|s| - 1]) + (s[|s| - 1] as int - '0' as int)
  }

  lemma {:induction false} DigitsValueOfNatToString(n: nat)
    ensures DigitsValue(NatToString(n)) == n
    decreases n
  {
    if n >= 10 {
      var s := NatToString(n);
      assert s[..|s| - 1] == NatToString(n / 10);
      DigitsValueOfNatToString(n / 10);
    }
  }

  /** `String(n)` for an integer. */
  function IntToString(n: int): (r: string)
    ensures |r| >= 1
  {
    if n < 0 then "-" + NatToString(-n) else NatToString(n)
  }
}
